=== FILE: README.md ===
# testgenius front-end rules, in Dafny

This project models the logic of the testgenius web front-end. That front-end lets teachers generate tests with an AI back-end, edit them and run them live while watching their participants. Most of the code is React presentation. The parts modelled here are the rules in between:

- how socket events become a participant list;
- what the monitor pages compute from that list;
- the socket service's registry of sockets and listeners;
- the test editor's operations on sections, questions and options;
- the validators, scorers and formatters of the auth, create, results and settings pages.

Every React state updater `setX(prev => …)` is written as a pure function from the previous value to the next. Events and timer ticks are explicit inputs. Random ids and `Date.now()` are passed in as parameters. Ids are strings. JSON fields that may be missing are `Option` values, and JavaScript truthiness (`a || b`) is written out in `Js.Truthy` / `Js.OrElse`.

Modules, one per source file or shared concern:

| module | file | what it holds |
|---|---|---|
| `Js`, `Text`, `Seqs` | js.dfy, text.dfy, seqs.dfy | JavaScript value conventions, string operations (`trim`, `\s`, `includes`, `padStart`, `indexOf`, `split`, number printing, `Number` of a string), order-preserving filter, count and flatten |
| `ParticipantWire` | participant_wire.dfy | the participant record and status string the server sends, shared by both live hooks |
| `MonitorSocket` | monitor_socket.dfy | `hooks/use-monitor-socket.ts`: record normalisation, the JOIN / CHANGE_USER_DATA / USER_LEFT / PROGRESS_UPDATED updaters, join-once and control emits |
| `ParticipantsSocket` | participants_socket.dfy | `hooks/use-participants-socket.ts`: placeholder snapshot, completeness-derived status, join-once guard |
| `MonitorView` | monitor_view.dfy | `app/dashboard/monitor/page.tsx`: filter, average progress, named-first order, status counts, countdown, pause/resume, start enablement |
| `LiveMonitor` | live_monitor.dfy | `app/monitor/page.tsx`: the not_started/starting/started state machine, simulated joins, countdown and progress |
| `Clock` | clock.dfy | the one-second countdown tick and the `[hh:]mm:ss` rendering of `components/test-timer.tsx` |
| `SocketService` | socket_service.dfy | `lib/socket-service.ts`: socket cache, listener registry, cleanup, emit, notify, close |
| `TestPreview` | test_preview.dfy | `components/test-preview.tsx`: server-to-editor conversion and every editing handler |
| `AuthValidation`, `Signup`, `Signin`, `ResetPassword`, `CodeInput`, `PasswordStrength` | auth_validation.dfy, signup.dfy, signin.dfy, reset_password.dfy, code_input.dfy, password_strength.dfy | the auth pages' field rules, error routing, verification code input and strength meter |
| `Middleware` | middleware.dfy | `middleware.ts`: the routing decision over (pathname, token present) |
| `CreateForm` | create_form.dfy | `app/dashboard/create/page.tsx`: schema bounds, tags, topics, steps, accepted file types |
| `ResultsCharts`, `DurationSlider`, `DebugLog`, `SettingsTabs`, `SavedTests` | results_charts.dfy, duration_slider.dfy, debug_log.dfy, settings_tabs.dfy, saved_tests.dfy | score bands and formatting, the duration slider, the bounded debug log, settings-tab selection, saved-test search |

## Model

| member | source | states |
|---|---|---|
| Clock.Tick | app/dashboard/monitor/page.tsx:137-143 | one countdown tick lowers a positive count by one and leaves zero (or less) at zero |
| Clock.TicksReachZero | app/dashboard/monitor/page.tsx:134-145 | after n ticks from t ≥ 0 the countdown shows max(0, t − n): it stops at zero and never goes negative |
| Clock.ZeroIsFixed | app/dashboard/monitor/page.tsx:138-140 | a countdown at zero stays at zero however many ticks follow |
| Clock.Decompose | components/test-timer.tsx:5-7 | minutes and seconds are below 60 and hours·3600 + minutes·60 + seconds equals the input |
| Clock.DecomposeUnique | components/test-timer.tsx:5-7 | any triple with minutes and seconds below 60 that sums to the input is the decomposition |
| Clock.Pad | components/test-timer.tsx:13 | `padStart(2, "0")` yields at least two digits, exactly the two-digit form for values below 100 |
| Clock.Render | components/test-timer.tsx:11-19 | the hours field and its colon appear only when hours > 0; minutes and seconds are always two zero-padded digits |
| Clock.RenderRoundTrip | components/test-timer.tsx:5-19 | the rendered clock has digits separated by colons and reading it back gives the original number of seconds |
| ParticipantWire.Parse | hooks/use-monitor-socket.ts:65-78 | a status string reads back to itself; only the five known names are recognised, any other string is kept verbatim |
| ParticipantWire.Normalize | hooks/use-monitor-socket.ts:65-68 | a missing, empty or "pending" status becomes joining; any other status is kept as sent |
| ParticipantWire.NormalizeName | hooks/use-monitor-socket.ts:65-68 | sending a stored status back through the normaliser returns it unchanged |
| MonitorSocket.NormalizedId | hooks/use-monitor-socket.ts:55-59 | the id is the first non-empty of id, userId and clientId, else the random fallback |
| MonitorSocket.Prefix6 | hooks/use-monitor-socket.ts:63 | `id.substring(0, 6)` is the id's first six characters, or all of a shorter id |
| MonitorSocket.DisplayName | hooks/use-monitor-socket.ts:60-63 | the name is the trimmed "first last" when that is non-empty, else "Participant " and the id's first six characters; it is never empty |
| MonitorSocket.Format | hooks/use-monitor-socket.ts:54-82 | `formatParticipant`: the normalised id; userId and clientId default to it; names and email default to ""; the status is normalised; progress defaults to 0 and joinedAt to now |
| MonitorSocket.LastWithId | hooks/use-monitor-socket.ts:92-96 | the lookup in `new Map(prev.map(...))` finds nothing exactly when no entry has the id, and otherwise the last entry with it |
| MonitorSocket.LastWithIdUnique | hooks/use-monitor-socket.ts:92-96 | with unique ids the lookup finds the one entry carrying the id |
| MonitorSocket.MergeOne | hooks/use-monitor-socket.ts:95-106 | a merged entry is the new record, with the existing entry's joinedAt when the id was listed |
| MonitorSocket.MergeSnapshot | hooks/use-monitor-socket.ts:85-112 | the list becomes exactly the normalised incoming records in incoming order, each keeping the joinedAt of a listed entry with the same id; entries absent from the snapshot are dropped |
| MonitorSocket.SnapshotKeepsJoinedAt | hooks/use-monitor-socket.ts:95-103 | a participant listed before and again in the snapshot keeps its joinedAt |
| MonitorSocket.SnapshotUniqueIds | hooks/use-monitor-socket.ts:85-112 | a snapshot whose records normalise to distinct ids yields a list without duplicate ids |
| MonitorSocket.JoinRecord | hooks/use-monitor-socket.ts:151-160 | the JOIN snapshot's pre-mapping prefers userId as the id, carries no clientId and fills joinedAt with now when absent |
| MonitorSocket.JoinOne | hooks/use-monitor-socket.ts:163-182 | a single join appends a joining, progress-0 entry only when no entry has that id; otherwise the list is unchanged |
| MonitorSocket.JoinOneUnique | hooks/use-monitor-socket.ts:175-181 | a single join never introduces a duplicate id |
| MonitorSocket.DeltaEntry | hooks/use-monitor-socket.ts:219-230 | a matched entry is replaced by the fully re-normalised delta, whose id comes from the delta, keeping the old joinedAt |
| MonitorSocket.ApplyDelta | hooks/use-monitor-socket.ts:210-234 | the list keeps its length; entries the key does not match by id or clientId are untouched; matched ones become the re-normalised delta; every joinedAt is kept |
| MonitorSocket.ApplyDeltaIntended | hooks/use-monitor-socket.ts:210-234 | the corrected delta update differs from the written one only in keeping each matched entry's id, and so keeps ids unique when they were |
| MonitorSocket.DeltaPromotesJoining | hooks/use-monitor-socket.ts:221-223 | a delta without a status turns a joining entry active and keeps any other status |
| MonitorSocket.DeltaUsesSentStatus | hooks/use-monitor-socket.ts:219-224 | a delta with a status stores that status, normalised |
| MonitorSocket.DeltaResetsAbsentFields | hooks/use-monitor-socket.ts:219-230 | fields absent from a delta fall back to defaults (progress 0, email "") instead of keeping the old values |
| MonitorSocket.DeltaCanDuplicateIds | hooks/use-monitor-socket.ts:210-230 | as written, a delta keyed by clientId can give two entries with distinct ids the same id |
| MonitorSocket.MarkLeft | hooks/use-monitor-socket.ts:256-262 | entries with the id become left, all others stay; nothing is removed |
| MonitorSocket.MarkLeftIdempotent | hooks/use-monitor-socket.ts:256-262 | leaving twice is the same as leaving once |
| MonitorSocket.SetProgress | hooks/use-monitor-socket.ts:273-279 | only the progress of entries with the id changes; everything else stays |
| MonitorSocket.SetProgressUnknownId | hooks/use-monitor-socket.ts:273-279 | a progress update for an id nobody has leaves the list as it was |
| MonitorSocket.OnJoin | hooks/use-monitor-socket.ts:149-182 | with a user list the result has one entry per listed user; without one and without a userId the list is unchanged |
| MonitorSocket.OnChange | hooks/use-monitor-socket.ts:192-238 | a field that makes the handler throw (unparseable JSON, or JSON for null, a non-empty string or an object with a positive length) leaves the list as it was; a non-empty user list becomes one entry per user that carries some id; without users a delta keeps the list's length, and without a key the list is unchanged |
| MonitorSocket.OnEvent | hooks/use-monitor-socket.ts:145-300 | USER_LEFT without userId and PROGRESS_UPDATED without userId or numeric progress change nothing; only JOIN clears the loading flag; no event touches the joined-room flag |
| MonitorSocket.LeaveAndProgressKeepIds | hooks/use-monitor-socket.ts:251-282 | leave and progress events never change which ids are listed, nor their order |
| MonitorSocket.JoinRoomEffect | hooks/use-monitor-socket.ts:115-135 | the join request goes out exactly when connected, with a join code and not yet joined, carrying `Number(code)`, and then marks the room joined and loading |
| MonitorSocket.JoinSendsCodeNumber | hooks/use-monitor-socket.ts:115-128 | a code typed as digits, with leading zeros or blanks around it, is sent as its number, whereas `startTest` sends the code text as typed |
| Text.ToNumber | hooks/use-monitor-socket.ts:120-122 | `Number(code)` of blank text is 0, and of a decimal digit string is the number it spells (section 7.1.4.1.1 of ECMA-262) |
| Text.NumberOfPrinted | hooks/use-monitor-socket.ts:120-122 | a printed natural number, with any leading zeros and equal blanks on both sides, reads back as that number |
| Text.NumberOfNegative | hooks/use-monitor-socket.ts:120-122 | a minus sign before a printed number gives its negation |
| Text.NumberOfHex | hooks/use-monitor-socket.ts:120-122 | hexadecimal digits after `0x` read in radix 16, and the same numeral with a minus sign is NaN |
| Text.NumberOfWord | hooks/use-monitor-socket.ts:120-122 | a word of lower-case letters is NaN (sent as null) |
| Text.NumberOfPointed | hooks/use-monitor-socket.ts:120-122 | digits with a decimal point are recognised as a numeral outside the modelled integers |
| MonitorSocket.JoinRoomAtMostOnce | hooks/use-monitor-socket.ts:125-135 | after a run of the effect that emits the join, the next run emits nothing, whatever single event arrives in between |
| MonitorSocket.JoinsEmitted | hooks/use-monitor-socket.ts:115-135 | over any run of effect runs and inbound events the join is emitted at most once, and never once the room was joined |
| MonitorSocket.StartTest | hooks/use-monitor-socket.ts:309-319 | the start command goes out exactly when connected with a join code, carrying the code and duration |
| MonitorSocket.Pause | hooks/use-monitor-socket.ts:322-328 | the pause command goes out exactly when connected with a test id |
| MonitorSocket.Resume | hooks/use-monitor-socket.ts:331-337 | the resume command goes out exactly when connected with a test id |
| MonitorSocket.DisconnectedSendsNothing | hooks/use-monitor-socket.ts:309-355 | while disconnected none of join, start, pause, resume or remove sends anything or changes the state |
| MonitorSocket.PauseResumePair | hooks/use-monitor-socket.ts:322-337 | pause and resume are sent in exactly the same situations, naming the same test with different commands |
| MonitorSocket.Remove | hooks/use-monitor-socket.ts:340-355 | when connected with a test id the removal is emitted and every entry with that id is dropped, every other entry kept with its multiplicity and in order; otherwise nothing happens |
| MonitorSocket.RunControls | hooks/use-monitor-socket.ts:309-355 | a run of start, pause, resume and remove sends at most one command per control, changes nothing but the participant list, and only drops participants; while disconnected it sends nothing and changes nothing |
| MonitorSocket.ControlsSendEach | hooks/use-monitor-socket.ts:309-355 | connected, with a join code and a test id, every control in a run sends its command, and a run without removals leaves the state exactly as it was |
| ParticipantsSocket.Placeholder | hooks/use-participants-socket.ts:76-82 | a JOIN placeholder is joining with progress 0 and no names or email; its clientId is clientId, else id, else the random fallback; joinedAt defaults to now |
| ParticipantsSocket.JoinSnapshot | hooks/use-participants-socket.ts:74-86 | the JOIN snapshot replaces the list with one joining, progress-0, nameless placeholder per incoming user, in order |
| ParticipantsSocket.ChangeStatus | hooks/use-participants-socket.ts:39-107 | "pending" gives joining; otherwise complete data (first name, last name and email all non-empty) gives active; otherwise the sent status, or joining when none is sent |
| ParticipantsSocket.IsComplete | hooks/use-participants-socket.ts:39-41 | a record is complete exactly when each of first name, last name and email is present and non-empty |
| ParticipantsSocket.CompleteIsActive | hooks/use-participants-socket.ts:39-106 | complete data is shown as active unless the server still says "pending" |
| ParticipantsSocket.FindByClientId | hooks/use-participants-socket.ts:99 | `prev.find` finds nothing exactly when no entry has the client id, and otherwise an entry that has it |
| ParticipantsSocket.Changed | hooks/use-participants-socket.ts:97-118 | a changed entry takes the incoming fields, the derived status and progress (default 0); joinedAt comes from the first listed entry with the same clientId, else from the record or now |
| ParticipantsSocket.ChangeSnapshot | hooks/use-participants-socket.ts:94-121 | the CHANGE_USER_DATA updater yields one entry per incoming user, in incoming order |
| ParticipantsSocket.ChangeKeepsJoinedAt | hooks/use-participants-socket.ts:99-117 | a user whose clientId was listed keeps the first such entry's joinedAt |
| ParticipantsSocket.JoinThenChangeKeepsJoinedAt | hooks/use-participants-socket.ts:74-117 | after a JOIN snapshot with distinct client ids, a changed user listed under a joined client id keeps the join time the snapshot recorded |
| ParticipantsSocket.OnEvent | hooks/use-participants-socket.ts:71-122 | an event whose `onlineUsers` is not an array changes nothing; otherwise the list gets one entry per user; events never touch the joined-room flag |
| ParticipantsSocket.JoinRoomEffect | hooks/use-participants-socket.ts:44-61 | the join request goes out exactly when connected, with a join code and not yet joined, carrying `Number(code)`; it then marks the room joined and loading and leaves the participants untouched; otherwise nothing changes |
| ParticipantsSocket.JoinsEmitted | hooks/use-participants-socket.ts:53-61 | over any run of effect runs and events the join request is emitted at most once, and never after the room was joined |
| MonitorView.FilterParticipants | app/dashboard/monitor/page.tsx:160-164 | a participant is kept exactly when the text occurs, ignoring case, in its name or in its non-empty email |
| MonitorView.FilterKeepsOrder | app/dashboard/monitor/page.tsx:160 | the filtered list is a subsequence of the participant list |
| MonitorView.EmptyFilterKeepsAll | app/dashboard/monitor/page.tsx:160-164 | an empty search text keeps every participant, in order |
| MonitorView.ActiveCount | app/dashboard/monitor/page.tsx:175-178 | the active count is at most the list length, and zero exactly when nobody is active |
| MonitorView.AverageProgress | app/dashboard/monitor/page.tsx:172-185 | 0 for an empty list or no active participant; otherwise the active participants' total progress divided by their number, rounded half up |
| MonitorView.ActiveSumBounds | app/dashboard/monitor/page.tsx:175-183 | with every progress in 0..100, the active total lies between 0 and 100 times the active count |
| MonitorView.RoundedMeanBounds | app/dashboard/monitor/page.tsx:184 | a rounded mean of values in 0..100 lies in 0..100 |
| MonitorView.AverageIsPercentage | app/dashboard/monitor/page.tsx:172-185 | when every progress is a percentage, so is the average shown |
| MonitorView.SortNamedFirst | app/dashboard/monitor/page.tsx:190-197 | the sorted list is a permutation of the input with every participant having both names before every one lacking one, each group in its original order |
| MonitorView.NamedFirstSplit | app/dashboard/monitor/page.tsx:190-197 | an arrangement with named participants first is its named group followed by the rest |
| MonitorView.SortNamedFirstUnique | app/dashboard/monitor/page.tsx:190-197 | the stable order is unique: any arrangement that puts named participants first and keeps each group's order is the sorted list |
| MonitorView.CountStatus | app/dashboard/monitor/page.tsx:540-565 | a status count is the length of the list filtered by that status: at most the list length, and zero exactly when no participant has that status |
| MonitorView.CountStatusAppend | app/dashboard/monitor/page.tsx:540-565 | counting a list made of two parts adds the parts' counts |
| MonitorView.StatusCountsBounded | app/dashboard/monitor/page.tsx:540-565 | the active, joining, idle and left counts together never exceed the list length |
| MonitorView.ActiveCountIsStatusCount | app/dashboard/monitor/page.tsx:175-178 | the active count on the card is the one the average is taken over |
| MonitorView.StartDisabled | app/dashboard/monitor/page.tsx:334-357 | the start button is disabled exactly while a start is in flight or when no participant is active |
| MonitorView.CountdownNeverNegative | app/dashboard/monitor/page.tsx:134-145 | the countdown never goes below 0, and within the time left it drops by exactly one per tick |
| MonitorView.PauseResume | app/dashboard/monitor/page.tsx:210-217 | the button flips the paused flag and issues resume exactly when it was paused |
| MonitorView.PauseResumeTwice | app/dashboard/monitor/page.tsx:210-217 | two presses restore the flag and issue one pause and one resume |
| LiveMonitor.SetConnected | app/monitor/page.tsx:58-85 | the connection events change only the connected flag |
| LiveMonitor.OnStartOnlineTest | app/monitor/page.tsx:88-104 | the start event always sets the state to started; a non-zero duration resets the time remaining to duration·60, otherwise it is kept; nothing else changes |
| LiveMonitor.SimulatedJoin | app/monitor/page.tsx:107-111 | the demo interval adds one participant only while not started and below five; otherwise the page is unchanged |
| LiveMonitor.ProgressPercent | app/monitor/page.tsx:147-148 | the progress is at most 100, not negative for non-negative elapsed time, and otherwise the rounded share of elapsed seconds in the test's 3600 |
| LiveMonitor.Second | app/monitor/page.tsx:136-149 | the countdown runs only while started with time left: the clock ticks down without going below 0 and the progress is taken from the time before the tick |
| LiveMonitor.ClickStart | app/monitor/page.tsx:157-179 | a click is refused with the page unchanged and nothing emitted unless the state is not_started and the page is connected; otherwise the state becomes starting and the start request (test id, 60 minutes) is emitted |
| LiveMonitor.TimeDisplay | app/monitor/page.tsx:191-234 | once started the panel shows a clock that reads back as the time remaining; before that it shows "60:00" |
| LiveMonitor.InitialValid | app/monitor/page.tsx:33-37 | the initial page has at most five participants and progress at most 100 |
| LiveMonitor.RunKeepsValid | app/monitor/page.tsx:107-149 | no sequence of events takes the simulated count above five or the progress above 100 |
| LiveMonitor.StartedIsFinal | app/monitor/page.tsx:88-167 | once started, no event takes the page back to not_started or starting |
| LiveMonitor.StartRefusedWhileDisconnected | app/monitor/page.tsx:158-165 | a disconnected page ignores the start button and emits nothing |
| LiveMonitor.EnabledStartEmits | app/monitor/page.tsx:157-179 | when the start button is enabled, clicking it always moves to starting and emits the start request |
| LiveMonitor.SecondsCountDown | app/monitor/page.tsx:136-145 | n seconds on a started page count the clock down to max(0, t − n) and keep it started |
| LiveMonitor.ProgressIsPercentage | app/monitor/page.tsx:147-149 | with no more than the test's duration left, the progress shown stays between 0 and 100 |
| SocketService.SetAdd | lib/socket-service.ts:111 | `set.add` keeps the set duplicate-free, adds the callback, and leaves a set that already holds it unchanged |
| SocketService.SetDelete | lib/socket-service.ts:119 | `set.delete` removes that callback and keeps every other member |
| SocketService.InitialValid | lib/socket-service.ts:39-40 | the empty service satisfies the invariant: listener maps for exactly the cached namespaces, handles below the counter, no duplicate callbacks |
| SocketService.CreateSocket | lib/socket-service.ts:52-90 | a failed creation returns null and changes nothing; a successful one caches a socket distinct from every other and gives the namespace an empty listener map |
| SocketService.GetSocket | lib/socket-service.ts:43-49 | a cached socket is returned without change; otherwise creation is attempted; a socket is returned exactly when the namespace then has it cached |
| SocketService.GetSocketCached | lib/socket-service.ts:43-82 | after a successful `getSocket`, every later call returns the same socket and changes nothing |
| SocketService.On | lib/socket-service.ts:93-121 | with no socket nothing is recorded and the cleanup is a no-op; otherwise the callback joins the (namespace, event) set, other callbacks, events and namespaces keep their sets, and the socket cache is that of `getSocket` |
| SocketService.RunCleanup | lib/socket-service.ts:117-120 | a cleanup deletes its callback from the set it captured; once that socket is no longer the cached one it changes nothing visible; sockets are never touched |
| SocketService.CleanupRemovesOnlyItsCallback | lib/socket-service.ts:105-120 | subscribing and then running the returned cleanup removes exactly that callback: every other subscriber of the event stays |
| SocketService.StaleCleanupIsHarmless | lib/socket-service.ts:117-160 | a cleanup kept across `closeSocket` changes nothing, even after the namespace reconnects |
| SocketService.Emit | lib/socket-service.ts:124-133 | `emit` returns false, sending nothing, exactly when no socket can be had; the service changes as `getSocket` changes it |
| SocketService.Notify | lib/socket-service.ts:136-150 | every callback registered for (namespace, event) is invoked in registration order, whether or not earlier ones throw; exactly the throwing ones are logged (it is called only from the connect and disconnect handlers, see Dispatch) |
| SocketService.Dispatch | lib/socket-service.ts:66-114 | when the socket fires an event, each registered callback runs twice for connect and disconnect (notification, then socket listener) and once for any other event; nothing else runs |
| SocketService.ConnectDeliveredTwice | lib/socket-service.ts:66-114 | as written, a callback subscribed to connect runs twice on each connection |
| SocketService.DispatchIntended | lib/socket-service.ts:136-150 | the corrected dispatch runs each registered callback exactly once, in registration order, without repeats |
| SocketService.ConnectDeliveredOnce | lib/socket-service.ts:66-114 | with the corrected dispatch a connect subscriber runs once per connection |
| SocketService.FailedCallbacks | lib/socket-service.ts:143-149 | the logged failures are exactly the invoked callbacks that throw |
| SocketService.CloseSocket | lib/socket-service.ts:153-160 | the namespace loses its socket and all its listener bookkeeping; every other namespace keeps both |
| SocketService.CloseAll | lib/socket-service.ts:163-167 | afterwards no namespace has a cached socket or listener bookkeeping |
| TestPreview.LetterId | components/test-preview.tsx:347 | the fallback option id is the single character with code 97 + index, a lower-case letter for the first 26 positions |
| TestPreview.ConvertOption | components/test-preview.tsx:346-349 | an option keeps its own id and text when they are truthy; otherwise it gets the letter of its position and `String(opt)` as text |
| TestPreview.ConvertOptions | components/test-preview.tsx:344-350 | a missing option list converts to none; otherwise option i converts with position i and the count is kept |
| TestPreview.ConvertQuestion | components/test-preview.tsx:340-356 | a converted question takes its task's type, the server id (else "q-" and a random id), the answers as a list (empty when missing), score 1 when none is given, and no recorded answer id |
| TestPreview.TaskQuestions | components/test-preview.tsx:339-358 | a task contributes exactly its own questions, in order, each converted with the task's type (fill-in-the-blank when missing) |
| TestPreview.TaskBlocks | components/test-preview.tsx:337-360 | block t holds the converted questions of task t |
| TestPreview.FlattenPosition | components/test-preview.tsx:337-360 | in a section's flattened question list, question j of task t sits right after all questions of the earlier tasks and is converted with task t's type |
| TestPreview.FlattenTasksLength | components/test-preview.tsx:337-360 | the flattened list is exactly as long as all tasks' questions together; no question is lost or invented |
| TestPreview.ConvertSection | components/test-preview.tsx:333-361 | a section keeps its id (else "section-" and a random id); its questions are the flattening of its tasks, or none when it has no task list |
| TestPreview.Convert | components/test-preview.tsx:325-363 | the title falls back to the test id, then "Untitled Test"; sections convert one for one, in order, or to none when missing |
| TestPreview.WithoutQuestion | components/test-preview.tsx:392-395 | a section minus a question id keeps its id, title and instruction and holds exactly its questions with a different id |
| TestPreview.StripQuestion | components/test-preview.tsx:391-395 | the question is removed from every section, one section out per section in |
| TestPreview.DeleteQuestion | components/test-preview.tsx:388-398 | after deletion no section is empty and none holds a question with the id; the surviving sections are the stripped ones in their original order, never more than before |
| TestPreview.DeleteQuestionKeepsOthers | components/test-preview.tsx:388-398 | every question with another id survives, in a section with its old section's id |
| TestPreview.DeleteQuestionIdempotent | components/test-preview.tsx:388-398 | deleting the same id twice gives the same sections as deleting it once |
| TestPreview.NewQuestion | components/test-preview.tsx:418-462 | a new question has score 1 and id "q-" plus a random id; its type defaults to multiple choice; it has no options exactly for the two free-text types, and otherwise its answer is one of its options and equals its recorded answer id |
| TestPreview.AddQuestion | components/test-preview.tsx:400-487 | the question is appended to the first section and the other sections are untouched; a test with no sections gets one new section holding just that question |
| TestPreview.WithoutAppended | components/test-preview.tsx:392-395 | removing a question appended under an id no other question of the section has gives back the section as it was |
| TestPreview.AddThenDelete | components/test-preview.tsx:388-487 | deleting a question just added under a fresh id restores the sections, when none of them was empty |
| TestPreview.AddOption | components/test-preview.tsx:531-536 | adding an option keeps the old options and appends the next letter id, labelled "Option " plus that letter in upper case |
| TestPreview.RemoveOption | components/test-preview.tsx:538-557 | removal is refused with two or fewer options; otherwise exactly the option at the index is removed, and a removed correct answer passes to the new first option |
| TestPreview.RemoveOptionKeepsAnswerValid | components/test-preview.tsx:538-557 | after a removal the correct answer still names one of the remaining options |
| TestPreview.AddThenRemove | components/test-preview.tsx:531-557 | adding an option and removing it again restores the options and leaves the answer alone |
| TestPreview.FindOption | components/test-preview.tsx:570 | the lookup finds nothing exactly when no option has the answer id; a found option is in the list and has that id |
| TestPreview.SavedAnswer | components/test-preview.tsx:562-572 | a multiple-choice answer whose option exists is stored as "id. text"; any other answer is stored as the bare id |
| TestPreview.SaveQuestion | components/test-preview.tsx:559-592 | with nothing being edited nothing changes; otherwise only the questions with the edited id change, taking the dialog's text, answer and answer id (and options for multiple choice) while keeping id, score, type and explanation |
| TestPreview.MatchLetterPrefix | components/test-preview.tsx:523 | the pattern matches exactly a lower-case letter, a dot and a whitespace character at the start, and captures the letter |
| TestPreview.ExtractAnswerId | components/test-preview.tsx:515-525 | a truthy recorded answer id wins; a list answer otherwise gives its first item (none for an empty list); a string answer gives the letter of its "x. " prefix, or else the whole string; a missing answer gives "" |
| TestPreview.LetterAnswerRoundTrip | components/test-preview.tsx:523-524 | the stored "x. text" form of a letter answer yields that letter back, whatever the text |
| TestPreview.SaveThenExtract | components/test-preview.tsx:515-592 | saving a multiple-choice answer with a single-letter id and reopening the question recovers the id, even when the recorded id has been lost |
| TestPreview.OpenEditor | components/test-preview.tsx:493-529 | the dialog opens on the question's text, type and extracted answer id; a multiple-choice question always gets options, its own when it has any; other types get none |
| TestPreview.SaveThenOpen | components/test-preview.tsx:493-592 | saving a multiple-choice dialog and opening the question again shows the same dialog |
| TestPreview.ChangeOption | components/test-preview.tsx:603-607 | editing an option changes only that option's text; all ids and the other options stay |
| TestPreview.ChangeOptionKeepsAnswer | components/test-preview.tsx:570-607 | editing an option's text never changes whether the answer id names an option |
| TestPreview.NormalizeType | components/test-preview.tsx:726 | the normalised type has the same length; each dash becomes an underscore and every other character is lower-cased, so no dash or upper-case letter remains |
| TestPreview.NormalizeTypeIdempotent | components/test-preview.tsx:726 | normalising twice is normalising once |
| TestPreview.RendererKind | components/test-preview.tsx:266-285 | a known renderer is chosen exactly when the normalised type is that renderer's spelling (so the type has the spelling's length); the generic renderer exactly when it is none of the five |
| TestPreview.TypeLabel | components/test-preview.tsx:717-728 | each of the five known types, in any case and with dashes for underscores, gets its label; any other type is shown as given |
| TestPreview.SameNormalFormSameLabel | components/test-preview.tsx:268-285 | spellings of a known type that normalise alike get the same label and the same renderer |
| TestPreview.DashedSpellingIsKnown | components/test-preview.tsx:717-728 | "Multiple-Choice" is labelled "Multiple Choice"; an unknown type such as "essay" keeps its own name |
| TestPreview.HighlightKey | components/test-preview.tsx:114 | the renderer's key is at most one character for a string answer, and comes from the first item of a non-empty list answer |
| TestPreview.SavedAnswerHighlightsOption | components/test-preview.tsx:113-126 | the option saved as the correct multiple-choice answer (a lower-case letter id) is the one shown as correct |
| AuthValidation.ValidEmail | app/auth/signup/page.tsx:70-73 | `validateEmail` holds exactly for the strings the regular expression `^[^\s@]+@[^\s@]+\.[^\s@]+$` matches |
| AuthValidation.ValidEmailMatchesPattern | app/auth/signup/page.tsx:70-73 | the character scan that computes `validateEmail` accepts exactly the strings `^[^\s@]+@[^\s@]+\.[^\s@]+$` matches: some split into local part, "@", domain text, ".", last label, each non-empty and free of whitespace and "@" |
| AuthValidation.EmailError | app/auth/signup/page.tsx:97-103 | no email error exactly for a valid address; the empty email gets "Email is required" |
| AuthValidation.PasswordError | app/auth/signup/page.tsx:105-111 | no password error exactly when the password has at least 8 characters |
| AuthValidation.ConfirmError | app/auth/signup/page.tsx:113-119 | no confirmation error exactly when the confirmation is non-empty and equal to the password |
| Signup.SubmitDetails | app/auth/signup/page.tsx:92-124 | a name error exactly for an empty name; email, password and confirmation errors by the shared rules; registration is attempted exactly when there is no error |
| Signup.SubmitsIff | app/auth/signup/page.tsx:92-124 | registration is attempted iff the name is non-empty, the email is valid, the password has ≥ 8 characters and the confirmation equals it; the last name never matters |
| Signup.RouteRegistrationError | app/auth/signup/page.tsx:157-174 | a non-HTTP failure shows "Registration failed. Please try again." under the email; an HTTP failure shows its message, under the password exactly when it mentions "password" and none of the email phrases |
| Signup.EmailWinsOverPassword | app/auth/signup/page.tsx:160-168 | a message mentioning "email" goes under the email field even when it also mentions "password" |
| Signup.CodeError | app/auth/signup/page.tsx:196-201 | the verification code is rejected unless it has exactly six characters |
| Signup.ResendAllowed | app/auth/signup/page.tsx:263-264 | a resend is allowed exactly when the cooldown has nothing left to count down: one more tick would not lower it |
| Signup.CooldownUnlocksAfterSixtyTicks | app/auth/signup/page.tsx:263-319 | after a resend starts the 60-second cooldown, resending is allowed again exactly once sixty ticks have passed |
| Signin.Submit | app/auth/signin/page.tsx:59-75 | email required and well-formed, password required; the request is sent exactly when the email is valid and the password non-empty |
| Signin.RouteError | app/auth/signin/page.tsx:114-147 | a network-like error goes to the general field; otherwise a message about an unregistered email or about verification goes to the email field; everything else goes to the password field, always with the server's message or the error's own |
| Signin.NetworkCheckedFirst | app/auth/signin/page.tsx:117-123 | an `ERR_NETWORK` failure goes to the general field whatever its message says |
| ResetPassword.Submit | app/auth/reset-password/page.tsx:51-75 | a token error exactly when the token is missing or empty; password and confirmation errors by the shared rules; the request is sent exactly when there is no error |
| ResetPassword.SubmitsIff | app/auth/reset-password/page.tsx:51-75 | the reset is sent iff a token is present, the password has ≥ 8 characters and the confirmation equals it |
| ResetPassword.MissingTokenBlocks | app/auth/reset-password/page.tsx:51-75 | without a token nothing is sent, whatever the passwords |
| PasswordStrength.Strength | components/auth/password-strength.tsx:12-27 | the strength is at most 4, and 0 exactly for the empty password |
| PasswordStrength.Requirements | components/auth/password-strength.tsx:55-65 | five checklist lines, ticked exactly for length ≥ 8, an upper-case letter, a lower-case letter, a digit and another character |
| PasswordStrength.StrengthIsMetCount | components/auth/password-strength.tsx:12-65 | the meter equals the number of ticked checklist lines, capped at 4: the two use the same five criteria |
| PasswordStrength.StrengthText | components/auth/password-strength.tsx:31-37 | 0 → "Too weak", 1 → "Weak", 2 → "Fair", 3 → "Good", 4 → "Strong" |
| PasswordStrength.ShowRequirementsIff | components/auth/password-strength.tsx:113 | the checklist is shown exactly while fewer than three of its lines are ticked |
| PasswordStrength.NonEmptyIsAtLeastWeak | components/auth/password-strength.tsx:13-24 | every non-empty password scores at least 1 ("Weak"), since each character falls in one of the four classes |
| CodeInput.Empty | app/auth/verification-code-input.tsx:17-22 | the code starts as `length` empty cells |
| CodeInput.Change | app/auth/verification-code-input.tsx:39-48 | typing stores the value in its cell, cut to its last character when longer than one; every other cell and the number of cells are unchanged |
| CodeInput.ChangeKeepsValid | app/auth/verification-code-input.tsx:22-48 | typing keeps `length` cells of at most one character each |
| CodeInput.Paste | app/auth/verification-code-input.tsx:76-90 | the trimmed text replaces the code, one character per cell, exactly when it is `length` ASCII digits; otherwise the code is unchanged |
| CodeInput.PasteRoundTrip | app/auth/verification-code-input.tsx:35-83 | after an accepted paste the cells are valid and the reported code is the trimmed pasted text |
| CodeInput.Code | app/auth/verification-code-input.tsx:35-37 | with one character in every cell, the reported code has one character per cell, spelling the cells in order |
| CodeInput.CodeLengthBounded | app/auth/verification-code-input.tsx:35-37 | the reported code is never longer than `length`, and exactly `length` long once every cell is filled |
| Middleware.Decide | middleware.ts:22-48 | without a token the request is sent to sign-in exactly when no public path is a prefix of it, and passes otherwise; with a token, sign-in/sign-up paths and exactly "/" go to the dashboard and everything else passes |
| Middleware.SignInRedirectNeverFires | middleware.ts:7-35 | as written, no pathname starting with "/" is ever sent to sign-in, whatever the token |
| Middleware.AnonymousDashboardPasses | middleware.ts:7-47 | as written, an anonymous request for "/dashboard" passes through |
| Middleware.DecideIntended | middleware.ts:7-47 | with "/" matched exactly, an anonymous request is sent to sign-in exactly when it is not public; signed-in requests are decided as before |
| Middleware.ProtectedPathRedirects | middleware.ts:31-47 | with the exact match, anonymous "/dashboard" and "/dashboard/monitor" go to sign-in while "/" and "/auth/signin" pass |
| Middleware.SignedInLeavesAuthPages | middleware.ts:17-40 | a signed-in request for a sign-in or sign-up path goes to the dashboard under either decision |
| CreateForm.SchemaErrors | app/dashboard/create/page.tsx:37-47 | an error is reported exactly for each violated rule (subject and grade non-empty, at least one section type, 1..50 questions per section, 1..10 sections when given), in field order |
| CreateForm.SchemaAcceptsIff | app/dashboard/create/page.tsx:37-47 | the form validates iff subject and grade are non-empty, a section type is chosen, questions per section lie in 1..50 and the section count, when given, lies in 1..10 |
| CreateForm.AddTag | app/dashboard/create/page.tsx:339-345 | the trimmed text is appended and the input cleared exactly when it is non-empty and not yet a tag; otherwise tags and input stay |
| CreateForm.AddTagKeepsTagsClean | app/dashboard/create/page.tsx:339-345 | adding a tag never creates a duplicate, an empty tag or a tag with surrounding whitespace |
| CreateForm.RemoveTag | app/dashboard/create/page.tsx:348-354 | every occurrence of the tag is removed, every other tag stays with its multiplicity, and the order is kept |
| CreateForm.AddThenRemoveTag | app/dashboard/create/page.tsx:339-354 | removing a tag that was just added gives back the previous tags |
| CreateForm.ToggleTopic | app/dashboard/create/page.tsx:330-336 | a selected topic is removed (with every copy) and nothing else; an unselected one is appended |
| CreateForm.ToggleKeepsNoDuplicates | app/dashboard/create/page.tsx:330-336 | toggling keeps the selection free of duplicates |
| CreateForm.ToggleTwiceUnselected | app/dashboard/create/page.tsx:330-336 | toggling an unselected topic twice restores the selection exactly |
| CreateForm.ToggleTwiceSelected | app/dashboard/create/page.tsx:330-336 | toggling a selected topic twice restores the same duplicate-free set, with that topic moved to the end |
| CreateForm.NextStep | app/dashboard/create/page.tsx:443-447 | "next" advances below step 3 and does nothing at 3 |
| CreateForm.PrevStep | app/dashboard/create/page.tsx:450-454 | "back" goes back above step 1 and does nothing at 1 |
| CreateForm.StepsStayInRange | app/dashboard/create/page.tsx:443-454 | neither button leaves steps 1..3, and each undoes the other where it moved |
| CreateForm.Drop | app/dashboard/create/page.tsx:263-282 | a dropped file becomes the book only when it is PDF, DOCX or plain text; otherwise the current book stays |
| CreateForm.PickFile | app/dashboard/create/page.tsx:285-289 | the file picker takes the first picked file; with none the book stays |
| CreateForm.PickerSkipsTypeCheck | app/dashboard/create/page.tsx:263-289 | a PNG is refused when dropped but accepted when picked: only dropping checks the type |
| CreateForm.DropIdempotent | app/dashboard/create/page.tsx:263-282 | dropping the same files twice is the same as dropping them once |
| CreateForm.DropAll | app/dashboard/create/page.tsx:263-282 | after a series of drops the book is the starting one or the first file of one of the drops |
| CreateForm.DropsKeepAcceptedType | app/dashboard/create/page.tsx:263-282 | starting without a book or with an accepted one, any series of drops leaves no book or a PDF, DOCX or plain-text book |
| CreateForm.PickOverridesDrops | app/dashboard/create/page.tsx:263-289 | a pick with a file decides the book whatever was dropped before |
| CreateForm.GenerateFromBook | app/dashboard/create/page.tsx:398-427 | generation from a book goes ahead exactly with a socket, a book and at least one topic, sending the topics joined by ", " |
| CreateForm.GenerateSplitsBack | app/dashboard/create/page.tsx:406-427 | the topic text sent splits at ", " back into the selected topics when no topic contains ", " |
| ResultsCharts.BandOf | components/test-results-charts.tsx:302-308 | a score falls in the best band whose lower bound (90, 75, 60, 40) it reaches, and below the next better band's bound |
| ResultsCharts.PerformanceLabel | components/test-results-charts.tsx:302-308 | the label is the name of the band the score falls in |
| ResultsCharts.BarColor | components/test-results-charts.tsx:311-317 | the bar colour is the legend colour of the band the score falls in |
| ResultsCharts.LabelAndColorAgree | components/test-results-charts.tsx:302-317 | for every score the label and the bar colour name the same band, and the colour is that band's legend colour |
| ResultsCharts.BandMonotone | components/test-results-charts.tsx:302-308 | a higher score never lands in a worse band |
| ResultsCharts.PointsText | components/test-results-charts.tsx:45 | `(score / 10).toFixed(1)` of an integer score is the tens, a dot and the units digit |
| ResultsCharts.FormatScore | components/test-results-charts.tsx:44-46 | percentage mode shows "n%"; points mode shows n/10 with one decimal |
| ResultsCharts.PointsRoundTrip | components/test-results-charts.tsx:45 | reading the points text back (digits before the dot ·10 plus the digit after) gives the score |
| ResultsCharts.CorrectAnswers | components/test-results-charts.tsx:195-250 | the count shown is the n with 10·n ≤ score < 10·n + 10 |
| ResultsCharts.CorrectAnswersBounded | components/test-results-charts.tsx:195-250 | for a percentage score the count is between 0 and 10, and 10 exactly for a full score |
| DurationSlider.SliderChange | components/test-duration-slider.tsx:23-27 | the first thumb value becomes both the shown value and the value passed to `onChange` |
| DurationSlider.SliderLabelMatchesValue | components/test-duration-slider.tsx:23-38 | for slider moves to grid values, the values passed on stay on the grid and two moves show the same label exactly when they pass the same value |
| DurationSlider.FormatDuration | components/test-duration-slider.tsx:30-38 | under 60 minutes the label is "N min"; otherwise "Hh Mm" with H = ⌊N/60⌋ and M = N mod 60, or "Hh" when M = 0 |
| DurationSlider.FormatDurationInjective | components/test-duration-slider.tsx:30-75 | two slider values (15..180 in steps of 5) with the same label are equal: the label identifies the duration |
| DurationSlider.ShortInjective | components/test-duration-slider.tsx:31-32 | the "N min" labels of two durations under an hour differ when the durations do |
| DurationSlider.HoursMinutesInjective | components/test-duration-slider.tsx:33-36 | the "Hh Mm" labels of two durations differ when the durations do |
| DurationSlider.WholeHoursInjective | components/test-duration-slider.tsx:33-36 | the "Hh" labels of two whole-hour durations differ when the durations do |
| DurationSlider.GridLabels | components/test-duration-slider.tsx:30-75 | 15 → "15 min", 60 → "1h", 95 → "1h 35m", 180 → "3h" |
| DurationSlider.DurationColor | components/test-duration-slider.tsx:41-47 | muted when disabled; otherwise green up to 30, blue up to 60, yellow up to 90, red above |
| DurationSlider.ColorMonotone | components/test-duration-slider.tsx:43-46 | a longer enabled duration is never shown in a calmer colour |
| DebugLog.AddLog | components/socket-debug-panel.tsx:27-41 | a disabled panel ignores the event; otherwise the new entry is first, the previous entries follow in order, and the length is min(old + 1, 50) |
| DebugLog.AddAllKeepsNewest | components/socket-debug-panel.tsx:30-39 | after logging several events the panel holds the newest first, followed by the older log, cut at 50 entries |
| DebugLog.LogStaysBounded | components/socket-debug-panel.tsx:39 | however much is logged, the panel never holds more than 50 entries |
| DebugLog.Clear | components/socket-debug-panel.tsx:84 | the Clear button leaves no entries |
| SettingsTabs.ActiveTab | app/dashboard/settings/layout.tsx:14-21 | a routed tab is highlighted only when the path mentions its route; "general" is highlighted only when the path mentions none of the routed tabs |
| SettingsTabs.ActiveTabIsFirstMention | app/dashboard/settings/layout.tsx:14-21 | "general" is chosen exactly when the path mentions none of the five routed tabs; otherwise the chosen tab is mentioned and no tab tested before it is |
| SettingsTabs.LinkActivatesItsTab | app/dashboard/settings/layout.tsx:14-49 | following any tab's link makes that same tab the active one |
| SettingsTabs.RoutedLinkMentions | app/dashboard/settings/layout.tsx:15-49 | a routed tab's link contains exactly one tab marker: its own |
| SettingsTabs.GeneralLinkMentionsNothing | app/dashboard/settings/layout.tsx:20-33 | the bare settings link contains no routed tab's marker, so it selects "general" |
| SettingsTabs.MarkerInLink | app/dashboard/settings/layout.tsx:15-48 | a tab link contains "/settings/X" exactly when the link's last segment starts with X |
| SavedTests.AnyTagMatches | app/dashboard/saved/page.tsx:87 | `tags.some(...)` is true exactly when some tag contains the query, ignoring case |
| SavedTests.Search | app/dashboard/saved/page.tsx:83-88 | a saved test is in the result exactly when it is in the list and its title, subject or a tag contains the query, ignoring case |
| SavedTests.SearchKeepsOrder | app/dashboard/saved/page.tsx:83 | the result is a subsequence of the saved list: order is kept |
| SavedTests.EmptyQueryKeepsAll | app/dashboard/saved/page.tsx:83-88 | an empty query lists every saved test, in order |
| SavedTests.ListedIff | app/dashboard/saved/page.tsx:84-88 | a listed test is kept iff the lower-cased query occurs in its lower-cased title, subject or one of its tags |
| SavedTests.CaseInsensitive | app/dashboard/saved/page.tsx:85-87 | searching for the upper-cased query gives the same result as the query itself |

## Left out

- Transport: socket.io connection, reconnection and the auth handshake. A socket is an opaque handle drawn from a counter, and whether the library manages to build one is a parameter. The default connect and disconnect handlers are modelled only for the notification they send (`SocketService.Dispatch`); their logging is not. The `socket.off` calls made when a hook unmounts are not modelled.
- React lifecycle: effect ordering, re-renders and the cleanup lists of `hooks/use-socket.ts`. Events and ticks are explicit steps instead. Two stale closures are left out. The 5-second forced start at `app/monitor/page.tsx:182-187` captures `testState` as not_started. The 10-second start timeout at `components/test-preview.tsx:678-690` reads `isLoading` from the closure.
- I/O: axios/fetch calls, toasts, `localStorage`, `console` logging and `window.location` navigation. So are the redirect URLs the middleware builds, with their `callbackUrl`, and its `matcher` configuration. Only the decision (pass, to sign-in, to the dashboard) is modelled.
- Randomness and time: `Math.random` ids, mock participant times and `Date.now()` are parameters (`randomId`, `now`). The mock progress simulation, `processBook` and `simulateProgress` of the create page use timers and floats, and are not modelled.
- Floating point: every number is an integer. `Math.round` of a non-negative ratio is `Js.RoundDiv`, and `Math.floor` of a non-negative quotient is Dafny's `/`. NaN and fractional scores, durations and progress values are not modelled.
- Case mapping: `toLowerCase`, `toUpperCase` and `toLocaleLowerCase` are modelled on ASCII letters only. The literals the code compares against are ASCII, but user-typed text is not: JavaScript also folds non-ASCII letters ("ÉCOLE" becomes "école") and maps a few non-ASCII characters onto ASCII ones (the Kelvin sign U+212A becomes "k").
- SavedTests.Search: a query and a title that differ only in the case of non-ASCII letters ("ÉCOLE" and "école") match in the browser but not in the model.
- MonitorView.FilterParticipants: the same holds for filter text against names and emails with non-ASCII letters.
- Text units: Dafny strings are sequences of Unicode scalar values, while JavaScript's `length`, `substring`, `charAt` and `[i]` count UTF-16 code units. The two agree for text inside the Basic Multilingual Plane; a character outside it (an emoji, say) counts once here and twice in the browser. The members below are exact only for such text.
- AuthValidation.PasswordError: the "at least 8 characters" test counts scalar values, not UTF-16 code units.
- PasswordStrength.Strength: the length point counts scalar values, not UTF-16 code units.
- PasswordStrength.Requirements: the length line counts scalar values, not UTF-16 code units.
- Signup.CodeError: "exactly six characters" counts scalar values, not UTF-16 code units.
- MonitorSocket.Prefix6: takes six scalar values, where `substring(0, 6)` takes six code units and may split a surrogate pair.
- CodeInput.Change: keeps the last scalar value, where `charAt(length - 1)` keeps the last code unit, a lone low surrogate for an emoji.
- TestPreview.HighlightKey: takes the first scalar value, where `[0]` takes the first code unit.
- Numeric ids: a participant whose `id` is a number and who has empty names would crash at `id.substring` (`hooks/use-monitor-socket.ts:63`). Ids are strings here.
- TestPreview.TypeLabel: the map lookup also finds inherited keys. A type normalising to "constructor" or "__proto__" (for example "Constructor" or "--proto--") is shown as the `Object` function or prototype rather than as the type given. The model shows the type.
- Matching questions: the `matchingItems`, `matchingHeadings` and `matchingPairs` fields are not modelled. They are copied by the conversion and set by `handleAddQuestion` for "matching_the_headings", and no rule reads them. `handleSaveTitle` and `handleSaveDescription` only store a text field, and `handleDownload` is a timer with a toast.
- Three handlers are not modelled, as DOM, socket and timer glue. The debug panel's effect subscribes to every event. The monitor dashboard's `handleStartTest` emits through `MonitorSocket.StartTest` and then resets the countdown after a 3-second timer. The code input's `handleKeyDown` only moves focus.
- TestPreview.LetterId: `String.fromCharCode(97 + i)` is modelled up to `MaxLetterIndex`, where the code unit is still below the surrogate range. Lists of more than about 55,000 options are out of range.
- TestPreview.ConvertQuestion: a question's `answers` is taken to be an array of strings, as the server interface types it. A truthy non-array value, such as a string, would be kept as it is by `q.answers || []`; the model cannot hold it.
- TestPreview.Convert: only server documents whose option lists fit `MaxLetterIndex` are converted (see `TestPreview.LetterId`). Null list elements are not representable either. A null section, task or question makes the conversion throw at `section.section_id`, `task.questions` or `q.question_id`, and the editor then falls back to the mock test (`components/test-preview.tsx:364-369`). The model converts only documents without nulls.
- TestPreview.ConvertOption: an option is an object, a bare string or a number (`ServerOption`); the last two are shown with `String(opt)`. A null option passes `typeof opt === "object"` and throws at `opt.id`, sending the editor to the mock test; the model has no null option.
- TestPreview.RemoveOption: with more than two options, the index must name an option. A remove button exists only for each listed option.
- TestPreview.ChangeOption: the index must name an option. An input exists only for each listed option.
- TestPreview.HighlightKey: an empty list answer, an empty string answer or a missing answer would throw in `correctAnswer[0].toLocaleLowerCase()` (`""[0]` is undefined). The model shows no option as correct instead.
- CodeInput.Change: the index must name a cell. An input exists only for each cell.
- DurationSlider.SliderChange: the slider always reports a non-empty array of values.
- MonitorSocket.ApplyDelta: only called when the delta carries a user id or a client id. `MonitorSocket.OnChange` leaves the list alone otherwise, as the hook does.
- Text.ToNumber: only the integer results of `Number` are computed. A decimal numeral with a point, an exponent or "Infinity" is recognised but its value is left unmodelled. Integers above 2^53 are exact here but rounded to a double in the browser. NaN is sent by `JSON.stringify` as null; the model keeps it as `NaN`.
- SocketService.Dispatch: the socket's own listener list is taken to be the registered callbacks in order. That holds when each callback is subscribed once, since `on` adds to both and its cleanup removes from both.
- SocketService.NotifiedEvent: the shared event names (`lib/socket-core.ts:11-15`) define no `CONNECT_ERROR`, so the service's third default handler (`lib/socket-service.ts:77-79`) listens to an event named undefined, which the socket never fires. Only the notification path for connection errors is dead: a subscriber that passes the literal "connect_error", as `hooks/use-socket.ts:25` does, still gets the event once, from the socket listener that `on` adds (`SocketService.Dispatch`). Only connect and disconnect are notified.
- SocketService.On: like every registry operation, it assumes the registry invariant `SocketService.Valid`. The invariant holds initially and every operation keeps it.

## Findings

| source | as written | input that shows it | evidently intended | confidence | as-written member | corrected member |
|---|---|---|---|---|---|---|
| middleware.ts:7-35 | `"/"` is in the public path list and is tested with `startsWith`, so every pathname counts as public and the sign-in redirect never fires | pathname "/dashboard" with no access token passes through | "/" should match only the home page exactly, so protected pages without a token go to sign-in | not executed | Middleware.SignInRedirectNeverFires | Middleware.ProtectedPathRedirects |
| hooks/use-monitor-socket.ts:210-234 | a CHANGE_USER_DATA delta replaces every entry whose id or clientId equals the key with a record whose id is re-derived from the delta | a list with entries A (id "a", clientId "k") and B (id "k"), and a delta with only clientId "k": both entries take id "k" | a matched entry keeps the id it is listed under, so ids stay unique | not executed | MonitorSocket.DeltaCanDuplicateIds | MonitorSocket.ApplyDeltaIntended |
| lib/socket-service.ts:66-114 | `on` both records the callback for `notifyListeners` and hands it to the socket, and the default connect and disconnect handlers call `notifyListeners` | one subscriber to "connect"; the socket connects once; the subscriber runs twice | each subscriber runs once per event | not executed | SocketService.ConnectDeliveredTwice | SocketService.ConnectDeliveredOnce |

=== FILE: auth_validation.dfy ===
/**
 * The field rules the sign-up, sign-in and reset-password forms share: the
 * email pattern `^[^\s@]+@[^\s@]+\.[^\s@]+$` (written out identically on the
 * sign-up and sign-in pages) and the password and confirmation checks.
 */
module AuthValidation {
  import opened Js
  import opened Text

  /** `[^\s@]+` matches all of `s`. */
  ghost predicate Plain(s: string) {
    |s| > 0 && forall i :: 0 <= i < |s| ==> !IsSpace(s[i]) && s[i] != '@'
  }

  /**
   * The pattern matches with the `@` at index `at` and the separating dot at
   * index `dot`: local part, `@`, domain label(s), `.`, last label.
   */
  ghost predicate EmailSplit(s: string, at: int, dot: int) {
    && 0 < at < dot < |s| - 1
    && s[at] == '@' && s[dot] == '.'
    && Plain(s[..at]) && Plain(s[at + 1..dot]) && Plain(s[dot + 1..])
  }

  /** The regular expression's meaning: some split fits it. */
  ghost predicate EmailPattern(s: string) {
    exists at, dot :: EmailSplit(s, at, dot)
  }

  /** The index of the first `c` in `s`, or `|s|` when there is none. */
  function IndexOf(s: string, c: char): (k: nat)
    ensures k <= |s|
    ensures k < |s| ==> s[k] == c
    ensures forall i :: 0 <= i < k ==> s[i] != c
  {
    if s == [] then 0
    else if s[0] == c then 0
    else 1 + IndexOf(s[1..], c)
  }

  /**
   * `validateEmail`, computed by scanning: no whitespace, exactly one `@` that
   * is not the first character, and a dot strictly inside what follows it.
   */
  function ValidEmail(s: string): (b: bool)
    ensures b <==> EmailPattern(s)
  {
    ValidEmailMatchesPattern(s);
    EmailScan(s)
  }

  /** The scan itself. */
  predicate EmailScan(s: string) {
    var at := IndexOf(s, '@');
    && 0 < at < |s|
    && (forall i | 0 <= i < |s| :: !IsSpace(s[i]) && (s[i] == '@' ==> i == at))
    && exists dot | at + 1 < dot < |s| - 1 :: s[dot] == '.'
  }

  /** The scan accepts exactly the strings the regular expression matches. */
  lemma ValidEmailMatchesPattern(s: string)
    ensures EmailScan(s) <==> EmailPattern(s)
  {
    var at := IndexOf(s, '@');
    if EmailScan(s) {
      var dot :| at + 1 < dot < |s| - 1 && s[dot] == '.';
      assert EmailSplit(s, at, dot);
    }
    if EmailPattern(s) {
      var a, d :| EmailSplit(s, a, d);
      assert forall i :: 0 <= i < a ==> s[i] == s[..a][i];
      assert at == a;
      forall i | 0 <= i < |s| ensures !IsSpace(s[i]) && (s[i] == '@' ==> i == at) {
        if i < a {
          assert s[i] == s[..a][i];
        } else if a < i < d {
          assert s[i] == s[a + 1..d][i - a - 1];
        } else if d < i {
          assert s[i] == s[d + 1..][i - d - 1];
        }
      }
    }
  }

  /** The error shown under the email field: required, then the pattern. */
  function EmailError(email: string): (e: Option<string>)
    ensures e.None? <==> ValidEmail(email)
    ensures email == "" ==> e == Some("Email is required")
  {
    if email == "" then Some("Email is required")
    else if !ValidEmail(email) then Some("Please enter a valid email address")
    else None
  }

  /** The error under a new password: required, then at least 8 characters. */
  function PasswordError(password: string): (e: Option<string>)
    ensures e.None? <==> |password| >= 8
  {
    if password == "" then Some("Password is required")
    else if |password| < 8 then Some("Password must be at least 8 characters")
    else None
  }

  /** The error under the confirmation: required, then equal to the password. */
  function ConfirmError(password: string, confirm: string): (e: Option<string>)
    ensures e.None? <==> confirm != "" && confirm == password
  {
    if confirm == "" then Some("Please confirm your password")
    else if password != confirm then Some("Passwords do not match")
    else None
  }
}

=== FILE: clock.dfy ===
/**
 * Countdown clocks: the one-second tick every countdown in the front-end uses,
 * and the `[hh:]mm:ss` rendering of a number of seconds used by the test
 * timer and the live monitor.
 */
module Clock {
  import opened Text

  /** A countdown tick (`prev <= 1 ? 0 : prev - 1`): down by one, never below zero. */
  function Tick(prev: int): (r: nat)
    ensures prev >= 1 ==> r == prev - 1
    ensures prev < 1 ==> r == 0
  {
    if prev <= 1 then 0 else prev - 1
  }

  /** `n` consecutive ticks. */
  function Ticks(t: int, n: nat): int
    decreases n
  {
    if n == 0 then t else Ticks(Tick(t), n - 1)
  }

  /** After `n` ticks from `t >= 0` the countdown shows `max(0, t - n)`. */
  lemma {:induction false} TicksReachZero(t: int, n: nat)
    requires t >= 0
    ensures Ticks(t, n) == if t - n > 0 then t - n else 0
  {
    if n > 0 {
      TicksReachZero(Tick(t), n - 1);
    }
  }

  /** Once at zero, a countdown stays at zero. */
  lemma {:induction false} ZeroIsFixed(n: nat)
    ensures Ticks(0, n) == 0
  {
    if n > 0 {
      ZeroIsFixed(n - 1);
    }
  }

  /** Hours, minutes and seconds of a duration, as `Math.floor` and `%` compute them. */
  datatype Hms = Hms(hours: nat, minutes: nat, seconds: nat)

  function Decompose(total: nat): (d: Hms)
    ensures d.minutes < 60 && d.seconds < 60
    ensures d.hours * 3600 + d.minutes * 60 + d.seconds == total
  {
    Hms(total / 3600, (total % 3600) / 60, total % 60)
  }

  /** The decomposition is the only one with minutes and seconds below 60. */
  lemma DecomposeUnique(total: nat, h: nat, m: nat, s: nat)
    requires m < 60 && s < 60 && h * 3600 + m * 60 + s == total
    ensures Decompose(total) == Hms(h, m, s)
  {
    var d := Decompose(total);
    assert m * 60 + s < 3600;
    assert d.minutes * 60 + d.seconds < 3600;
  }

  /** `n.toString().padStart(2, "0")` */
  function Pad(n: nat): (r: string)
    ensures |r| >= 2 && Digits(r)
    ensures n < 100 ==> r == TwoDigits(n)
  {
    if n < 100 then
      PaddedIsTwoDigits(n);
      PadStart2(NatToString(n))
    else PadStart2(NatToString(n))
  }

  /** `TestTimer` and `formatTimeRemaining`: the hours field only when there are hours. */
  function Render(total: nat): (r: string)
    ensures var d := Decompose(total);
      d.hours == 0 ==> r == TwoDigits(d.minutes) + ":" + TwoDigits(d.seconds)
    ensures var d := Decompose(total);
      d.hours > 0 ==> r == Pad(d.hours) + ":" + TwoDigits(d.minutes) + ":" + TwoDigits(d.seconds)
  {
    var d := Decompose(total);
    var mm, ss := Pad(d.minutes), Pad(d.seconds);
    assert mm == TwoDigits(d.minutes) && ss == TwoDigits(d.seconds);
    if d.hours > 0 then Pad(d.hours) + ":" + mm + ":" + ss else mm + ":" + ss
  }

  /** Digits everywhere except the colons that separate the fields. */
  predicate ClockShape(r: string) {
    && |r| >= 5 && r[|r| - 3] == ':' && Digits(r[|r| - 5..|r| - 3]) && Digits(r[|r| - 2..])
    && (|r| > 5 ==> |r| >= 8 && r[|r| - 6] == ':' && Digits(r[..|r| - 6]))
  }

  /** Reads a rendered clock back as a number of seconds. */
  function ReadClock(r: string): nat
    requires ClockShape(r)
  {
    var n := |r|;
    var mmss := ParseNat(r[n - 5..n - 3]) * 60 + ParseNat(r[n - 2..]);
    if n == 5 then mmss else ParseNat(r[..n - 6]) * 3600 + mmss
  }

  lemma ParseTwoDigits(n: nat)
    requires n < 100
    ensures ParseNat(TwoDigits(n)) == n
  {
    var t := TwoDigits(n);
    assert DigitValue(t[1]) == n % 10;
    assert DigitValue(t[0]) == n / 10;
    assert t[..1][..0] == [];
    assert ParseNat(t[..1]) == n / 10;
  }

  lemma ParsePad(n: nat)
    ensures ParseNat(Pad(n)) == n
  {
    if n < 10 {
      ParseTwoDigits(n);
    } else {
      ParseNatToString(n);
    }
  }

  lemma ShortRoundTrip(m: nat, s: nat)
    requires m < 60 && s < 60
    ensures ClockShape(TwoDigits(m) + ":" + TwoDigits(s))
    ensures ReadClock(TwoDigits(m) + ":" + TwoDigits(s)) == m * 60 + s
  {
    var r := TwoDigits(m) + ":" + TwoDigits(s);
    ParseTwoDigits(m);
    ParseTwoDigits(s);
    assert r[0..2] == TwoDigits(m) && r[3..] == TwoDigits(s);
  }

  /** Where the fields of `hh:mm:ss` sit, for two-character `mm` and `ss`. */
  lemma LongParts(hh: string, a: string, b: string)
    requires |a| == 2 && |b| == 2
    ensures var r := hh + ":" + a + ":" + b;
      |r| == |hh| + 6 && r[..|r| - 6] == hh && r[|r| - 6] == ':'
      && r[|r| - 5..|r| - 3] == a && r[|r| - 3] == ':' && r[|r| - 2..] == b
  {
  }

  lemma LongRoundTrip(h: nat, m: nat, s: nat)
    requires m < 60 && s < 60
    ensures ClockShape(Pad(h) + ":" + TwoDigits(m) + ":" + TwoDigits(s))
    ensures ReadClock(Pad(h) + ":" + TwoDigits(m) + ":" + TwoDigits(s)) == h * 3600 + m * 60 + s
  {
    var hh, a, b := Pad(h), TwoDigits(m), TwoDigits(s);
    var r := hh + ":" + a + ":" + b;
    var n := |r|;
    LongParts(hh, a, b);
    assert Digits(a) && Digits(b);
    ParseTwoDigits(m);
    ParseTwoDigits(s);
    ParsePad(h);
  }

  /** The rendering loses nothing: reading it back gives the original number of seconds. */
  lemma RenderRoundTrip(total: nat)
    ensures ClockShape(Render(total))
    ensures ReadClock(Render(total)) == total
  {
    var d := Decompose(total);
    if d.hours == 0 {
      ShortRoundTrip(d.minutes, d.seconds);
    } else {
      LongRoundTrip(d.hours, d.minutes, d.seconds);
    }
  }
}

=== FILE: code_input.dfy ===
/**
 * The verification-code input: one single-character cell per code position,
 * filled by typing or by pasting the whole code.
 */
module CodeInput {
  import opened Text

  const DefaultLength: nat := 6

  /** Every cell holds at most one character and there are `length` cells. */
  predicate Valid(cells: seq<string>, length: nat) {
    |cells| == length && forall i :: 0 <= i < |cells| ==> |cells[i]| <= 1
  }

  /** The initial state: `length` empty cells. */
  function Empty(length: nat): (cells: seq<string>)
    ensures Valid(cells, length)
    ensures forall i :: 0 <= i < |cells| ==> cells[i] == ""
  {
    seq(length, _ => "")
  }

  /** `handleChange`: the cell takes the last character typed into it; the other cells stay. */
  function Change(cells: seq<string>, index: nat, value: string): (r: seq<string>)
    requires index < |cells|
    ensures |r| == |cells|
    ensures forall i :: 0 <= i < |r| && i != index ==> r[i] == cells[i]
    ensures |value| <= 1 ==> r[index] == value
    ensures |value| > 1 ==> r[index] == [value[|value| - 1]]
  {
    cells[index := if |value| > 1 then [value[|value| - 1]] else value]
  }

  /** Typing keeps every cell to one character. */
  lemma ChangeKeepsValid(cells: seq<string>, length: nat, index: nat, value: string)
    requires Valid(cells, length) && index < length
    ensures Valid(Change(cells, index, value), length)
  {
  }

  /** `/^\d+$/`: non-empty and only ASCII digits. */
  predicate AllDigits(s: string) {
    |s| > 0 && Digits(s)
  }

  /** `pastedData.split("")`: one cell per character. */
  function Split(s: string): (cells: seq<string>)
    ensures |cells| == |s|
    ensures forall i :: 0 <= i < |s| ==> cells[i] == [s[i]]
  {
    seq(|s|, i requires 0 <= i < |s| => [s[i]])
  }

  /** `handlePaste`: the trimmed text replaces the code only when it is exactly `length` digits. */
  function Paste(cells: seq<string>, length: nat, pasted: string): (r: seq<string>)
    ensures |Trim(pasted)| == length && AllDigits(Trim(pasted)) ==> r == Split(Trim(pasted))
    ensures !(|Trim(pasted)| == length && AllDigits(Trim(pasted))) ==> r == cells
  {
    var text := Trim(pasted);
    if |text| == length && AllDigits(text) then Split(text) else cells
  }

  /** The code reported to the form (`code.join("")`). */
  function Code(cells: seq<string>): (r: string)
    ensures |cells| == 0 ==> r == ""
    ensures (forall i :: 0 <= i < |cells| ==> |cells[i]| == 1) ==>
      |r| == |cells| && forall i :: 0 <= i < |cells| ==> r[i] == cells[i][0]
  {
    ConcatSingles(cells);
    Concat(cells)
  }

  /** Joining one-character cells spells their characters in order. */
  lemma {:induction false} ConcatSingles(cells: seq<string>)
    ensures (forall i :: 0 <= i < |cells| ==> |cells[i]| == 1) ==>
      |Concat(cells)| == |cells| && forall i :: 0 <= i < |cells| ==> Concat(cells)[i] == cells[i][0]
  {
    if cells != [] && forall i :: 0 <= i < |cells| ==> |cells[i]| == 1 {
      ConcatSingles(cells[1..]);
      assert forall i :: 1 <= i < |cells| ==> cells[1..][i - 1] == cells[i];
    }
  }

  lemma {:induction false} ConcatSplit(s: string)
    ensures Concat(Split(s)) == s
  {
    if s != [] {
      assert Split(s)[1..] == Split(s[1..]);
      ConcatSplit(s[1..]);
    }
  }

  /** A successful paste reports exactly the pasted code, without surrounding whitespace. */
  lemma PasteRoundTrip(cells: seq<string>, length: nat, pasted: string)
    requires |Trim(pasted)| == length && AllDigits(Trim(pasted))
    ensures Valid(Paste(cells, length, pasted), length)
    ensures Code(Paste(cells, length, pasted)) == Trim(pasted)
  {
    ConcatSplit(Trim(pasted));
  }

  /** The code is never longer than the number of cells. */
  lemma {:induction false} CodeLengthBounded(cells: seq<string>, length: nat)
    requires Valid(cells, length)
    ensures |Code(cells)| <= length
    ensures (forall i :: 0 <= i < |cells| ==> cells[i] != "") ==> |Code(cells)| == length
  {
    if cells != [] {
      CodeLengthBounded(cells[1..], length - 1);
    }
  }
}

=== FILE: create_form.dfy ===
/**
 * The create-test page: the form's schema, tags, topics picked from a book,
 * the step wizard, and the book upload's file-type check.
 */
module CreateForm {
  import opened Js
  import opened Text
  import opened Seqs

  /** The fields the schema constrains. */
  datatype Values = Values(
    subject: string,
    gradeLevel: string,
    sectionTypes: seq<string>,
    questionsPerSection: int,
    sectionCount: Option<int>)

  datatype FieldError = SubjectRequired | GradeLevelRequired | SectionTypeRequired
                      | QuestionsOutOfRange | SectionCountOutOfRange

  /** The schema's fields, in declaration order. */
  const AllFields: seq<FieldError> :=
    [SubjectRequired, GradeLevelRequired, SectionTypeRequired, QuestionsOutOfRange, SectionCountOutOfRange]

  /** The rule behind each error: `min(1)` on the strings and the list, the two numeric ranges. */
  predicate Violated(v: Values, e: FieldError) {
    match e
    case SubjectRequired => |v.subject| < 1
    case GradeLevelRequired => |v.gradeLevel| < 1
    case SectionTypeRequired => |v.sectionTypes| < 1
    case QuestionsOutOfRange => !(1 <= v.questionsPerSection <= 50)
    case SectionCountOutOfRange => v.sectionCount.Some? && !(1 <= v.sectionCount.value <= 10)
  }

  lemma EveryFieldListed(e: FieldError)
    ensures e in AllFields
  {
    match e
    case SubjectRequired => assert AllFields[0] == e;
    case GradeLevelRequired => assert AllFields[1] == e;
    case SectionTypeRequired => assert AllFields[2] == e;
    case QuestionsOutOfRange => assert AllFields[3] == e;
    case SectionCountOutOfRange => assert AllFields[4] == e;
  }

  /** The schema's checks: one error per violated rule, in field order. */
  function SchemaErrors(v: Values): (errs: seq<FieldError>)
    ensures forall e :: e in errs <==> Violated(v, e)
    ensures IsSubsequence(errs, AllFields)
  {
    FilterIsSubsequence(AllFields, e => Violated(v, e));
    forall e: FieldError
      ensures e in AllFields
    {
      EveryFieldListed(e);
    }
    Filter(AllFields, e => Violated(v, e))
  }

  /** The form submits exactly when the bounds the backend expects hold. */
  lemma SchemaAcceptsIff(v: Values)
    ensures SchemaErrors(v) == [] <==>
      v.subject != "" && v.gradeLevel != "" && |v.sectionTypes| >= 1 && 1 <= v.questionsPerSection <= 50
      && (v.sectionCount.None? || 1 <= v.sectionCount.value <= 10)
  {
    var errs := SchemaErrors(v);
    if errs == [] {
      assert !Violated(v, SubjectRequired) && !Violated(v, GradeLevelRequired) && !Violated(v, SectionTypeRequired);
      assert !Violated(v, QuestionsOutOfRange) && !Violated(v, SectionCountOutOfRange);
    } else {
      assert Violated(v, errs[0]);
    }
  }

  /**
   * `addTag`: the trimmed text is appended when it is non-empty and not yet a
   * tag, and the input is then cleared; otherwise nothing changes.
   */
  function AddTag(tags: Option<seq<string>>, newTag: string): (r: (seq<string>, string))
    ensures var t := Trim(newTag); var cur := tags.GetOr([]);
      if t != "" && t !in cur then r == (cur + [t], "") else r == (cur, newTag)
  {
    var t := Trim(newTag);
    var cur := if tags.Some? then tags.value else [];
    if t != "" && t !in cur then (cur + [t], "") else (cur, newTag)
  }

  /** A stored tag: non-empty and without surrounding whitespace. */
  predicate CleanTag(s: string) {
    s != "" && Trim(s) == s
  }

  /** Tags never gain a duplicate and never an empty or padded entry. */
  lemma AddTagKeepsTagsClean(tags: seq<string>, newTag: string)
    requires NoDuplicates(tags)
    requires forall i :: 0 <= i < |tags| ==> CleanTag(tags[i])
    ensures var r := AddTag(Some(tags), newTag).0;
      NoDuplicates(r) && forall i :: 0 <= i < |r| ==> CleanTag(r[i])
  {
    var t := Trim(newTag);
    if t != "" && t !in tags {
      TrimIdempotent(newTag);
      AppendFresh(tags, t);
    }
  }

  /** Appending an element not yet present keeps a list duplicate-free. */
  lemma AppendFresh(tags: seq<string>, t: string)
    requires NoDuplicates(tags) && t !in tags
    ensures NoDuplicates(tags + [t])
  {
    var r := tags + [t];
    forall i, j | 0 <= i < j < |r|
      ensures r[i] != r[j]
    {
      assert r[i] == tags[i];
    }
  }

  predicate Differs(t: string, tag: string) { t != tag }

  /** `removeTag`: every occurrence goes; the other tags stay, in order. */
  function RemoveTag(tags: Option<seq<string>>, tag: string): (r: seq<string>)
    ensures tag !in r
    ensures forall t :: t in tags.GetOr([]) && t != tag ==> t in r
    ensures IsSubsequence(r, tags.GetOr([]))
    ensures forall t :: multiset(r)[t] == if t == tag then 0 else multiset(tags.GetOr([]))[t]
  {
    var cur := if tags.Some? then tags.value else [];
    FilterIsSubsequence(cur, t => Differs(t, tag));
    forall t ensures multiset(Filter(cur, t => Differs(t, tag)))[t] == if t == tag then 0 else multiset(cur)[t] {
      FilterMultiset(cur, t => Differs(t, tag), t);
    }
    Filter(cur, t => Differs(t, tag))
  }

  /** Removing a tag that was just added gives back the previous tags. */
  lemma AddThenRemoveTag(tags: seq<string>, newTag: string)
    requires Trim(newTag) != "" && Trim(newTag) !in tags
    ensures RemoveTag(Some(AddTag(Some(tags), newTag).0), Trim(newTag)) == tags
  {
    var t := Trim(newTag);
    FilterAppend(tags, [t], x => Differs(x, t));
    FilterAll(tags, x => Differs(x, t));
  }

  /** `toggleTopic`: a selected topic is removed (every copy), another one is appended. */
  function ToggleTopic(selected: seq<string>, topic: string): (r: seq<string>)
    ensures topic in selected ==> topic !in r && forall t :: t in r <==> t in selected && t != topic
    ensures topic !in selected ==> r == selected + [topic]
  {
    if topic in selected then Filter(selected, t => Differs(t, topic)) else selected + [topic]
  }

  /** Toggling keeps the selection free of duplicates. */
  lemma {:induction false} ToggleKeepsNoDuplicates(selected: seq<string>, topic: string)
    requires NoDuplicates(selected)
    ensures NoDuplicates(ToggleTopic(selected, topic))
  {
    if topic in selected {
      FilterNoDuplicates(selected, topic);
    }
  }

  lemma {:induction false} FilterNoDuplicates(s: seq<string>, topic: string)
    requires NoDuplicates(s)
    ensures NoDuplicates(Filter(s, t => Differs(t, topic)))
    decreases |s|
  {
    if s != [] {
      FilterNoDuplicates(s[1..], topic);
      assert s[0] !in s[1..];
    }
  }

  /** Toggling an unselected topic twice restores the selection exactly. */
  lemma ToggleTwiceUnselected(selected: seq<string>, topic: string)
    requires topic !in selected
    ensures ToggleTopic(ToggleTopic(selected, topic), topic) == selected
  {
    FilterAppend(selected, [topic], t => Differs(t, topic));
    FilterAll(selected, t => Differs(t, topic));
  }

  /**
   * Toggling a selected topic twice restores the same set of topics (without
   * duplicates), with that topic moved to the end.
   */
  lemma ToggleTwiceSelected(selected: seq<string>, topic: string)
    requires NoDuplicates(selected) && topic in selected
    ensures var r := ToggleTopic(ToggleTopic(selected, topic), topic);
      (forall t :: t in r <==> t in selected) && NoDuplicates(r) && r[|r| - 1] == topic
  {
    ToggleKeepsNoDuplicates(selected, topic);
    ToggleKeepsNoDuplicates(ToggleTopic(selected, topic), topic);
  }

  /** The wizard's steps, 1 to 3. */
  function NextStep(step: int): (r: int)
    ensures step < 3 ==> r == step + 1
    ensures step >= 3 ==> r == step
  {
    if step < 3 then step + 1 else step
  }

  function PrevStep(step: int): (r: int)
    ensures step > 1 ==> r == step - 1
    ensures step <= 1 ==> r == step
  {
    if step > 1 then step - 1 else step
  }

  /** Neither button leaves the range 1..3, and back undoes next below the last step. */
  lemma StepsStayInRange(step: int)
    requires 1 <= step <= 3
    ensures 1 <= NextStep(step) <= 3 && 1 <= PrevStep(step) <= 3
    ensures step < 3 ==> PrevStep(NextStep(step)) == step
    ensures step > 1 ==> NextStep(PrevStep(step)) == step
  {
  }

  const AcceptedTypes: seq<string> :=
    ["application/pdf", "application/vnd.openxmlformats-officedocument.wordprocessingml.document", "text/plain"]

  /** An uploaded book: its MIME type and name. */
  datatype Book = Book(mimeType: string, name: string)

  /**
   * `handleDrop`: the first dropped file becomes the book when its type is
   * PDF, DOCX or plain text; otherwise (or with nothing dropped) the current
   * book stays.
   */
  function Drop(current: Option<Book>, dropped: seq<Book>): (r: Option<Book>)
    ensures |dropped| > 0 && dropped[0].mimeType in AcceptedTypes ==> r == Some(dropped[0])
    ensures !(|dropped| > 0 && dropped[0].mimeType in AcceptedTypes) ==> r == current
  {
    if |dropped| > 0 && dropped[0].mimeType in AcceptedTypes then Some(dropped[0]) else current
  }

  /** `handleFileChange`: the file picker takes the first file without looking at its type. */
  function PickFile(current: Option<Book>, picked: seq<Book>): (r: Option<Book>)
    ensures |picked| > 0 ==> r == Some(picked[0])
    ensures |picked| == 0 ==> r == current
  {
    if |picked| > 0 then Some(picked[0]) else current
  }

  /** Dropping the same files again changes nothing. */
  lemma DropIdempotent(current: Option<Book>, dropped: seq<Book>)
    ensures Drop(Drop(current, dropped), dropped) == Drop(current, dropped)
  {
  }

  /** The book held is absent or of an accepted type. */
  predicate HoldsAccepted(book: Option<Book>) {
    book.None? || book.value.mimeType in AcceptedTypes
  }

  /** Drops one after the other, starting from `current`. */
  function DropAll(current: Option<Book>, drops: seq<seq<Book>>): (r: Option<Book>)
    ensures r == current || exists i :: 0 <= i < |drops| && |drops[i]| > 0 && r == Some(drops[i][0])
    decreases |drops|
  {
    if drops == [] then current
    else
      var r := DropAll(Drop(current, drops[0]), drops[1..]);
      assert forall i :: 1 <= i < |drops| ==> drops[i] == drops[1..][i - 1];
      r
  }

  /** However many drops happen, a book reached only by dropping has an accepted type. */
  lemma {:induction false} DropsKeepAcceptedType(current: Option<Book>, drops: seq<seq<Book>>)
    requires HoldsAccepted(current)
    ensures HoldsAccepted(DropAll(current, drops))
    decreases |drops|
  {
    if drops != [] {
      DropsKeepAcceptedType(Drop(current, drops[0]), drops[1..]);
    }
  }

  /** A pick after any drops decides the book alone, whatever was dropped before. */
  lemma PickOverridesDrops(current: Option<Book>, drops: seq<seq<Book>>, picked: seq<Book>)
    requires |picked| > 0
    ensures PickFile(DropAll(current, drops), picked) == PickFile(current, picked)
  {
  }

  /** Only dropping checks the type: a picked file of any type becomes the book. */
  lemma PickerSkipsTypeCheck()
    ensures Drop(None, [Book("image/png", "scan.png")]) == None
    ensures PickFile(None, [Book("image/png", "scan.png")]) == Some(Book("image/png", "scan.png"))
  {
    assert "image/png" != AcceptedTypes[0] && "image/png" != AcceptedTypes[2];
  }

  /**
   * Generating from a book: refused without a socket, without a book or
   * without a selected topic; otherwise the topics go out joined by ", ".
   */
  function GenerateFromBook(hasSocket: bool, book: Option<Book>, selected: seq<string>): (r: Option<string>)
    ensures r.Some? <==> hasSocket && book.Some? && |selected| > 0
    ensures r.Some? ==> r.value == Join(selected, ", ")
  {
    if !hasSocket then None
    else if book.None? || |selected| == 0 then None
    else Some(Join(selected, ", "))
  }

  /** The topic text sent splits back at ", " into the selected topics, when none contains ", ". */
  lemma GenerateSplitsBack(book: Book, selected: seq<string>)
    requires |selected| > 0
    requires forall i :: 0 <= i < |selected| ==> !OccursIn(", ", selected[i])
    ensures Split(GenerateFromBook(true, Some(book), selected).value, ", ") == selected
  {
    SplitJoin(selected);
  }
}

=== FILE: debug_log.dfy ===
/** The socket debug panel's event log: newest first, at most fifty entries. */
module DebugLog {

  /** The number of entries the panel keeps. */
  const MaxEntries: nat := 50

  /** One logged event; the random id, the timestamp and the payload are supplied by the caller. */
  datatype Entry = Entry(id: string, timestamp: int, event: string, data: string)

  function Min(a: nat, b: nat): nat { if a <= b then a else b }

  /**
   * `addLog`: nothing while the panel is disabled; otherwise the entry goes in
   * front and the log is cut back to its fifty newest entries.
   */
  function AddLog(logs: seq<Entry>, enabled: bool, e: Entry): (r: seq<Entry>)
    ensures !enabled ==> r == logs
    ensures enabled ==> |r| == Min(|logs| + 1, MaxEntries) && r[0] == e
    ensures enabled ==> forall i :: 1 <= i < |r| ==> r[i] == logs[i - 1]
  {
    if !enabled then logs else ([e] + logs)[..Min(|logs| + 1, MaxEntries)]
  }

  /** The Clear button. */
  function Clear(logs: seq<Entry>): (r: seq<Entry>)
    ensures |r| == 0
  {
    []
  }

  function Reverse(s: seq<Entry>): (r: seq<Entry>)
    ensures |r| == |s|
    ensures forall i :: 0 <= i < |s| ==> r[i] == s[|s| - 1 - i]
  {
    if s == [] then [] else Reverse(s[1..]) + [s[0]]
  }

  /** Logging the events `es` one after another on an enabled panel. */
  function AddAll(logs: seq<Entry>, es: seq<Entry>): seq<Entry>
    decreases |es|
  {
    if es == [] then logs else AddAll(AddLog(logs, true, es[0]), es[1..])
  }

  /**
   * Whatever was logged, the panel holds the newest entries, newest first:
   * the first fifty of the events in reverse arrival order followed by the
   * earlier log.
   */
  lemma {:induction false} AddAllKeepsNewest(logs: seq<Entry>, es: seq<Entry>)
    requires |logs| <= MaxEntries
    ensures AddAll(logs, es) == (Reverse(es) + logs)[..Min(|es| + |logs|, MaxEntries)]
    decreases |es|
  {
    if es != [] {
      var next := AddLog(logs, true, es[0]);
      AddAllKeepsNewest(next, es[1..]);
      var k := Min(|es| + |logs|, MaxEntries);
      var lhs := (Reverse(es[1..]) + next)[..Min(|es| - 1 + |next|, MaxEntries)];
      var rhs := (Reverse(es) + logs)[..k];
      assert |lhs| == |rhs|;
      forall i | 0 <= i < |lhs|
        ensures lhs[i] == rhs[i]
      {
        if i < |es| - 1 {
          assert lhs[i] == es[|es| - 1 - i];
        } else if i == |es| - 1 {
          assert lhs[i] == next[0];
        } else {
          assert lhs[i] == next[i - |es| + 1] == logs[i - |es|];
        }
      }
    }
  }

  /** However much is logged, the panel never holds more than fifty entries. */
  lemma LogStaysBounded(logs: seq<Entry>, es: seq<Entry>)
    requires |logs| <= MaxEntries
    ensures |AddAll(logs, es)| <= MaxEntries
  {
    AddAllKeepsNewest(logs, es);
  }
}

=== FILE: duration_slider.dfy ===
/** The test-duration slider: its range, the duration label and the label's colour. */
module DurationSlider {
  import opened Text

  const MinMinutes: int := 15
  const MaxMinutes: int := 180
  const StepMinutes: int := 5

  /** The values the slider can produce. */
  predicate OnGrid(v: int) {
    MinMinutes <= v <= MaxMinutes && (v - MinMinutes) % StepMinutes == 0
  }

  /** `handleSliderChange`: the first thumb's value is both shown and passed to `onChange`. */
  function SliderChange(newValue: seq<int>): (r: (int, int))
    requires |newValue| > 0
    ensures r.0 == newValue[0] && r.1 == newValue[0]
  {
    (newValue[0], newValue[0])
  }

  /** `formatDuration`: "N min" under an hour, else "Hh Mm", dropping a zero minute part. */
  function FormatDuration(minutes: int): (t: string)
    ensures minutes < 60 ==> t == IntToString(minutes) + " min"
    ensures minutes >= 60 && minutes % 60 > 0 ==>
      t == NatToString(minutes / 60) + "h " + NatToString(minutes % 60) + "m"
    ensures minutes >= 60 && minutes % 60 == 0 ==> t == NatToString(minutes / 60) + "h"
  {
    if minutes < 60 then IntToString(minutes) + " min"
    else
      var hours := minutes / 60;
      var mins := minutes % 60;
      if mins > 0 then NatToString(hours) + "h " + NatToString(mins) + "m" else NatToString(hours) + "h"
  }

  lemma MarkerAt(a: string, c: char, b: string)
    ensures (a + [c] + b)[|a|] == c
    ensures forall i :: 0 <= i < |a| ==> (a + [c] + b)[i] == a[i]
  {
  }

  /** Two digit strings followed by the same non-digit separator split the same way. */
  lemma {:induction false} SplitAtMarker(x: string, y: string, x2: string, y2: string, c: char)
    requires Digits(x) && Digits(x2)
    requires !IsDigit(c)
    requires x + [c] + y == x2 + [c] + y2
    ensures x == x2 && y == y2
  {
    var s := x + [c] + y;
    MarkerAt(x, c, y);
    MarkerAt(x2, c, y2);
    if |x| == |x2| {
      assert x == s[..|x|] == x2;
      assert y == s[|x| + 1..] == y2;
    }
  }

  lemma NatToStringInjective(a: nat, b: nat)
    requires NatToString(a) == NatToString(b)
    ensures a == b
  {
    ParseNatToString(a);
    ParseNatToString(b);
  }

  /** The label's last character tells which of the three shapes it has. */
  lemma LastChar(m: int)
    ensures var t := FormatDuration(m);
      |t| > 0 && t[|t| - 1] == (if m < 60 then 'n' else if m % 60 > 0 then 'm' else 'h')
  {
  }

  lemma ShortInjective(a: nat, b: nat)
    requires a < 60 && b < 60 && FormatDuration(a) == FormatDuration(b)
    ensures a == b
  {
    assert NatToString(a) + [' '] + "min" == FormatDuration(a);
    assert NatToString(b) + [' '] + "min" == FormatDuration(b);
    SplitAtMarker(NatToString(a), "min", NatToString(b), "min", ' ');
    NatToStringInjective(a, b);
  }

  lemma HoursMinutesInjective(a: nat, b: nat)
    requires a >= 60 && b >= 60 && a % 60 > 0 && b % 60 > 0
    requires FormatDuration(a) == FormatDuration(b)
    ensures a == b
  {
    var ha, hb, ma, mb := NatToString(a / 60), NatToString(b / 60), NatToString(a % 60), NatToString(b % 60);
    assert FormatDuration(a) == ha + ['h'] + (" " + ma + "m");
    assert FormatDuration(b) == hb + ['h'] + (" " + mb + "m");
    SplitAtMarker(ha, " " + ma + "m", hb, " " + mb + "m", 'h');
    assert ma == (" " + ma + "m")[1..|ma| + 1];
    assert mb == (" " + mb + "m")[1..|mb| + 1];
    NatToStringInjective(a / 60, b / 60);
    NatToStringInjective(a % 60, b % 60);
  }

  lemma WholeHoursInjective(a: nat, b: nat)
    requires a >= 60 && b >= 60 && a % 60 == 0 && b % 60 == 0
    requires FormatDuration(a) == FormatDuration(b)
    ensures a == b
  {
    var t := FormatDuration(a);
    assert NatToString(a / 60) == t[..|t| - 1] == NatToString(b / 60);
    NatToStringInjective(a / 60, b / 60);
  }

  /** Distinct durations the slider can produce never show the same label. */
  lemma FormatDurationInjective(a: int, b: int)
    requires OnGrid(a) && OnGrid(b)
    requires FormatDuration(a) == FormatDuration(b)
    ensures a == b
  {
    LastChar(a);
    LastChar(b);
    if a < 60 && b < 60 {
      ShortInjective(a, b);
    } else if a >= 60 && b >= 60 && a % 60 > 0 && b % 60 > 0 {
      HoursMinutesInjective(a, b);
    } else if a >= 60 && b >= 60 && a % 60 == 0 && b % 60 == 0 {
      WholeHoursInjective(a, b);
    }
  }

  /**
   * After two slider moves to grid positions, the labels shown agree exactly
   * when the durations passed on agree, and those durations stay on the grid.
   */
  lemma SliderLabelMatchesValue(v1: seq<int>, v2: seq<int>)
    requires |v1| > 0 && |v2| > 0 && OnGrid(v1[0]) && OnGrid(v2[0])
    ensures OnGrid(SliderChange(v1).1) && OnGrid(SliderChange(v2).1)
    ensures FormatDuration(SliderChange(v1).0) == FormatDuration(SliderChange(v2).0)
            <==> SliderChange(v1).1 == SliderChange(v2).1
  {
    if FormatDuration(v1[0]) == FormatDuration(v2[0]) {
      FormatDurationInjective(v1[0], v2[0]);
    }
  }

  /** `getDurationColor` */
  function DurationColor(disabled: bool, minutes: int): (c: string)
    ensures disabled ==> c == "text-muted-foreground"
    ensures !disabled && minutes <= 30 ==> c == "text-green-500"
    ensures !disabled && 30 < minutes <= 60 ==> c == "text-blue-500"
    ensures !disabled && 60 < minutes <= 90 ==> c == "text-yellow-500"
    ensures !disabled && minutes > 90 ==> c == "text-red-500"
  {
    if disabled then "text-muted-foreground"
    else if minutes <= 30 then "text-green-500"
    else if minutes <= 60 then "text-blue-500"
    else if minutes <= 90 then "text-yellow-500"
    else "text-red-500"
  }

  /** Rank of a colour from calm to alarming. */
  function Severity(c: string): nat {
    if c == "text-green-500" then 0
    else if c == "text-blue-500" then 1
    else if c == "text-yellow-500" then 2
    else if c == "text-red-500" then 3
    else 0
  }

  /** A longer enabled duration is never shown in a calmer colour. */
  lemma ColorMonotone(a: int, b: int)
    requires a <= b
    ensures Severity(DurationColor(false, a)) <= Severity(DurationColor(false, b))
  {
  }

  /** Labels at the slider's two ends and at two positions in between. */
  lemma GridLabels()
    ensures FormatDuration(15) == "15 min"
    ensures FormatDuration(60) == "1h"
    ensures FormatDuration(95) == "1h 35m"
    ensures FormatDuration(180) == "3h"
  {
    assert NatToString(15) == NatToString(1) + [DigitChar(5)];
    assert NatToString(35) == NatToString(3) + [DigitChar(5)];
  }
}

=== FILE: js.dfy ===
/**
 * JavaScript value conventions the front-end relies on: optional fields of a
 * loosely-shaped JSON payload, and the "truthiness" used by `a || b`.
 */
module Js {

  /** An optional payload field: `None` is `undefined`/`null`. */
  datatype Option<+T> = None | Some(value: T) {
    function GetOr(default: T): T {
      match this
      case Some(v) => v
      case None => default
    }
  }

  /** A string field is truthy when it is present and not the empty string. */
  predicate Truthy(o: Option<string>) {
    o.Some? && o.value != ""
  }

  /** `o || fallback` for a string-valued field. */
  function OrElse(o: Option<string>, fallback: string): (r: string)
    ensures Truthy(o) ==> r == o.value
    ensures !Truthy(o) ==> r == fallback
  {
    if Truthy(o) then o.value else fallback
  }

  /** A numeric field is truthy when it is present and not zero (NaN is not modelled). */
  predicate TruthyNum(o: Option<int>) {
    o.Some? && o.value != 0
  }

  /** `o || fallback` for a numeric field. */
  function NumOrElse(o: Option<int>, fallback: int): (r: int)
    ensures TruthyNum(o) ==> r == o.value
    ensures !TruthyNum(o) ==> r == fallback
  {
    if TruthyNum(o) then o.value else fallback
  }

  /** `Math.round(x)`: the integer nearest to `num / den`, halves rounding up. */
  function RoundDiv(num: int, den: int): (r: int)
    requires den > 0
    ensures 2 * den * r <= 2 * num + den < 2 * den * r + 2 * den
  {
    (2 * num + den) / (2 * den)
  }
}

=== FILE: live_monitor.dfy ===
/**
 * The live test-monitor page: the not_started/starting/started control state,
 * the connection flag, the simulated participant counter, the countdown and
 * the elapsed-time progress bar, written as `prev -> next` steps.
 */
module LiveMonitor {
  import opened Js
  import opened Clock

  /** The mock test's duration in minutes, and its id. */
  const MockDuration: nat := 60
  const MockTestId: string := "test-123456"

  /** The simulated participant counter stops here. */
  const MaxSimulated: nat := 5

  datatype TestState = NotStarted | Starting | Started

  datatype Page = Page(
    testState: TestState,
    timeRemaining: nat,
    participantCount: nat,
    connected: bool,
    progress: int)

  /** The START_ONLINE_TEST payload the page emits. */
  datatype StartRequest = StartRequest(testId: string, durationInMinutes: nat)

  function Initial(): Page {
    Page(NotStarted, MockDuration * 60, 0, false, 0)
  }

  /** `connect` sets the flag; `disconnect` and `connect_error` clear it. */
  function SetConnected(p: Page, connected: bool): (r: Page)
    ensures r.connected == connected
    ensures r.(connected := p.connected) == p
  {
    p.(connected := connected)
  }

  /**
   * The START_ONLINE_TEST listener: the test is started, and a payload with a
   * truthy duration resets the time remaining to that many minutes.
   */
  function OnStartOnlineTest(p: Page, durationInMinutes: Option<nat>): (r: Page)
    ensures r.testState == Started
    ensures durationInMinutes.Some? && durationInMinutes.value != 0 ==>
      r.timeRemaining == durationInMinutes.value * 60
    ensures !(durationInMinutes.Some? && durationInMinutes.value != 0) ==> r.timeRemaining == p.timeRemaining
    ensures r.participantCount == p.participantCount && r.connected == p.connected && r.progress == p.progress
  {
    match durationInMinutes
    case Some(d) =>
      if d != 0 then p.(testState := Started, timeRemaining := d * 60) else p.(testState := Started)
    case None => p.(testState := Started)
  }

  /** The five-second demo interval: one more participant while not started and below five. */
  function SimulatedJoin(p: Page): (r: Page)
    ensures p.testState == NotStarted && p.participantCount < MaxSimulated ==>
      r == p.(participantCount := p.participantCount + 1)
    ensures !(p.testState == NotStarted && p.participantCount < MaxSimulated) ==> r == p
  {
    if p.testState == NotStarted && p.participantCount < MaxSimulated then
      p.(participantCount := p.participantCount + 1)
    else p
  }

  /**
   * `Math.min(100, Math.round(elapsed / (duration * 60) * 100))`, the elapsed
   * seconds measured against the mock duration.
   */
  function ProgressPercent(elapsed: int): (r: int)
    ensures r <= 100
    ensures 0 <= elapsed ==> 0 <= r
    ensures r < 100 ==> 2 * MockDuration * 60 * r <= 200 * elapsed + MockDuration * 60 < 2 * MockDuration * 60 * (r + 1)
  {
    var rounded := RoundDiv(elapsed * 100, MockDuration * 60);
    if rounded < 100 then rounded else 100
  }

  /**
   * One second of the countdown interval, which only runs while the test is
   * started with time left: the clock ticks and the progress is recomputed
   * from the time remaining before the tick.
   */
  function Second(p: Page): (r: Page)
    ensures p.testState != Started || p.timeRemaining == 0 ==> r == p
    ensures p.testState == Started && p.timeRemaining > 0 ==>
      && r.timeRemaining == p.timeRemaining - 1
      && r.progress == ProgressPercent(MockDuration * 60 - p.timeRemaining)
      && r.(timeRemaining := p.timeRemaining, progress := p.progress) == p
  {
    if p.testState == Started && p.timeRemaining > 0 then
      p.(timeRemaining := Tick(p.timeRemaining), progress := ProgressPercent(MockDuration * 60 - p.timeRemaining))
    else p
  }

  /** `disabled={participantCount === 0 || !isConnected}` */
  predicate StartEnabled(p: Page) {
    p.participantCount != 0 && p.connected
  }

  /**
   * `handleStartTest`, reachable only through the button shown in the
   * not_started state: refused while disconnected, otherwise the state becomes
   * starting and the start request is emitted.
   */
  function ClickStart(p: Page): (r: (Page, Option<StartRequest>))
    ensures p.testState != NotStarted || !p.connected ==> r == (p, None)
    ensures p.testState == NotStarted && p.connected ==>
      r == (p.(testState := Starting), Some(StartRequest(MockTestId, MockDuration)))
  {
    if p.testState != NotStarted || !p.connected then (p, None)
    else (p.(testState := Starting), Some(StartRequest(MockTestId, MockDuration)))
  }

  /** The time-remaining panel: the running clock once started, else the nominal duration. */
  function TimeDisplay(p: Page): (t: string)
    ensures p.testState == Started ==> ClockShape(t) && ReadClock(t) == p.timeRemaining
    ensures p.testState != Started ==> t == "60:00"
  {
    if p.testState == Started then
      RenderRoundTrip(p.timeRemaining);
      Render(p.timeRemaining)
    else "60:00"
  }

  datatype Event =
    | Connect
    | Disconnect
    | ConnectError
    | StartOnlineTest(durationInMinutes: Option<nat>)
    | DemoInterval
    | ClockSecond
    | StartClicked

  function Step(p: Page, e: Event): Page {
    match e
    case Connect => SetConnected(p, true)
    case Disconnect => SetConnected(p, false)
    case ConnectError => SetConnected(p, false)
    case StartOnlineTest(d) => OnStartOnlineTest(p, d)
    case DemoInterval => SimulatedJoin(p)
    case ClockSecond => Second(p)
    case StartClicked => ClickStart(p).0
  }

  function Run(p: Page, es: seq<Event>): Page
    decreases |es|
  {
    if es == [] then p else Run(Step(p, es[0]), es[1..])
  }

  /** What every reachable page satisfies. */
  predicate Valid(p: Page) {
    p.participantCount <= MaxSimulated && p.progress <= 100
  }

  lemma InitialValid()
    ensures Valid(Initial())
  {
  }

  /** Every event sequence keeps the counter at most five and the progress at most 100. */
  lemma {:induction false} RunKeepsValid(p: Page, es: seq<Event>)
    requires Valid(p)
    ensures Valid(Run(p, es))
    decreases |es|
  {
    if es != [] {
      RunKeepsValid(Step(p, es[0]), es[1..]);
    }
  }

  /** Once started, no event takes the page back to an earlier state. */
  lemma {:induction false} StartedIsFinal(p: Page, es: seq<Event>)
    requires p.testState == Started
    ensures Run(p, es).testState == Started
    decreases |es|
  {
    if es != [] {
      StartedIsFinal(Step(p, es[0]), es[1..]);
    }
  }

  /** A disconnected page ignores the start button, and nothing is emitted. */
  lemma StartRefusedWhileDisconnected(p: Page)
    requires !p.connected
    ensures ClickStart(p) == (p, None)
  {
  }

  /** An enabled start button really does start: the click is never refused. */
  lemma EnabledStartEmits(p: Page)
    requires p.testState == NotStarted && StartEnabled(p)
    ensures ClickStart(p).0.testState == Starting && ClickStart(p).1.Some?
  {
  }

  function Seconds(p: Page, n: nat): Page
    decreases n
  {
    if n == 0 then p else Seconds(Second(p), n - 1)
  }

  /** On a started page, `n` seconds count the clock down to `max(0, t - n)`. */
  lemma {:induction false} SecondsCountDown(p: Page, n: nat)
    requires p.testState == Started
    ensures Seconds(p, n).timeRemaining == Ticks(p.timeRemaining, n)
    ensures Seconds(p, n).testState == Started
    decreases n
  {
    if n > 0 {
      SecondsCountDown(Second(p), n - 1);
      if p.timeRemaining == 0 {
        ZeroIsFixed(n - 1);
      }
    }
  }

  /** With no more than the mock duration left, the progress shown is a percentage. */
  lemma ProgressIsPercentage(p: Page)
    requires p.testState == Started && p.timeRemaining <= MockDuration * 60 && 0 <= p.progress <= 100
    ensures 0 <= Second(p).progress <= 100
  {
  }
}

=== FILE: middleware.dfy ===
/**
 * The routing middleware that runs before every page: it sends visitors
 * without a session to sign-in and signed-in users away from the sign-in,
 * sign-up and home pages. The cookie lookup is a parameter: whether an
 * access token is present.
 */
module Middleware {
  import opened Text

  const PublicPaths: seq<string> :=
    ["/", "/auth/signin", "/auth/signup", "/auth/forgot-password", "/auth/reset-password", "/auth/callback/google"]

  const AuthOnlyPaths: seq<string> := ["/auth/signin", "/auth/signup"]

  datatype Decision = RedirectToSignIn | RedirectToDashboard | Continue

  /** Some path of the list is a prefix of `pathname` (`paths.some(p => pathname.startsWith(p))`). */
  predicate HasPrefixIn(pathname: string, paths: seq<string>) {
    exists i | 0 <= i < |paths| :: StartsWith(pathname, paths[i])
  }

  /** The middleware's decision as written. */
  function Decide(pathname: string, hasToken: bool): (d: Decision)
    ensures !hasToken ==> (d == RedirectToSignIn <==> !HasPrefixIn(pathname, PublicPaths))
    ensures !hasToken && d != RedirectToSignIn ==> d == Continue
    ensures hasToken && HasPrefixIn(pathname, AuthOnlyPaths) ==> d == RedirectToDashboard
    ensures hasToken && pathname == "/" ==> d == RedirectToDashboard
    ensures hasToken && !HasPrefixIn(pathname, AuthOnlyPaths) && pathname != "/" ==> d == Continue
  {
    var isPublic := HasPrefixIn(pathname, PublicPaths);
    var isAuthOnly := HasPrefixIn(pathname, AuthOnlyPaths);
    if !isPublic && !hasToken then RedirectToSignIn
    else if isAuthOnly && hasToken then RedirectToDashboard
    else if pathname == "/" && hasToken && pathname != "/auth/callback/google" then RedirectToDashboard
    else Continue
  }

  /**
   * As written, "/" is a prefix of every request path, so every path counts
   * as public and the sign-in redirect can never fire.
   */
  lemma SignInRedirectNeverFires(pathname: string, hasToken: bool)
    requires StartsWith(pathname, "/")
    ensures Decide(pathname, hasToken) != RedirectToSignIn
  {
    assert StartsWith(pathname, PublicPaths[0]);
  }

  /** The concrete case: an anonymous visitor reaches the dashboard. */
  lemma AnonymousDashboardPasses()
    ensures Decide("/dashboard", false) == Continue
  {
    SignInRedirectNeverFires("/dashboard", false);
  }

  /** The public paths as evidently intended: the home page exactly, the others as prefixes. */
  predicate IsPublicIntended(pathname: string) {
    pathname == "/" || HasPrefixIn(pathname, PublicPaths[1..])
  }

  /** The decision with "/" matched exactly. */
  function DecideIntended(pathname: string, hasToken: bool): (d: Decision)
    ensures !hasToken ==> (d == RedirectToSignIn <==> !IsPublicIntended(pathname))
    ensures !hasToken && d != RedirectToSignIn ==> d == Continue
    ensures hasToken ==> d == Decide(pathname, hasToken)
  {
    if !IsPublicIntended(pathname) && !hasToken then RedirectToSignIn
    else if HasPrefixIn(pathname, AuthOnlyPaths) && hasToken then RedirectToDashboard
    else if pathname == "/" && hasToken then RedirectToDashboard
    else Continue
  }

  /** With the exact match, an anonymous request for a protected page is sent to sign-in. */
  lemma ProtectedPathRedirects()
    ensures DecideIntended("/dashboard", false) == RedirectToSignIn
    ensures DecideIntended("/dashboard/monitor", false) == RedirectToSignIn
    ensures DecideIntended("/", false) == Continue
    ensures DecideIntended("/auth/signin", false) == Continue
  {
    assert !StartsWith("/dashboard", "/auth/signin");
    var monitor := "/dashboard/monitor";
    assert monitor[1] == 'd';
    forall i | 0 <= i < |PublicPaths[1..]| ensures !StartsWith(monitor, PublicPaths[1..][i]) {
      assert PublicPaths[1..][i][1] == 'a';
    }
    assert StartsWith("/auth/signin", PublicPaths[1..][0]);
  }

  /** Signed-in users never see the sign-in or sign-up page, under either decision. */
  lemma SignedInLeavesAuthPages(pathname: string)
    requires StartsWith(pathname, "/auth/signin") || StartsWith(pathname, "/auth/signup")
    ensures Decide(pathname, true) == RedirectToDashboard
    ensures DecideIntended(pathname, true) == RedirectToDashboard
  {
    if StartsWith(pathname, "/auth/signin") {
      assert StartsWith(pathname, AuthOnlyPaths[0]);
    } else {
      assert StartsWith(pathname, AuthOnlyPaths[1]);
    }
  }
}

=== FILE: monitor_socket.dfy ===
/**
 * The live-participant reconciler of the monitor hook: every `setParticipants`
 * updater written as a pure `prev -> next` function over the participant list,
 * plus the hook's emit guards (join once, start, pause, resume, remove).
 */
module MonitorSocket {
  import opened Js
  import opened Text
  import opened ParticipantWire
  import Seqs

  /** A normalised participant; `joinedAt` is a millisecond timestamp. */
  datatype Participant = Participant(
    id: string,
    userId: string,
    clientId: string,
    firstName: string,
    lastName: string,
    name: string,
    email: string,
    status: Status,
    progress: int,
    joinedAt: int)

  /** The first non-empty of `id`, `userId`, `clientId`, else the random fallback. */
  function NormalizedId(d: RawUser, random: string): (id: string)
    ensures Truthy(d.id) ==> id == d.id.value
    ensures !Truthy(d.id) && Truthy(d.userId) ==> id == d.userId.value
    ensures !Truthy(d.id) && !Truthy(d.userId) && Truthy(d.clientId) ==> id == d.clientId.value
    ensures !Truthy(d.id) && !Truthy(d.userId) && !Truthy(d.clientId) ==> id == random
  {
    OrElse(d.id, OrElse(d.userId, OrElse(d.clientId, random)))
  }

  /** At most the first six characters of `s` (`s.substring(0, 6)`). */
  function Prefix6(s: string): (r: string)
    ensures |r| <= 6 && |r| <= |s| && r == s[..|r|]
    ensures |s| >= 6 ==> |r| == 6
  {
    if |s| <= 6 then s else s[..6]
  }

  /** The display name: the trimmed full name, or "Participant " and the start of the id. */
  function DisplayName(firstName: string, lastName: string, id: string): (name: string)
    ensures name != ""
    ensures Trim(firstName + " " + lastName) != "" ==> name == Trim(firstName + " " + lastName)
    ensures Trim(firstName + " " + lastName) == "" ==> name == "Participant " + Prefix6(id)
  {
    var full := Trim(firstName + " " + lastName);
    if full != "" then full else "Participant " + Prefix6(id)
  }

  /** `formatParticipant`: normalises one server record. */
  function Format(d: RawUser, random: string, now: int): (p: Participant)
    ensures p.id == NormalizedId(d, random)
    ensures p.userId == OrElse(d.userId, p.id) && p.clientId == OrElse(d.clientId, p.id)
    ensures p.firstName == OrElse(d.firstName, "") && p.lastName == OrElse(d.lastName, "")
    ensures p.name == DisplayName(p.firstName, p.lastName, p.id)
    ensures p.email == OrElse(d.email, "")
    ensures p.status == Normalize(d.status) && WellFormed(p.status)
    ensures d.progress.None? ==> p.progress == 0
    ensures d.progress.Some? ==> p.progress == d.progress.value
    ensures p.joinedAt == NumOrElse(d.joinedAt, now)
  {
    var id := NormalizedId(d, random);
    var firstName := OrElse(d.firstName, "");
    var lastName := OrElse(d.lastName, "");
    Participant(
      id,
      OrElse(d.userId, id),
      OrElse(d.clientId, id),
      firstName,
      lastName,
      DisplayName(firstName, lastName, id),
      OrElse(d.email, ""),
      Normalize(d.status),
      NumOrElse(d.progress, 0),
      NumOrElse(d.joinedAt, now))
  }

  /** Some entry of `ps` has id `id`. */
  predicate HasId(ps: seq<Participant>, id: string) {
    exists i :: 0 <= i < |ps| && ps[i].id == id
  }

  /** No two entries share an id. */
  ghost predicate UniqueIds(ps: seq<Participant>) {
    forall i, j :: 0 <= i < j < |ps| ==> ps[i].id != ps[j].id
  }

  /**
   * The entry a `new Map(prev.map(p => [p.id, p]))` lookup finds: when ids repeat,
   * the map keeps the last one.
   */
  function LastWithId(ps: seq<Participant>, id: string): (r: Option<Participant>)
    ensures r.None? <==> !HasId(ps, id)
    ensures r.Some? ==> exists i :: 0 <= i < |ps| && ps[i] == r.value && r.value.id == id
                                      && forall j :: i < j < |ps| ==> ps[j].id != id
  {
    if ps == [] then None
    else if ps[|ps| - 1].id == id then Some(ps[|ps| - 1])
    else
      var r := LastWithId(ps[..|ps| - 1], id);
      assert HasId(ps, id) ==> HasId(ps[..|ps| - 1], id) by {
        if HasId(ps, id) {
          var i :| 0 <= i < |ps| && ps[i].id == id;
          assert ps[..|ps| - 1][i].id == id;
        }
      }
      r
  }

  /** With unique ids the lookup finds the one entry carrying the id. */
  lemma LastWithIdUnique(ps: seq<Participant>, i: int)
    requires UniqueIds(ps) && 0 <= i < |ps|
    ensures LastWithId(ps, ps[i].id) == Some(ps[i])
  {
  }

  /** One element of a snapshot merge: the normalised record, keeping an existing `joinedAt`. */
  function MergeOne(prev: seq<Participant>, n: Participant): (m: Participant)
    ensures m == n.(joinedAt := m.joinedAt)
    ensures LastWithId(prev, n.id).Some? ==> m.joinedAt == LastWithId(prev, n.id).value.joinedAt
    ensures !HasId(prev, n.id) ==> m == n
  {
    match LastWithId(prev, n.id)
    case Some(e) => n.(joinedAt := e.joinedAt)
    case None => n
  }

  /**
   * `updateParticipants`: the list becomes exactly the normalised incoming
   * records, in incoming order; an entry whose id was already listed keeps its
   * old `joinedAt`. Entries missing from the snapshot are dropped.
   */
  function MergeSnapshot(prev: seq<Participant>, incoming: seq<RawUser>, randomId: nat -> string, now: int)
    : (r: seq<Participant>)
    ensures |r| == |incoming|
    ensures forall i :: 0 <= i < |r| ==>
      r[i] == Format(incoming[i], randomId(i), now).(joinedAt := r[i].joinedAt)
    ensures forall i :: 0 <= i < |r| && HasId(prev, r[i].id) ==>
      r[i].joinedAt == LastWithId(prev, r[i].id).value.joinedAt
    ensures forall i :: 0 <= i < |r| && !HasId(prev, r[i].id) ==>
      r[i].joinedAt == NumOrElse(incoming[i].joinedAt, now)
  {
    seq(|incoming|, i requires 0 <= i < |incoming| => MergeOne(prev, Format(incoming[i], randomId(i), now)))
  }

  /** A participant listed before a snapshot and listed in it again keeps its `joinedAt`. */
  lemma SnapshotKeepsJoinedAt(prev: seq<Participant>, incoming: seq<RawUser>, randomId: nat -> string, now: int,
                              i: int, k: int)
    requires UniqueIds(prev)
    requires 0 <= i < |incoming| && 0 <= k < |prev|
    requires NormalizedId(incoming[i], randomId(i)) == prev[k].id
    ensures MergeSnapshot(prev, incoming, randomId, now)[i].joinedAt == prev[k].joinedAt
  {
    var r := MergeSnapshot(prev, incoming, randomId, now);
    assert r[i].id == prev[k].id;
    LastWithIdUnique(prev, k);
  }

  /** A snapshot whose records normalise to distinct ids yields a duplicate-free list. */
  lemma SnapshotUniqueIds(prev: seq<Participant>, incoming: seq<RawUser>, randomId: nat -> string, now: int)
    requires forall i, j :: 0 <= i < j < |incoming| ==>
      NormalizedId(incoming[i], randomId(i)) != NormalizedId(incoming[j], randomId(j))
    ensures UniqueIds(MergeSnapshot(prev, incoming, randomId, now))
  {
  }

  /** The JOIN snapshot's pre-mapping of one `onlineUsers` entry (the id prefers `userId`). */
  function JoinRecord(user: RawUser, now: int): (d: RawUser)
    ensures d.clientId.None?
    ensures Truthy(user.userId) ==> d.id == user.userId
    ensures d.joinedAt == Some(NumOrElse(user.joinedAt, now))
  {
    RawUser(
      if Truthy(user.userId) then user.userId else user.id,
      user.userId,
      None,
      user.firstName,
      user.lastName,
      user.email,
      user.status,
      Some(NumOrElse(user.progress, 0)),
      Some(NumOrElse(user.joinedAt, now)))
  }

  /** The record the single-user JOIN branch builds before normalising it. */
  function JoinedUser(data: RawUser, now: int): RawUser {
    RawUser(
      data.userId,
      data.userId,
      None,
      Some(OrElse(data.firstName, "")),
      Some(OrElse(data.lastName, "")),
      Some(OrElse(data.email, "")),
      Some("joining"),
      Some(0),
      Some(now))
  }

  /**
   * The single-user JOIN updater: appends a joining, progress-0 entry unless an
   * entry with that id is already listed, in which case the list is unchanged.
   */
  function JoinOne(prev: seq<Participant>, data: RawUser, now: int): (r: seq<Participant>)
    requires Truthy(data.userId)
    ensures HasId(prev, data.userId.value) ==> r == prev
    ensures !HasId(prev, data.userId.value) ==>
      && |r| == |prev| + 1 && r[..|prev|] == prev
      && r[|prev|].id == data.userId.value
      && r[|prev|].status == Joining && r[|prev|].progress == 0 && r[|prev|].joinedAt == now
      && r[|prev|].email == OrElse(data.email, "")
  {
    if HasId(prev, data.userId.value) then prev
    else prev + [Format(JoinedUser(data, now), "", now)]
  }

  /** Joining never introduces a duplicate id. */
  lemma JoinOneUnique(prev: seq<Participant>, data: RawUser, now: int)
    requires Truthy(data.userId) && UniqueIds(prev)
    ensures UniqueIds(JoinOne(prev, data, now))
  {
  }

  /** The key a CHANGE_USER_DATA delta is matched by: `userId || clientId`. */
  function DeltaKey(data: RawUser): string
    requires Truthy(data.userId) || Truthy(data.clientId)
  {
    if Truthy(data.userId) then data.userId.value else data.clientId.value
  }

  /** A listed participant is the target of a delta when its id or client id equals the key. */
  predicate DeltaMatches(p: Participant, key: string) {
    p.id == key || p.clientId == key
  }

  /** The status a delta passes to the normaliser: the sent one, else joining promoted to active. */
  function DeltaStatus(data: RawUser, current: Status): string {
    if Truthy(data.status) then data.status.value
    else Name(if current == Joining then Active else current)
  }

  /** The replacement for one matched entry: the fully re-normalised delta, keeping `joinedAt`. */
  function DeltaEntry(p: Participant, data: RawUser, now: int): (q: Participant)
    requires Truthy(data.userId) || Truthy(data.clientId)
    ensures q.joinedAt == p.joinedAt
    ensures q.id == NormalizedId(data, "")
  {
    Format(data.(status := Some(DeltaStatus(data, p.status))), "", now).(joinedAt := p.joinedAt)
  }

  /**
   * The CHANGE_USER_DATA single-user updater. The list keeps its length; entries
   * the key does not match are untouched; matched ones are replaced by the
   * re-normalised delta (absent fields fall back to defaults) with their
   * `joinedAt` kept.
   */
  function ApplyDelta(prev: seq<Participant>, data: RawUser, now: int): (r: seq<Participant>)
    requires Truthy(data.userId) || Truthy(data.clientId)
    ensures |r| == |prev|
    ensures forall i :: 0 <= i < |r| && !DeltaMatches(prev[i], DeltaKey(data)) ==> r[i] == prev[i]
    ensures forall i :: 0 <= i < |r| && DeltaMatches(prev[i], DeltaKey(data)) ==>
      r[i] == DeltaEntry(prev[i], data, now)
    ensures forall i :: 0 <= i < |r| ==> r[i].joinedAt == prev[i].joinedAt
  {
    var key := DeltaKey(data);
    seq(|prev|, i requires 0 <= i < |prev| =>
      if DeltaMatches(prev[i], key) then DeltaEntry(prev[i], data, now) else prev[i])
  }

  /** A delta without a status promotes a joining participant to active and keeps other statuses. */
  lemma DeltaPromotesJoining(p: Participant, data: RawUser, now: int)
    requires Truthy(data.userId) || Truthy(data.clientId)
    requires !Truthy(data.status) && WellFormed(p.status)
    ensures DeltaEntry(p, data, now).status == if p.status == Joining then Active else p.status
  {
    NormalizeName(if p.status == Joining then Active else p.status);
  }

  /** A delta with a status uses it, normalised. */
  lemma DeltaUsesSentStatus(p: Participant, data: RawUser, now: int)
    requires Truthy(data.userId) || Truthy(data.clientId)
    requires Truthy(data.status)
    ensures DeltaEntry(p, data, now).status == Normalize(data.status)
  {
  }

  /** Fields absent from a delta fall back to defaults instead of keeping the old values. */
  lemma DeltaResetsAbsentFields(p: Participant, data: RawUser, now: int)
    requires Truthy(data.userId) || Truthy(data.clientId)
    requires data.progress.None? && data.email.None?
    ensures DeltaEntry(p, data, now).progress == 0
    ensures DeltaEntry(p, data, now).email == ""
  {
  }

  /**
   * As written, a delta matched through `clientId` re-derives the id from the
   * delta, so one entry matched by client id and another matched by id both
   * take the delta's id: the list then holds that id twice.
   */
  lemma DeltaCanDuplicateIds(a: Participant, b: Participant, data: RawUser, now: int)
    requires !Truthy(data.id) && !Truthy(data.userId) && Truthy(data.clientId)
    requires a.clientId == data.clientId.value && b.id == data.clientId.value && a.id != b.id
    ensures UniqueIds([a, b])
    ensures !UniqueIds(ApplyDelta([a, b], data, now))
  {
    var key := DeltaKey(data);
    var prev := [a, b];
    assert DeltaMatches(prev[0], key) && DeltaMatches(prev[1], key);
    var r := ApplyDelta(prev, data, now);
    assert r[0].id == NormalizedId(data, "") == r[1].id;
  }

  /**
   * The delta update as evidently intended: a matched entry takes the delta's
   * fields but keeps the id it is listed under, exactly as the written update
   * would leave it apart from the id; ids that were distinct stay distinct.
   */
  function ApplyDeltaIntended(prev: seq<Participant>, data: RawUser, now: int): (r: seq<Participant>)
    requires Truthy(data.userId) || Truthy(data.clientId)
    ensures |r| == |prev|
    ensures forall i :: 0 <= i < |r| ==> r[i].id == prev[i].id
    ensures forall i :: 0 <= i < |r| ==> r[i] == ApplyDelta(prev, data, now)[i].(id := prev[i].id)
    ensures UniqueIds(prev) ==> UniqueIds(r)
  {
    var written := ApplyDelta(prev, data, now);
    seq(|prev|, i requires 0 <= i < |prev| => written[i].(id := prev[i].id))
  }

  /** The USER_LEFT updater: matching entries become `Left`; nothing is removed. */
  function MarkLeft(prev: seq<Participant>, userId: string): (r: seq<Participant>)
    ensures |r| == |prev|
    ensures forall i :: 0 <= i < |r| ==>
      if prev[i].id == userId then r[i] == prev[i].(status := Left) else r[i] == prev[i]
  {
    seq(|prev|, i requires 0 <= i < |prev| =>
      if prev[i].id == userId then prev[i].(status := Left) else prev[i])
  }

  /** The PROGRESS_UPDATED updater: only `progress` of matching entries changes. */
  function SetProgress(prev: seq<Participant>, userId: string, progress: int): (r: seq<Participant>)
    ensures |r| == |prev|
    ensures forall i :: 0 <= i < |r| ==>
      if prev[i].id == userId then r[i] == prev[i].(progress := progress) else r[i] == prev[i]
  {
    seq(|prev|, i requires 0 <= i < |prev| =>
      if prev[i].id == userId then prev[i].(progress := progress) else prev[i])
  }

  /** A progress update for an id nobody has leaves the list as it was. */
  lemma SetProgressUnknownId(prev: seq<Participant>, userId: string, progress: int)
    requires !HasId(prev, userId)
    ensures SetProgress(prev, userId, progress) == prev
  {
  }

  /** Leaving twice is the same as leaving once. */
  lemma MarkLeftIdempotent(prev: seq<Participant>, userId: string)
    ensures MarkLeft(MarkLeft(prev, userId), userId) == MarkLeft(prev, userId)
  {
  }

  /**
   * The payload field `onlineUsers` of a CHANGE_USER_DATA event, classified by
   * what the handler does with it. A value without a positive `length` leaves
   * the handler to the single-user update; a value that makes the handler
   * throw is caught, and the list stays as it was.
   */
  datatype UsersField =
    | NoUsers        // absent or falsy; a truthy non-string non-array; or JSON text
                     // for "", a number, a boolean, or an object without a positive length
    | Users(list: seq<RawUser>)    // an array, given directly or as JSON text
    | Throws         // JSON text that `JSON.parse` rejects, or that parses to null
                     // (no `length`), a non-empty string or an object with a positive
                     // length (no `filter`)

  /** Inbound events on the online-test channel, already decoded from JSON. */
  datatype Event =
    | JoinOnlineTest(onlineUsers: Option<seq<RawUser>>, data: RawUser)
    | ChangeUserData(users: UsersField, data: RawUser)
    | UserLeft(userId: Option<string>)
    | ProgressUpdated(userId: Option<string>, progress: Option<int>)  // None: not a number
    | OnlineTestStarted
    | OnlineTestEnded

  /** Commands the hook emits to the server. */
  datatype Command =
    | JoinRoom(codeNumber: NumberValue)   // the join code passed through `Number`
    | StartOnlineTest(code: string, testDuration: int)
    | PauseTest(testId: string)
    | ResumeTest(testId: string)
    | RemoveParticipant(testId: string, userId: string)

  datatype State = State(
    participants: seq<Participant>,
    testStarted: bool,
    testEnded: bool,
    joinedRoom: bool,
    isLoading: bool)

  const Initial := State([], false, false, false, false)

  /** A record of a CHANGE_USER_DATA list is kept only when it carries some id. */
  predicate HasSomeId(u: RawUser) {
    Truthy(u.userId) || Truthy(u.id) || Truthy(u.clientId)
  }

  /** The JOIN handler's effect on the list. */
  function OnJoin(prev: seq<Participant>, onlineUsers: Option<seq<RawUser>>, data: RawUser,
                  randomId: nat -> string, now: int): (r: seq<Participant>)
    ensures onlineUsers.Some? ==> |r| == |onlineUsers.value|
    ensures onlineUsers.None? && !Truthy(data.userId) ==> r == prev
  {
    match onlineUsers
    case Some(users) =>
      MergeSnapshot(prev, seq(|users|, i requires 0 <= i < |users| => JoinRecord(users[i], now)), randomId, now)
    case None =>
      if Truthy(data.userId) then JoinOne(prev, data, now) else prev
  }

  /** The CHANGE_USER_DATA handler's effect on the list. */
  function OnChange(prev: seq<Participant>, users: UsersField, data: RawUser,
                    randomId: nat -> string, now: int): (r: seq<Participant>)
    ensures users.Throws? ==> r == prev
    ensures (users.NoUsers? || users == Users([])) && !Truthy(data.userId) && !Truthy(data.clientId)
      ==> r == prev
    ensures (users.NoUsers? || users == Users([])) ==> |r| == |prev|
    ensures users.Users? && |users.list| > 0 ==> |r| == |Seqs.Filter(users.list, HasSomeId)| <= |users.list|
  {
    if users.Throws? then prev
    else if users.Users? && |users.list| > 0 then
      MergeSnapshot(prev, Seqs.Filter(users.list, HasSomeId), randomId, now)
    else if Truthy(data.userId) || Truthy(data.clientId) then
      ApplyDelta(prev, data, now)
    else prev
  }

  /** Dispatches one inbound event to its handler. */
  function OnEvent(s: State, e: Event, randomId: nat -> string, now: int): (t: State)
    ensures e.UserLeft? && !Truthy(e.userId) ==> t == s
    ensures e.ProgressUpdated? && (!Truthy(e.userId) || e.progress.None?) ==> t == s
    ensures !e.JoinOnlineTest? ==> t.isLoading == s.isLoading
    ensures e.JoinOnlineTest? ==> !t.isLoading
    ensures t.joinedRoom == s.joinedRoom
  {
    match e
    case JoinOnlineTest(users, data) =>
      s.(isLoading := false, participants := OnJoin(s.participants, users, data, randomId, now))
    case ChangeUserData(users, data) =>
      s.(participants := OnChange(s.participants, users, data, randomId, now))
    case UserLeft(userId) =>
      if Truthy(userId) then s.(participants := MarkLeft(s.participants, userId.value)) else s
    case ProgressUpdated(userId, progress) =>
      if Truthy(userId) && progress.Some? then
        s.(participants := SetProgress(s.participants, userId.value, progress.value))
      else s
    case OnlineTestStarted => s.(testStarted := true)
    case OnlineTestEnded => s.(testEnded := true)
  }

  /** Leave and progress events never change which ids are listed, nor their order. */
  lemma LeaveAndProgressKeepIds(s: State, e: Event, randomId: nat -> string, now: int)
    requires e.UserLeft? || e.ProgressUpdated?
    ensures |OnEvent(s, e, randomId, now).participants| == |s.participants|
    ensures forall i :: 0 <= i < |s.participants| ==>
      OnEvent(s, e, randomId, now).participants[i].id == s.participants[i].id
      && OnEvent(s, e, randomId, now).participants[i].joinedAt == s.participants[i].joinedAt
  {
  }

  /**
   * The room-join effect: emits the join request only when connected, with a
   * join code, and not yet joined; emitting records the join. The request
   * carries the code as a number.
   */
  function JoinRoomEffect(s: State, connected: bool, tempCode: Option<string>): (r: (State, Option<Command>))
    ensures r.1.Some? <==> connected && Truthy(tempCode) && !s.joinedRoom
    ensures r.1.Some? ==> r.1.value == JoinRoom(ToNumber(tempCode.value)) && r.0 == s.(joinedRoom := true, isLoading := true)
    ensures r.1.None? ==> r.0 == s
  {
    if !connected || !Truthy(tempCode) || s.joinedRoom then (s, None)
    else (s.(isLoading := true, joinedRoom := true), Some(JoinRoom(ToNumber(tempCode.value))))
  }

  /**
   * A join code typed as a decimal number, with any leading zeros and blanks
   * around it, is sent as that number, while `startTest` sends the text as typed.
   */
  lemma JoinSendsCodeNumber(s: State, n: nat, zeros: nat, blanks: nat, duration: int)
    requires !s.joinedRoom
    ensures var pad := seq(blanks, _ => ' ');
      var code := pad + (seq(zeros, _ => '0') + NatToString(n)) + pad;
      && JoinRoomEffect(s, true, Some(code)).1 == Some(JoinRoom(Whole(n)))
      && StartTest(true, Some(code), duration) == Some(StartOnlineTest(code, duration))
  {
    var pad := seq(blanks, _ => ' ');
    var text := seq(zeros, _ => '0') + NatToString(n);
    var code := pad + text + pad;
    assert |code| >= |text| >= 1;
    NumberOfPrinted(n, zeros, blanks);
    assert ToNumber(code) == Whole(n);
  }

  /** However often the effect re-runs, and whatever events arrive between runs, the room is joined once. */
  lemma JoinRoomAtMostOnce(s: State, connected: bool, tempCode: Option<string>,
                           e: Event, randomId: nat -> string, now: int,
                           connected2: bool, tempCode2: Option<string>)
    requires JoinRoomEffect(s, connected, tempCode).1.Some?
    ensures JoinRoomEffect(OnEvent(JoinRoomEffect(s, connected, tempCode).0, e, randomId, now),
                           connected2, tempCode2).1.None?
  {
  }

  /**
   * Joins emitted over a run of steps, each one run of the room-join effect
   * followed by an optional inbound event.
   */
  function JoinsEmitted(s: State, steps: seq<(bool, Option<string>, Option<Event>)>, randomId: nat -> string, now: int)
    : (n: nat)
    ensures s.joinedRoom ==> n == 0
    ensures n <= 1
    decreases |steps|
  {
    if steps == [] then 0
    else
      var (connected, tempCode, ev) := steps[0];
      var (s1, sent) := JoinRoomEffect(s, connected, tempCode);
      var s2 := if ev.Some? then OnEvent(s1, ev.value, randomId, now) else s1;
      (if sent.Some? then 1 else 0) + JoinsEmitted(s2, steps[1..], randomId, now)
  }

  /** `startTest`: emits the start command only when connected with a join code. */
  function StartTest(connected: bool, tempCode: Option<string>, duration: int): (c: Option<Command>)
    ensures c.Some? <==> connected && Truthy(tempCode)
    ensures c.Some? ==> c.value == StartOnlineTest(tempCode.value, duration)
  {
    if !connected || !Truthy(tempCode) then None else Some(StartOnlineTest(tempCode.value, duration))
  }

  /** `pauseTest`: emits only when connected with a test id. */
  function Pause(connected: bool, testId: Option<string>): (c: Option<Command>)
    ensures c.Some? <==> connected && Truthy(testId)
    ensures c.Some? ==> c.value == PauseTest(testId.value)
  {
    if !connected || !Truthy(testId) then None else Some(PauseTest(testId.value))
  }

  /** `resumeTest`: emits only when connected with a test id. */
  function Resume(connected: bool, testId: Option<string>): (c: Option<Command>)
    ensures c.Some? <==> connected && Truthy(testId)
    ensures c.Some? ==> c.value == ResumeTest(testId.value)
  {
    if !connected || !Truthy(testId) then None else Some(ResumeTest(testId.value))
  }

  /**
   * While the socket is down no command leaves the hook and the state stays
   * as it was, whatever the code or test id.
   */
  lemma DisconnectedSendsNothing(s: State, tempCode: Option<string>, testId: Option<string>,
                                 participantId: string, duration: int)
    ensures JoinRoomEffect(s, false, tempCode) == (s, None)
    ensures StartTest(false, tempCode, duration).None?
    ensures Pause(false, testId).None? && Resume(false, testId).None?
    ensures Remove(s, false, testId, participantId) == (s, None)
  {
  }

  /**
   * Pausing and resuming a test address the same test with opposite
   * commands: each is sent exactly when the other is.
   */
  lemma PauseResumePair(connected: bool, testId: Option<string>)
    ensures Pause(connected, testId).Some? <==> Resume(connected, testId).Some?
    ensures Pause(connected, testId).Some? ==>
      Pause(connected, testId).value.testId == Resume(connected, testId).value.testId
      && Pause(connected, testId) != Resume(connected, testId)
  {
  }

  /** The monitor page's controls: start, pause, resume and remove a participant. */
  datatype Control = Start(duration: int) | PauseControl | ResumeControl | RemoveControl(participantId: string)

  /** One control: the state after it and the command it sends, if any. */
  function RunControl(s: State, connected: bool, tempCode: Option<string>, testId: Option<string>, c: Control)
    : (r: (State, Option<Command>))
    ensures r.0 == s.(participants := r.0.participants)
    ensures forall p :: p in r.0.participants ==> p in s.participants
    ensures !c.RemoveControl? ==> r.0 == s
    ensures !connected ==> r == (s, None)
    ensures connected && Truthy(tempCode) && Truthy(testId) ==> r.1.Some?
  {
    match c
    case Start(duration) => (s, StartTest(connected, tempCode, duration))
    case PauseControl => (s, Pause(connected, testId))
    case ResumeControl => (s, Resume(connected, testId))
    case RemoveControl(participantId) => Remove(s, connected, testId, participantId)
  }

  /**
   * A run of controls and the commands it sends, in order. Only removals touch
   * the state, and then only by dropping participants; while disconnected
   * nothing is sent and nothing changes.
   */
  function RunControls(s: State, connected: bool, tempCode: Option<string>, testId: Option<string>, cs: seq<Control>)
    : (r: (State, seq<Command>))
    ensures |r.1| <= |cs|
    ensures r.0 == s.(participants := r.0.participants)
    ensures forall p :: p in r.0.participants ==> p in s.participants
    ensures !connected ==> r == (s, [])
    decreases |cs|
  {
    if cs == [] then (s, [])
    else
      var (s1, sent) := RunControl(s, connected, tempCode, testId, cs[0]);
      var (s2, rest) := RunControls(s1, connected, tempCode, testId, cs[1..]);
      (s2, (if sent.Some? then [sent.value] else []) + rest)
  }

  /**
   * Connected, with a join code and a test id, every control sends its command;
   * a run without removals leaves the state exactly as it was.
   */
  lemma {:induction false} ControlsSendEach(s: State, tempCode: Option<string>, testId: Option<string>, cs: seq<Control>)
    requires Truthy(tempCode) && Truthy(testId)
    ensures |RunControls(s, true, tempCode, testId, cs).1| == |cs|
    ensures (forall k :: 0 <= k < |cs| ==> !cs[k].RemoveControl?) ==> RunControls(s, true, tempCode, testId, cs).0 == s
    decreases |cs|
  {
    if cs != [] {
      var s1 := RunControl(s, true, tempCode, testId, cs[0]).0;
      ControlsSendEach(s1, tempCode, testId, cs[1..]);
      if forall k :: 0 <= k < |cs| ==> !cs[k].RemoveControl? {
        assert s1 == s;
        assert forall k :: 0 <= k < |cs[1..]| ==> !cs[1..][k].RemoveControl? by {
          forall k | 0 <= k < |cs[1..]| ensures !cs[1..][k].RemoveControl? {
            assert cs[1..][k] == cs[k + 1];
          }
        }
      }
    }
  }

  /**
   * `removeParticipant`: when connected with a test id, emits the removal and at
   * once drops every entry with that id, keeping the others in order; otherwise
   * nothing happens.
   */
  function Remove(s: State, connected: bool, testId: Option<string>, participantId: string)
    : (r: (State, Option<Command>))
    ensures r.1.Some? <==> connected && Truthy(testId)
    ensures r.1.None? ==> r.0 == s
    ensures r.1.Some? ==>
      && r.1.value == RemoveParticipant(testId.value, participantId)
      && !HasId(r.0.participants, participantId)
      && (forall p :: p in s.participants && p.id != participantId ==> p in r.0.participants)
      && Seqs.IsSubsequence(r.0.participants, s.participants)
      && (forall p :: multiset(r.0.participants)[p] == if p.id == participantId then 0 else multiset(s.participants)[p])
  {
    if !connected || !Truthy(testId) then (s, None)
    else
      var kept := Seqs.Filter(s.participants, (p: Participant) => p.id != participantId);
      Seqs.FilterIsSubsequence(s.participants, (p: Participant) => p.id != participantId);
      forall i | 0 <= i < |kept|
        ensures kept[i].id != participantId
      {
        assert kept[i] in kept;
      }
      forall p ensures multiset(kept)[p] == if p.id == participantId then 0 else multiset(s.participants)[p] {
        Seqs.FilterMultiset(s.participants, (p: Participant) => p.id != participantId, p);
      }
      (s.(participants := kept), Some(RemoveParticipant(testId.value, participantId)))
  }
}

=== FILE: monitor_view.dfy ===
/**
 * The teacher's monitor dashboard: the aggregates and controls it derives from
 * the reconciled participant list.
 */
module MonitorView {
  import opened Js
  import opened Seqs
  import opened Text
  import opened ParticipantWire
  import opened MonitorSocket
  import opened Clock

  /** The search box: the text occurs, ignoring case, in the name or in a non-empty email. */
  predicate MatchesFilter(p: Participant, filterText: string) {
    Contains(Lower(p.name), Lower(filterText))
    || (p.email != "" && Contains(Lower(p.email), Lower(filterText)))
  }

  /** `filteredParticipants`. */
  function FilterParticipants(ps: seq<Participant>, filterText: string): (r: seq<Participant>)
    ensures forall p :: p in r <==> p in ps && MatchesFilter(p, filterText)
  {
    Filter(ps, p => MatchesFilter(p, filterText))
  }

  /** The filtered list keeps the order of the participant list. */
  lemma FilterKeepsOrder(ps: seq<Participant>, filterText: string)
    ensures IsSubsequence(FilterParticipants(ps, filterText), ps)
  {
    FilterIsSubsequence(ps, p => MatchesFilter(p, filterText));
  }

  /** An empty search text keeps every participant, in order. */
  lemma EmptyFilterKeepsAll(ps: seq<Participant>)
    ensures FilterParticipants(ps, "") == ps
  {
    forall i | 0 <= i < |ps| ensures MatchesFilter(ps[i], "") {
      ContainsEmpty(Lower(ps[i].name));
    }
    FilterAll(ps, p => MatchesFilter(p, ""));
  }

  predicate IsActive(p: Participant) { p.status == Active }

  /** The total progress of the active participants. */
  function ActiveProgressSum(ps: seq<Participant>): int {
    if ps == [] then 0
    else (if IsActive(ps[0]) then ps[0].progress else 0) + ActiveProgressSum(ps[1..])
  }

  /** The number of active participants. */
  function ActiveCount(ps: seq<Participant>): (n: nat)
    ensures n <= |ps|
    ensures n == 0 <==> forall i :: 0 <= i < |ps| ==> !IsActive(ps[i])
  {
    if ps == [] then 0
    else
      var rest := ActiveCount(ps[1..]);
      assert forall i :: 1 <= i < |ps| ==> ps[i] == ps[1..][i - 1];
      (if IsActive(ps[0]) then 1 else 0) + rest
  }

  /**
   * `calculateAverageProgress`: 0 for an empty list or no active participant,
   * otherwise the rounded mean progress of the active ones.
   */
  function AverageProgress(ps: seq<Participant>): (r: int)
    ensures ActiveCount(ps) == 0 ==> r == 0
    ensures ActiveCount(ps) > 0 ==>
      2 * ActiveCount(ps) * r <= 2 * ActiveProgressSum(ps) + ActiveCount(ps) < 2 * ActiveCount(ps) * (r + 1)
  {
    if |ps| == 0 then 0
    else if ActiveCount(ps) == 0 then 0
    else RoundDiv(ActiveProgressSum(ps), ActiveCount(ps))
  }

  lemma {:induction false} ActiveSumBounds(ps: seq<Participant>)
    requires forall i :: 0 <= i < |ps| ==> 0 <= ps[i].progress <= 100
    ensures 0 <= ActiveProgressSum(ps) <= 100 * ActiveCount(ps)
  {
    if ps != [] {
      ActiveSumBounds(ps[1..]);
    }
  }

  /** A rounded mean of `n` values in 0..100 is itself in 0..100. */
  lemma RoundedMeanBounds(total: int, n: int, r: int)
    requires n > 0 && 0 <= total <= 100 * n
    requires 2 * n * r <= 2 * total + n < 2 * n * (r + 1)
    ensures 0 <= r <= 100
  {
    if r < 0 {
      MulMono(2 * n, r + 1, 0);
      assert false;
    }
    if r > 100 {
      MulMono(2 * n, 101, r);
      assert false;
    }
  }

  lemma MulMono(a: int, b: int, c: int)
    requires a >= 0 && b <= c
    ensures a * b <= a * c
  {
    assert a * c - a * b == a * (c - b);
  }

  /** When every progress is a percentage, so is the average. */
  lemma AverageIsPercentage(ps: seq<Participant>)
    requires forall i :: 0 <= i < |ps| ==> 0 <= ps[i].progress <= 100
    ensures 0 <= AverageProgress(ps) <= 100
  {
    ActiveSumBounds(ps);
    var n := ActiveCount(ps);
    if n > 0 {
      RoundedMeanBounds(ActiveProgressSum(ps), n, AverageProgress(ps));
    }
  }

  /** Both first and last name are known (`Boolean(a.firstName && a.lastName)`). */
  predicate HasName(p: Participant) { p.firstName != "" && p.lastName != "" }

  predicate LacksName(p: Participant) { !HasName(p) }

  /** Every participant with a name comes before every participant without one. */
  ghost predicate NamedFirst(r: seq<Participant>) {
    forall i, j :: 0 <= i < j < |r| && HasName(r[j]) ==> HasName(r[i])
  }

  /**
   * `sortedParticipants`: the stable sort with the comparator that ranks named
   * participants first, as the two groups concatenated in their original order.
   */
  function SortNamedFirst(ps: seq<Participant>): (r: seq<Participant>)
    ensures multiset(r) == multiset(ps)
    ensures NamedFirst(r)
    ensures Filter(r, HasName) == Filter(ps, HasName)
    ensures Filter(r, LacksName) == Filter(ps, LacksName)
  {
    var named := Filter(ps, HasName);
    var unnamed := Filter(ps, LacksName);
    FilterPartition(ps, HasName, LacksName);
    FilterAppend(named, unnamed, HasName);
    FilterAppend(named, unnamed, LacksName);
    FilterAll(named, HasName);
    FilterNone(unnamed, HasName);
    FilterNone(named, LacksName);
    FilterAll(unnamed, LacksName);
    named + unnamed
  }

  /** The index of the first participant without a name, or the length if all are named. */
  function FirstUnnamed(r: seq<Participant>): (k: nat)
    ensures k <= |r|
    ensures forall i :: 0 <= i < k ==> HasName(r[i])
    ensures k < |r| ==> !HasName(r[k])
  {
    if r == [] then 0
    else if !HasName(r[0]) then 0
    else 1 + FirstUnnamed(r[1..])
  }

  /** An arrangement with named participants first is its named group followed by the rest. */
  lemma NamedFirstSplit(r: seq<Participant>)
    requires NamedFirst(r)
    ensures r == Filter(r, HasName) + Filter(r, LacksName)
  {
    var k := FirstUnnamed(r);
    var named, unnamed := r[..k], r[k..];
    assert r == named + unnamed;
    assert Filter(named, HasName) == named && Filter(named, LacksName) == [] by {
      forall i | 0 <= i < |named| ensures HasName(named[i]) {
        assert named[i] == r[i];
      }
      FilterAll(named, HasName);
      FilterNone(named, LacksName);
    }
    assert Filter(unnamed, HasName) == [] && Filter(unnamed, LacksName) == unnamed by {
      forall i | 0 <= i < |unnamed| ensures !HasName(unnamed[i]) {
        assert unnamed[i] == r[k + i] && !HasName(r[k]);
      }
      FilterNone(unnamed, HasName);
      FilterAll(unnamed, LacksName);
    }
    assert Filter(r, HasName) == named by {
      FilterAppend(named, unnamed, HasName);
      assert named + [] == named;
    }
    assert Filter(r, LacksName) == unnamed by {
      FilterAppend(named, unnamed, LacksName);
      assert [] + unnamed == unnamed;
    }
  }

  /**
   * The stable order is unique: any arrangement that puts named participants
   * first and keeps each group's order is exactly `SortNamedFirst`.
   */
  lemma SortNamedFirstUnique(ps: seq<Participant>, r: seq<Participant>)
    requires NamedFirst(r)
    requires Filter(r, HasName) == Filter(ps, HasName)
    requires Filter(r, LacksName) == Filter(ps, LacksName)
    ensures r == SortNamedFirst(ps)
  {
    NamedFirstSplit(r);
  }

  /** `participants.filter(p => p.status === st).length`. */
  function CountStatus(ps: seq<Participant>, st: Status): (n: nat)
    ensures n <= |ps|
    ensures n == 0 <==> forall i :: 0 <= i < |ps| ==> ps[i].status != st
    ensures n == Seqs.Count(ps, (p: Participant) => p.status == st)
  {
    if ps == [] then 0
    else
      var rest := CountStatus(ps[1..], st);
      assert forall i :: 1 <= i < |ps| ==> ps[i] == ps[1..][i - 1];
      (if ps[0].status == st then 1 else 0) + rest
  }

  /** Counting two lists one after the other adds their counts. */
  lemma {:induction false} CountStatusAppend(a: seq<Participant>, b: seq<Participant>, st: Status)
    ensures CountStatus(a + b, st) == CountStatus(a, st) + CountStatus(b, st)
  {
    if a != [] {
      assert (a + b)[1..] == a[1..] + b;
      CountStatusAppend(a[1..], b, st);
    } else {
      assert a + b == b;
    }
  }

  /** The four counts on the participants card never add up to more than the list. */
  lemma {:induction false} StatusCountsBounded(ps: seq<Participant>)
    ensures CountStatus(ps, Active) + CountStatus(ps, Joining) + CountStatus(ps, Idle)
            + CountStatus(ps, Left) <= |ps|
  {
    if ps != [] {
      StatusCountsBounded(ps[1..]);
    }
  }

  /** The active count on the card is the one the average is taken over. */
  lemma {:induction false} ActiveCountIsStatusCount(ps: seq<Participant>)
    ensures CountStatus(ps, Active) == ActiveCount(ps)
  {
    if ps != [] {
      ActiveCountIsStatusCount(ps[1..]);
    }
  }

  /**
   * The start button's `disabled`: while a start is in flight, or with no
   * participant, or with no active participant. The empty-list test is
   * subsumed: without an active participant the button is disabled anyway.
   */
  function StartDisabled(startLoading: bool, ps: seq<Participant>): (disabled: bool)
    ensures disabled <==> startLoading || forall i :: 0 <= i < |ps| ==> !IsActive(ps[i])
  {
    startLoading || |ps| == 0 || !(ActiveCount(ps) > 0)
  }

  /** The dashboard countdown (`setTimeRemaining(prev => ...)`) is the shared tick. */
  lemma CountdownNeverNegative(timeRemaining: int, n: nat)
    requires timeRemaining >= 0
    ensures Ticks(timeRemaining, n) >= 0
    ensures n <= timeRemaining ==> Ticks(timeRemaining, n) == timeRemaining - n
  {
    TicksReachZero(timeRemaining, n);
  }

  datatype Control = PauseCmd | ResumeCmd

  /** `handlePauseResumeTest`: resume when paused, pause otherwise, and flip the flag. */
  function PauseResume(paused: bool): (r: (bool, Control))
    ensures r.0 == !paused
    ensures r.1 == ResumeCmd <==> paused
  {
    if paused then (false, ResumeCmd) else (true, PauseCmd)
  }

  /** Two presses restore the flag and issue one pause and one resume. */
  lemma PauseResumeTwice(paused: bool)
    ensures PauseResume(PauseResume(paused).0).0 == paused
    ensures PauseResume(PauseResume(paused).0).1 != PauseResume(paused).1
  {
  }
}

=== FILE: participant_wire.dfy ===
/**
 * What the server sends about a participant, shared by both live-test hooks:
 * the loosely-shaped user record and the status string. The five statuses the
 * monitor knows become constructors; any other string is kept verbatim.
 */
module ParticipantWire {
  import opened Js

  /** A participant record as the server sends it: every field may be absent. */
  datatype RawUser = RawUser(
    id: Option<string>,
    userId: Option<string>,
    clientId: Option<string>,
    firstName: Option<string>,
    lastName: Option<string>,
    email: Option<string>,
    status: Option<string>,
    progress: Option<int>,
    joinedAt: Option<int>)

  datatype Status = Joining | Active | Idle | Left | Suspicious | Unknown(raw: string)

  /** The wire spelling of a status. */
  function Name(st: Status): string {
    match st
    case Joining => "joining"
    case Active => "active"
    case Idle => "idle"
    case Left => "left"
    case Suspicious => "suspicious"
    case Unknown(raw) => raw
  }

  /** Reads a wire string as a status; unrecognised strings are kept verbatim. */
  function Parse(s: string): (st: Status)
    ensures Name(st) == s
    ensures st.Unknown? <==> s !in {"joining", "active", "idle", "left", "suspicious"}
  {
    if s == "joining" then Joining
    else if s == "active" then Active
    else if s == "idle" then Idle
    else if s == "left" then Left
    else if s == "suspicious" then Suspicious
    else Unknown(s)
  }

  /** A status the normaliser can produce: never a known name, "pending" or "" in disguise. */
  predicate WellFormed(st: Status) {
    st.Unknown? ==> st.raw !in {"joining", "active", "idle", "left", "suspicious", "pending", ""}
  }

  /** `status || "joining"`, with "pending" also read as joining. */
  function Normalize(raw: Option<string>): (st: Status)
    ensures WellFormed(st)
    ensures !Truthy(raw) || raw.value == "pending" ==> st == Joining
    ensures Truthy(raw) && raw.value != "pending" ==> Name(st) == raw.value
  {
    var s := OrElse(raw, "joining");
    if s == "pending" then Joining else Parse(s)
  }

  /** Sending a stored status back through the normaliser returns it unchanged. */
  lemma NormalizeName(st: Status)
    requires WellFormed(st)
    ensures Normalize(Some(Name(st))) == st
  {
  }
}

=== FILE: participants_socket.dfy ===
/**
 * The second live-participant hook: the JOIN event replaces the list with
 * placeholder entries, and CHANGE_USER_DATA replaces it with the full records,
 * deriving each status from how complete the record is.
 */
module ParticipantsSocket {
  import opened Js
  import opened ParticipantWire
  import opened Text

  /** A participant as this hook stores it; identity fields stay absent until sent. */
  datatype Participant = Participant(
    clientId: Option<string>,
    firstName: Option<string>,
    lastName: Option<string>,
    email: Option<string>,
    status: Status,
    progress: int,
    joinedAt: int)

  /** `isParticipantDataComplete`: first name, last name and email are all non-empty. */
  function IsComplete(u: RawUser): (r: bool)
    ensures r <==> forall f :: f in ContactFields(u) ==> f.Some? && f.value != ""
  {
    Truthy(u.firstName) && Truthy(u.lastName) && Truthy(u.email)
  }

  /** The fields a participant is identified by on the monitor. */
  function ContactFields(u: RawUser): seq<Option<string>> {
    [u.firstName, u.lastName, u.email]
  }

  /** The placeholder a JOIN snapshot creates for one user. */
  function Placeholder(u: RawUser, random: string, now: int): (p: Participant)
    ensures p.status == Joining && p.progress == 0
    ensures p.firstName.None? && p.lastName.None? && p.email.None?
    ensures p.clientId == Some(OrElse(u.clientId, OrElse(u.id, random)))
    ensures p.joinedAt == NumOrElse(u.joinedAt, now)
  {
    Participant(Some(OrElse(u.clientId, OrElse(u.id, random))), None, None, None, Joining, 0,
                NumOrElse(u.joinedAt, now))
  }

  /** The JOIN snapshot: one joining, progress-0, nameless entry per user, in order. */
  function JoinSnapshot(users: seq<RawUser>, randomId: nat -> string, now: int): (r: seq<Participant>)
    ensures |r| == |users|
    ensures forall i :: 0 <= i < |r| ==> r[i] == Placeholder(users[i], randomId(i), now)
    ensures forall i :: 0 <= i < |r| ==> r[i].status == Joining && r[i].progress == 0
  {
    seq(|users|, i requires 0 <= i < |users| => Placeholder(users[i], randomId(i), now))
  }

  /**
   * The status a CHANGE_USER_DATA record gets: "pending" gives joining;
   * otherwise complete data gives active; otherwise the sent status, or
   * joining when none is sent.
   */
  function ChangeStatus(u: RawUser): (st: Status)
    ensures Truthy(u.status) && u.status.value == "pending" ==> st == Joining
    ensures !(Truthy(u.status) && u.status.value == "pending") && IsComplete(u) ==> st == Active
    ensures !(Truthy(u.status) && u.status.value == "pending") && !IsComplete(u) ==>
      st == Parse(OrElse(u.status, "joining"))
  {
    var s := OrElse(u.status, "joining");
    if s == "pending" then Joining
    else if IsComplete(u) then Active
    else Parse(s)
  }

  /** The first listed participant with the given client id (`prev.find`). */
  function FindByClientId(ps: seq<Participant>, clientId: Option<string>): (r: Option<Participant>)
    ensures r.None? <==> forall i :: 0 <= i < |ps| ==> ps[i].clientId != clientId
    ensures r.Some? ==> exists i :: 0 <= i < |ps| && ps[i] == r.value && r.value.clientId == clientId
                                      && forall j :: 0 <= j < i ==> ps[j].clientId != clientId
  {
    if ps == [] then None
    else if ps[0].clientId == clientId then Some(ps[0])
    else
      var r := FindByClientId(ps[1..], clientId);
      assert r.Some? ==> exists i :: 0 <= i < |ps| && ps[i] == r.value && r.value.clientId == clientId
                                      && forall j :: 0 <= j < i ==> ps[j].clientId != clientId by {
        if r.Some? {
          var i :| 0 <= i < |ps[1..]| && ps[1..][i] == r.value && r.value.clientId == clientId
                    && forall j :: 0 <= j < i ==> ps[1..][j].clientId != clientId;
          assert ps[i + 1] == r.value;
          assert forall j :: 1 <= j < i + 1 ==> ps[j].clientId == ps[1..][j - 1].clientId;
        }
      }
      r
  }

  /** One entry of the CHANGE_USER_DATA list, keeping the `joinedAt` of a listed entry. */
  function Changed(prev: seq<Participant>, u: RawUser, now: int): (p: Participant)
    ensures p.clientId == u.clientId && p.firstName == u.firstName && p.lastName == u.lastName
    ensures p.email == u.email && p.status == ChangeStatus(u) && p.progress == NumOrElse(u.progress, 0)
    ensures FindByClientId(prev, u.clientId).Some? ==> p.joinedAt == FindByClientId(prev, u.clientId).value.joinedAt
    ensures FindByClientId(prev, u.clientId).None? ==> p.joinedAt == NumOrElse(u.joinedAt, now)
  {
    var joinedAt := match FindByClientId(prev, u.clientId)
      case Some(e) => e.joinedAt
      case None => NumOrElse(u.joinedAt, now);
    Participant(u.clientId, u.firstName, u.lastName, u.email, ChangeStatus(u), NumOrElse(u.progress, 0), joinedAt)
  }

  /** The CHANGE_USER_DATA updater: one entry per incoming user, in incoming order. */
  function ChangeSnapshot(prev: seq<Participant>, users: seq<RawUser>, now: int): (r: seq<Participant>)
    ensures |r| == |users|
    ensures forall i :: 0 <= i < |r| ==> r[i] == Changed(prev, users[i], now)
  {
    seq(|users|, i requires 0 <= i < |users| => Changed(prev, users[i], now))
  }

  /** A user whose client id was listed keeps the first such entry's `joinedAt`. */
  lemma ChangeKeepsJoinedAt(prev: seq<Participant>, users: seq<RawUser>, now: int, i: int, k: int)
    requires 0 <= i < |users| && 0 <= k < |prev|
    requires prev[k].clientId == users[i].clientId
    requires forall j :: 0 <= j < k ==> prev[j].clientId != users[i].clientId
    ensures ChangeSnapshot(prev, users, now)[i].joinedAt == prev[k].joinedAt
  {
    var f := FindByClientId(prev, users[i].clientId);
    var m :| 0 <= m < |prev| && prev[m] == f.value && f.value.clientId == users[i].clientId
             && forall j :: 0 <= j < m ==> prev[j].clientId != users[i].clientId;
    assert m == k;
  }

  /**
   * A JOIN snapshot followed by a CHANGE_USER_DATA list: a user the change
   * lists under the client id of a joined user keeps the time the snapshot
   * recorded, when the joined users' client ids are distinct.
   */
  lemma JoinThenChangeKeepsJoinedAt(users: seq<RawUser>, randomId: nat -> string, now: int,
                                    later: seq<RawUser>, now2: int, i: int, k: int)
    requires 0 <= i < |later| && 0 <= k < |users|
    requires forall j :: 0 <= j < |users| ==> Truthy(users[j].clientId)
    requires forall j, l :: 0 <= j < l < |users| ==> users[j].clientId != users[l].clientId
    requires later[i].clientId == users[k].clientId
    ensures ChangeSnapshot(JoinSnapshot(users, randomId, now), later, now2)[i].joinedAt
            == NumOrElse(users[k].joinedAt, now)
  {
    var prev := JoinSnapshot(users, randomId, now);
    assert prev[k].clientId == users[k].clientId;
    forall j | 0 <= j < k ensures prev[j].clientId != later[i].clientId {
      assert prev[j].clientId == users[j].clientId;
    }
    ChangeKeepsJoinedAt(prev, later, now2, i, k);
  }

  /** Complete data is shown as active unless the server still says "pending". */
  lemma CompleteIsActive(u: RawUser)
    requires IsComplete(u) && !(Truthy(u.status) && u.status.value == "pending")
    ensures ChangeStatus(u) == Active
  {
  }

  datatype State = State(participants: seq<Participant>, isLoading: bool, joinedRoom: bool)

  const Initial := State([], false, false)

  /** Inbound events; `None` stands for an `onlineUsers` field that is not an array. */
  datatype Event =
    | JoinOnlineTest(onlineUsers: Option<seq<RawUser>>)
    | ChangeUserData(onlineUsers: Option<seq<RawUser>>)

  function OnEvent(s: State, e: Event, randomId: nat -> string, now: int): (t: State)
    ensures e.onlineUsers.None? ==> t == s
    ensures e.onlineUsers.Some? ==> |t.participants| == |e.onlineUsers.value|
    ensures t.joinedRoom == s.joinedRoom
  {
    match e
    case JoinOnlineTest(users) =>
      if users.Some? then s.(participants := JoinSnapshot(users.value, randomId, now), isLoading := false) else s
    case ChangeUserData(users) =>
      if users.Some? then s.(participants := ChangeSnapshot(s.participants, users.value, now)) else s
  }

  /** The room-join effect: emits the join code, as a number, only when connected, with a code, and not yet joined. */
  function JoinRoomEffect(s: State, connected: bool, tempCode: Option<string>): (r: (State, Option<NumberValue>))
    ensures r.1.Some? <==> connected && Truthy(tempCode) && !s.joinedRoom
    ensures r.1.Some? ==> r.1.value == ToNumber(tempCode.value) && r.0 == s.(isLoading := true, joinedRoom := true)
    ensures r.1.None? ==> r.0 == s
  {
    if !connected || !Truthy(tempCode) || s.joinedRoom then (s, None)
    else (s.(isLoading := true, joinedRoom := true), Some(ToNumber(tempCode.value)))
  }

  /** Over any run of effects and events, the join request is emitted at most once. */
  function JoinsEmitted(s: State, steps: seq<(bool, Option<string>, Option<Event>)>, randomId: nat -> string, now: int)
    : (n: nat)
    ensures s.joinedRoom ==> n == 0
    ensures n <= 1
    decreases |steps|
  {
    if steps == [] then 0
    else
      var (connected, tempCode, ev) := steps[0];
      var (s1, emitted) := JoinRoomEffect(s, connected, tempCode);
      var s2 := if ev.Some? then OnEvent(s1, ev.value, randomId, now) else s1;
      (if emitted.Some? then 1 else 0) + JoinsEmitted(s2, steps[1..], randomId, now)
  }
}

=== FILE: password_strength.dfy ===
/** The password-strength meter shown on the sign-up and reset-password forms. */
module PasswordStrength {
  import opened Text

  /** `/[A-Z]/.test(p)` */
  predicate HasUpper(p: string) { exists i | 0 <= i < |p| :: IsUpper(p[i]) }

  /** `/[a-z]/.test(p)` */
  predicate HasLower(p: string) { exists i | 0 <= i < |p| :: IsLower(p[i]) }

  /** `/[0-9]/.test(p)` */
  predicate HasDigit(p: string) { exists i | 0 <= i < |p| :: IsDigit(p[i]) }

  /** `/[^A-Za-z0-9]/.test(p)`: some character is neither an ASCII letter nor a digit. */
  predicate HasSpecial(p: string) {
    exists i | 0 <= i < |p| :: !IsUpper(p[i]) && !IsLower(p[i]) && !IsDigit(p[i])
  }

  function Point(b: bool): nat { if b then 1 else 0 }

  /** `getStrength`: 0 for an empty password, else one point per criterion, capped at 4. */
  function Strength(p: string): (n: nat)
    ensures n <= 4
    ensures p == "" <==> n == 0
  {
    if p == "" then 0
    else
      assert HasUpper(p) || HasLower(p) || HasDigit(p) || HasSpecial(p) by {
        var c := p[0];
        assert IsUpper(c) || IsLower(c) || IsDigit(c) || (!IsUpper(c) && !IsLower(c) && !IsDigit(c));
      }
      var points := Point(|p| >= 8) + Point(HasUpper(p)) + Point(HasLower(p)) + Point(HasDigit(p))
                    + Point(HasSpecial(p));
      if points < 4 then points else 4
  }

  datatype Requirement = Requirement(text: string, met: bool)

  /** `getRequirements`: the five checklist lines and whether each is met. */
  function Requirements(p: string): (r: seq<Requirement>)
    ensures |r| == 5
    ensures r[0].met <==> |p| >= 8
    ensures r[1].met <==> HasUpper(p)
    ensures r[2].met <==> HasLower(p)
    ensures r[3].met <==> HasDigit(p)
    ensures r[4].met <==> HasSpecial(p)
  {
    [ Requirement("At least 8 characters", |p| >= 8),
      Requirement("At least 1 uppercase letter", HasUpper(p)),
      Requirement("At least 1 lowercase letter", HasLower(p)),
      Requirement("At least 1 number", HasDigit(p)),
      Requirement("At least 1 special character", HasSpecial(p)) ]
  }

  /** How many checklist lines are ticked. */
  function MetCount(rs: seq<Requirement>): (n: nat)
    ensures n <= |rs|
  {
    if rs == [] then 0 else Point(rs[0].met) + MetCount(rs[1..])
  }

  /** The meter agrees with the checklist: the strength is the number of ticked lines, capped at 4. */
  lemma StrengthIsMetCount(p: string)
    ensures Strength(p) == if MetCount(Requirements(p)) < 4 then MetCount(Requirements(p)) else 4
  {
    var rs := Requirements(p);
    assert MetCount(rs[4..]) == Point(rs[4].met) by {
      assert rs[4..][1..] == [];
    }
    assert MetCount(rs[3..]) == Point(rs[3].met) + MetCount(rs[4..]) by { assert rs[3..][1..] == rs[4..]; }
    assert MetCount(rs[2..]) == Point(rs[2].met) + MetCount(rs[3..]) by { assert rs[2..][1..] == rs[3..]; }
    assert MetCount(rs[1..]) == Point(rs[1].met) + MetCount(rs[2..]) by { assert rs[1..][1..] == rs[2..]; }
  }

  /** The label under the meter. */
  function StrengthText(n: nat): (t: string)
    ensures n == 0 ==> t == "Too weak"
    ensures n == 1 ==> t == "Weak"
    ensures n == 2 ==> t == "Fair"
    ensures n == 3 ==> t == "Good"
    ensures n >= 4 ==> t == "Strong"
  {
    if n == 0 then "Too weak"
    else if n == 1 then "Weak"
    else if n == 2 then "Fair"
    else if n == 3 then "Good"
    else "Strong"
  }

  /** The checklist is shown while the strength is below "Good". */
  predicate ShowRequirements(n: nat) { n < 3 }

  /** The checklist is visible exactly while fewer than three of its lines are ticked. */
  lemma ShowRequirementsIff(p: string)
    ensures ShowRequirements(Strength(p)) <==> MetCount(Requirements(p)) < 3
  {
    StrengthIsMetCount(p);
  }

  /** Any non-empty password earns at least a "Weak". */
  lemma NonEmptyIsAtLeastWeak(p: string)
    requires p != ""
    ensures Strength(p) >= 1 && StrengthText(Strength(p)) != "Too weak"
  {
  }
}

=== FILE: reset_password.dfy ===
/** The reset-password page's submit validation. */
module ResetPassword {
  import opened Js
  import opened AuthValidation

  datatype ResetErrors = ResetErrors(token: Option<string>, password: Option<string>, confirmPassword: Option<string>)

  /**
   * `handleSubmit` before the request: the token from the link must be there,
   * then the password and confirmation rules of sign-up; the request is sent
   * only without errors.
   */
  function Submit(token: Option<string>, password: string, confirm: string): (r: (ResetErrors, bool))
    ensures r.0.token.Some? <==> !Truthy(token)
    ensures r.0.password == PasswordError(password)
    ensures r.0.confirmPassword == ConfirmError(password, confirm)
    ensures r.1 <==> r.0.token.None? && r.0.password.None? && r.0.confirmPassword.None?
  {
    var errors := ResetErrors(
      if !Truthy(token) then Some("Invalid or missing reset token") else None,
      PasswordError(password),
      ConfirmError(password, confirm));
    (errors, errors.token.None? && errors.password.None? && errors.confirmPassword.None?)
  }

  /** The request goes out exactly for a present token and a confirmed password of 8 or more characters. */
  lemma SubmitsIff(token: Option<string>, password: string, confirm: string)
    ensures Submit(token, password, confirm).1 <==> Truthy(token) && |password| >= 8 && confirm == password
  {
  }

  /** Without a token nothing is sent, whatever the passwords. */
  lemma MissingTokenBlocks(password: string, confirm: string)
    ensures !Submit(None, password, confirm).1
    ensures !Submit(Some(""), password, confirm).1
  {
  }
}

=== FILE: results_charts.dfy ===
/** The results card: performance bands, their colours, and how a score is shown. */
module ResultsCharts {
  import opened Text

  /** `getPerformanceLabel` */
  function PerformanceLabel(score: int): (r: string)
    ensures r == BandName(BandOf(score))
  {
    if score >= 90 then "Excellent"
    else if score >= 75 then "Good"
    else if score >= 60 then "Average"
    else if score >= 40 then "Below Average"
    else "Poor"
  }

  /** `getBarColor` */
  function BarColor(score: int): (r: string)
    ensures r == Legend(BandOf(score)).1
  {
    if score >= 90 then "#22c55e"
    else if score >= 75 then "#3b82f6"
    else if score >= 60 then "#eab308"
    else if score >= 40 then "#f97316"
    else "#ef4444"
  }

  /** The five performance bands, best first, with the lowest score of each. */
  datatype Band = Excellent | Good | Average | BelowAverage | Poor

  function Floor(b: Band): int {
    match b
    case Excellent => 90
    case Good => 75
    case Average => 60
    case BelowAverage => 40
    case Poor => 0
  }

  /** The band a score falls in: the best band whose floor it reaches (scores below 0 are Poor). */
  function BandOf(score: int): (b: Band)
    ensures b != Poor ==> score >= Floor(b)
    ensures b != Excellent ==> score < Floor(Better(b))
  {
    if score >= 90 then Excellent
    else if score >= 75 then Good
    else if score >= 60 then Average
    else if score >= 40 then BelowAverage
    else Poor
  }

  function Better(b: Band): Band
    requires b != Excellent
  {
    match b
    case Good => Excellent
    case Average => Good
    case BelowAverage => Average
    case Poor => BelowAverage
  }

  /** The legend entry of each band: its name with range, and its colour. */
  function Legend(b: Band): (string, string) {
    match b
    case Excellent => ("Excellent (90-100%)", "#22c55e")
    case Good => ("Good (75-89%)", "#3b82f6")
    case Average => ("Average (60-74%)", "#eab308")
    case BelowAverage => ("Below Average (40-59%)", "#f97316")
    case Poor => ("Poor (0-39%)", "#ef4444")
  }

  function BandName(b: Band): string {
    match b
    case Excellent => "Excellent"
    case Good => "Good"
    case Average => "Average"
    case BelowAverage => "Below Average"
    case Poor => "Poor"
  }

  /**
   * The label and the bar colour use the same thresholds: for every score
   * they name the same band, and the colour is that band's legend colour.
   */
  lemma LabelAndColorAgree(score: int)
    ensures PerformanceLabel(score) == BandName(BandOf(score))
    ensures BarColor(score) == Legend(BandOf(score)).1
  {
  }

  /** A higher score never lands in a worse band. */
  lemma BandMonotone(s1: int, s2: int)
    requires s1 <= s2
    ensures Floor(BandOf(s1)) <= Floor(BandOf(s2))
  {
  }

  datatype Grading = Percentage | Points

  /** `(score / 10).toFixed(1)` for an integer score: the tenths are exact. */
  function PointsText(score: int): (t: string)
    ensures score >= 0 ==> t == NatToString(score / 10) + "." + [DigitChar(score % 10)]
    ensures score < 0 ==> t == "-" + NatToString(-score / 10) + "." + [DigitChar(-score % 10)]
  {
    var a := if score < 0 then -score else score;
    (if score < 0 then "-" else "") + NatToString(a / 10) + "." + [DigitChar(a % 10)]
  }

  /** `formatScore` */
  function FormatScore(g: Grading, score: int): (t: string)
    ensures g == Percentage ==> t == IntToString(score) + "%"
    ensures g == Points ==> t == PointsText(score)
  {
    match g
    case Percentage => IntToString(score) + "%"
    case Points => PointsText(score)
  }

  /** Reading the points text back: the digits before the dot are tens, the one after is units. */
  lemma PointsRoundTrip(score: nat)
    ensures var t := PointsText(score);
      var k := |t| - 2;
      0 < k && t[k] == '.' && Digits(t[..k]) && IsDigit(t[k + 1])
      && ParseNat(t[..k]) * 10 + DigitValue(t[k + 1]) == score
  {
    var t := PointsText(score);
    var k := |t| - 2;
    assert t[..k] == NatToString(score / 10);
    ParseNatToString(score / 10);
  }

  /** The "correct answers" column: `Math.floor(score / 10)` out of 10. */
  function CorrectAnswers(score: int): (n: int)
    ensures 10 * n <= score < 10 * n + 10
  {
    score / 10
  }

  /** For a percentage score the count is between 0 and 10, and 10 only for a full score. */
  lemma CorrectAnswersBounded(score: int)
    requires 0 <= score <= 100
    ensures 0 <= CorrectAnswers(score) <= 10
    ensures CorrectAnswers(score) == 10 <==> score == 100
  {
  }
}

=== FILE: saved_tests.dfy ===
/** The saved-tests page's search box. */
module SavedTests {
  import opened Seqs
  import opened Text

  datatype SavedTest = SavedTest(id: nat, title: string, subject: string, tags: seq<string>)

  /** `field.toLowerCase().includes(query.toLowerCase())` */
  predicate FieldMatches(field: string, query: string) {
    Contains(Lower(field), Lower(query))
  }

  /** `test.tags.some(...)`, written as the left-to-right scan `some` performs. */
  function AnyTagMatches(tags: seq<string>, query: string): (b: bool)
    ensures b <==> exists i :: 0 <= i < |tags| && FieldMatches(tags[i], query)
  {
    if tags == [] then false
    else if FieldMatches(tags[0], query) then true
    else
      var rest := AnyTagMatches(tags[1..], query);
      assert forall i :: 1 <= i < |tags| ==> tags[i] == tags[1..][i - 1];
      assert rest ==> exists i :: 0 <= i < |tags| && FieldMatches(tags[i], query) by {
        if rest {
          var i :| 0 <= i < |tags[1..]| && FieldMatches(tags[1..][i], query);
          assert FieldMatches(tags[i + 1], query);
        }
      }
      rest
  }

  /** The search predicate: the title, the subject or some tag contains the query, ignoring case. */
  predicate Matches(t: SavedTest, query: string) {
    FieldMatches(t.title, query) || FieldMatches(t.subject, query) || AnyTagMatches(t.tags, query)
  }

  /** `filteredTests` */
  function Search(tests: seq<SavedTest>, query: string): (r: seq<SavedTest>)
    ensures forall t :: t in r <==> t in tests && Matches(t, query)
    ensures |r| <= |tests|
  {
    Filter(tests, t => Matches(t, query))
  }

  /** The results keep the order of the saved list. */
  lemma SearchKeepsOrder(tests: seq<SavedTest>, query: string)
    ensures IsSubsequence(Search(tests, query), tests)
  {
    FilterIsSubsequence(tests, t => Matches(t, query));
  }

  /** An empty query lists every saved test, in order. */
  lemma EmptyQueryKeepsAll(tests: seq<SavedTest>)
    ensures Search(tests, "") == tests
  {
    forall i | 0 <= i < |tests|
      ensures Matches(tests[i], "")
    {
      ContainsEmpty(Lower(tests[i].title));
    }
    FilterAll(tests, t => Matches(t, ""));
  }

  /** A test is listed iff the query occurs, ignoring case, in its title, its subject or one of its tags. */
  lemma ListedIff(tests: seq<SavedTest>, query: string, t: SavedTest)
    requires t in tests
    ensures t in Search(tests, query) <==>
      OccursIn(Lower(query), Lower(t.title))
      || OccursIn(Lower(query), Lower(t.subject))
      || exists i :: 0 <= i < |t.tags| && OccursIn(Lower(query), Lower(t.tags[i]))
  {
  }

  /** The query's case does not matter. */
  lemma CaseInsensitive(tests: seq<SavedTest>, query: string)
    ensures Search(tests, Upper(query)) == Search(tests, query)
  {
    assert Lower(Upper(query)) == Lower(query) by {
      LowerUpper(query);
    }
    assert forall t :: Matches(t, Upper(query)) == Matches(t, query);
    SameFilter(tests, t => Matches(t, Upper(query)), t => Matches(t, query));
  }
}

=== FILE: seqs.dfy ===
/** Order-preserving filtering and counting over sequences (`Array.prototype.filter`). */
module Seqs {

  /** Every element occurs once, as in a JS `Set` or a de-duplicated list. */
  ghost predicate NoDuplicates<T>(s: seq<T>) {
    forall i, j :: 0 <= i < j < |s| ==> s[i] != s[j]
  }

  /** `s.filter(p)`: the elements of `s` satisfying `p`, in their original order. */
  function Filter<T>(s: seq<T>, p: T -> bool): (r: seq<T>)
    ensures |r| <= |s|
    ensures forall x :: x in r ==> x in s && p(x)
    ensures forall x :: x in s && p(x) ==> x in r
  {
    if s == [] then []
    else if p(s[0]) then [s[0]] + Filter(s[1..], p)
    else Filter(s[1..], p)
  }

  /** The number of elements satisfying `p` (`s.filter(p).length`). */
  function Count<T>(s: seq<T>, p: T -> bool): (n: nat)
    ensures n <= |s|
  {
    |Filter(s, p)|
  }

  /** `t` is obtained from `s` by deleting elements, keeping the order of the rest. */
  ghost predicate IsSubsequence<T>(t: seq<T>, s: seq<T>)
    decreases |s|
  {
    if t == [] then true
    else if s == [] then false
    else if t[0] == s[0] then IsSubsequence(t[1..], s[1..])
    else IsSubsequence(t, s[1..])
  }

  lemma {:induction false} FilterIsSubsequence<T>(s: seq<T>, p: T -> bool)
    ensures IsSubsequence(Filter(s, p), s)
    decreases |s|
  {
    if s != [] {
      FilterIsSubsequence(s[1..], p);
      if p(s[0]) {
        assert Filter(s, p) == [s[0]] + Filter(s[1..], p);
        assert (Filter(s, p))[1..] == Filter(s[1..], p);
      }
    }
  }

  lemma {:induction false} FilterAppend<T>(a: seq<T>, b: seq<T>, p: T -> bool)
    ensures Filter(a + b, p) == Filter(a, p) + Filter(b, p)
    decreases |a|
  {
    if a == [] {
      assert a + b == b;
    } else {
      assert (a + b)[0] == a[0];
      assert (a + b)[1..] == a[1..] + b;
      FilterAppend(a[1..], b, p);
    }
  }

  /** Filtering with a predicate every element satisfies keeps the whole sequence. */
  lemma {:induction false} FilterAll<T>(s: seq<T>, p: T -> bool)
    requires forall i :: 0 <= i < |s| ==> p(s[i])
    ensures Filter(s, p) == s
    decreases |s|
  {
    if s != [] {
      FilterAll(s[1..], p);
    }
  }

  /** Filtering with a predicate no element satisfies leaves nothing. */
  lemma {:induction false} FilterNone<T>(s: seq<T>, p: T -> bool)
    requires forall i :: 0 <= i < |s| ==> !p(s[i])
    ensures Filter(s, p) == []
    decreases |s|
  {
    if s != [] {
      FilterNone(s[1..], p);
    }
  }

  /** Every element falls on exactly one side of `p`, so the two counts add up to the length. */
  lemma {:induction false} CountSplit<T>(s: seq<T>, p: T -> bool)
    ensures Count(s, p) + Count(s, x => !p(x)) == |s|
    decreases |s|
  {
    if s != [] {
      CountSplit(s[1..], p);
    }
  }

  /** Counts of two predicates that never hold together add up to at most the length. */
  lemma {:induction false} CountDisjoint<T>(s: seq<T>, p: T -> bool, q: T -> bool)
    requires forall x :: !(p(x) && q(x))
    ensures Count(s, p) + Count(s, q) == Count(s, x => p(x) || q(x))
    decreases |s|
  {
    if s != [] {
      CountDisjoint(s[1..], p, q);
    }
  }

  /** Splitting by a predicate and its complement loses and invents no element. */
  lemma {:induction false} FilterPartition<T>(s: seq<T>, p: T -> bool, q: T -> bool)
    requires forall x :: q(x) == !p(x)
    ensures multiset(Filter(s, p)) + multiset(Filter(s, q)) == multiset(s)
    decreases |s|
  {
    if s != [] {
      FilterPartition(s[1..], p, q);
      assert s == [s[0]] + s[1..];
    }
  }

  /** Filtering only depends on which elements the predicate keeps. */
  lemma {:induction false} SameFilter<T>(s: seq<T>, p: T -> bool, q: T -> bool)
    requires forall x :: p(x) == q(x)
    ensures Filter(s, p) == Filter(s, q)
    decreases |s|
  {
    if s != [] {
      SameFilter(s[1..], p, q);
    }
  }

  /** `blocks.flat()`: the blocks one after another. */
  function Flatten<T>(blocks: seq<seq<T>>): (r: seq<T>)
    decreases |blocks|
  {
    if blocks == [] then [] else blocks[0] + Flatten(blocks[1..])
  }

  /** How many elements the first `t` blocks hold together. */
  function SizeBefore<T>(blocks: seq<seq<T>>, t: nat): nat
    requires t <= |blocks|
    decreases t
  {
    if t == 0 then 0 else |blocks[0]| + SizeBefore(blocks[1..], t - 1)
  }

  /** Flattening loses and invents nothing: its length is the total of the block sizes. */
  lemma {:induction false} FlattenLength<T>(blocks: seq<seq<T>>)
    ensures |Flatten(blocks)| == SizeBefore(blocks, |blocks|)
    decreases |blocks|
  {
    if blocks != [] {
      FlattenLength(blocks[1..]);
    }
  }

  /** Element `j` of block `t` lands right after the elements of the blocks before it. */
  lemma {:induction false} FlattenIndex<T>(blocks: seq<seq<T>>, t: nat, j: nat)
    requires t < |blocks| && j < |blocks[t]|
    ensures SizeBefore(blocks, t) + j < |Flatten(blocks)|
    ensures Flatten(blocks)[SizeBefore(blocks, t) + j] == blocks[t][j]
    decreases t
  {
    if t > 0 {
      FlattenIndex(blocks[1..], t - 1, j);
      assert blocks[1..][t - 1] == blocks[t];
    }
  }

  /** A sequence without duplicates holds each of its elements exactly once. */
  lemma {:induction false} NoDuplicatesOnce<T>(s: seq<T>, x: T)
    requires NoDuplicates(s)
    ensures multiset(s)[x] == if x in s then 1 else 0
    decreases |s|
  {
    if s != [] {
      assert s == [s[0]] + s[1..];
      assert s[0] !in s[1..];
      NoDuplicatesOnce(s[1..], x);
    }
  }

  /** Filtering keeps every copy of a kept element and no copy of a dropped one. */
  lemma {:induction false} FilterMultiset<T>(s: seq<T>, p: T -> bool, x: T)
    ensures multiset(Filter(s, p))[x] == if p(x) then multiset(s)[x] else 0
    decreases |s|
  {
    if s != [] {
      assert s == [s[0]] + s[1..];
      FilterMultiset(s[1..], p, x);
    }
  }
}

=== FILE: settings_tabs.dfy ===
/** Which settings tab is highlighted for the current pathname. */
module SettingsTabs {
  import opened Text

  datatype Tab = General | Security | Notifications | Billing | Appearance | Advanced

  /** The tab's `value`, which is also the last segment of its link. */
  function Value(t: Tab): string {
    match t
    case General => "general"
    case Security => "security"
    case Notifications => "notifications"
    case Billing => "billing"
    case Appearance => "appearance"
    case Advanced => "advanced"
  }

  /** The tabs that have their own route, in the order the pathname is tested. */
  const Routed: seq<Tab> := [Security, Notifications, Billing, Appearance, Advanced]

  /** The substring that selects a routed tab. */
  function Marker(t: Tab): string {
    "/settings/" + Value(t)
  }

  predicate Mentions(pathname: string, t: Tab) {
    Contains(pathname, Marker(t))
  }

  /** `getActiveTab`: the routed tabs are tested in order, "general" is the fallback. */
  function ActiveTab(pathname: string): (t: Tab)
    ensures t != General ==> Mentions(pathname, t)
    ensures t == General ==> forall k :: 0 <= k < |Routed| ==> !Mentions(pathname, Routed[k])
  {
    if Mentions(pathname, Security) then Security
    else if Mentions(pathname, Notifications) then Notifications
    else if Mentions(pathname, Billing) then Billing
    else if Mentions(pathname, Appearance) then Appearance
    else if Mentions(pathname, Advanced) then Advanced
    else General
  }

  /**
   * The active tab is the first routed tab, in testing order, whose marker
   * the pathname mentions, and "general" exactly when it mentions none.
   */
  lemma ActiveTabIsFirstMention(pathname: string)
    ensures ActiveTab(pathname) == General <==> forall k :: 0 <= k < |Routed| ==> !Mentions(pathname, Routed[k])
    ensures ActiveTab(pathname) != General ==>
      exists j :: 0 <= j < |Routed| && Routed[j] == ActiveTab(pathname)
        && Mentions(pathname, Routed[j])
        && forall k :: 0 <= k < j ==> !Mentions(pathname, Routed[k])
  {
    var t := ActiveTab(pathname);
    if t != General {
      var j := if t == Security then 0 else if t == Notifications then 1 else if t == Billing then 2
        else if t == Appearance then 3 else 4;
      assert Routed[j] == t;
      assert forall k :: 0 <= k < j ==> !Mentions(pathname, Routed[k]);
    } else {
      forall k | 0 <= k < |Routed|
        ensures !Mentions(pathname, Routed[k])
      {
        assert Routed[k] in {Security, Notifications, Billing, Appearance, Advanced};
      }
    }
  }

  /** The link of a tab. */
  function Href(t: Tab): string {
    if t == General then "/dashboard/settings" else "/dashboard/settings/" + Value(t)
  }

  predicate NoSlash(s: string) {
    forall i :: 0 <= i < |s| ==> s[i] != '/'
  }

  lemma LinkSlashes(j: int)
    requires 0 <= j < 20 && "/dashboard/settings/"[j] == '/'
    ensures j == 0 || j == 10 || j == 19
  {
  }

  lemma NameAfterPrefix(prefix: string, name: string)
    ensures forall j :: |prefix| <= j < |prefix| + |name| ==> (prefix + name)[j] == name[j - |prefix|]
  {
  }

  /** In a tab link, a marker can only start at the slash before "settings". */
  lemma MarkerInLink(name: string, other: string)
    requires NoSlash(name)
    ensures Contains("/dashboard/settings/" + name, "/settings/" + other) <==> StartsWith(name, other)
  {
    var hay := "/dashboard/settings/" + name;
    var needle := "/settings/" + other;
    if StartsWith(name, other) {
      assert hay[10..10 + |needle|] == needle;
      assert OccursAt(needle, hay, 10);
    }
    if OccursIn(needle, hay) {
      var i :| OccursAt(needle, hay, i);
      assert hay[i] == needle[0] == '/' by {
        assert hay[i..i + |needle|][0] == hay[i];
      }
      assert hay[i + 9] == needle[9] == '/' by {
        assert hay[i..i + |needle|][9] == hay[i + 9];
      }
      NameAfterPrefix("/dashboard/settings/", name);
      LinkSlashes(i);
      LinkSlashes(i + 9);
      assert name[..|other|] == hay[20..20 + |other|] == needle[10..] == other;
    }
  }

  /** The bare settings link is too short to hold any marker. */
  lemma GeneralLinkMentionsNothing(t: Tab)
    requires t != General
    ensures !Mentions(Href(General), t)
  {
    var hay := Href(General);
    var m := Marker(t);
    assert |Value(t)| >= 7;
    assert m[0] == '/' && m[1] == 's';
    if OccursIn(m, hay) {
      var i :| OccursAt(m, hay, i);
    }
  }

  /** No routed tab's name is a prefix of another's: they already differ in their first two letters. */
  lemma RoutedNamesDistinct(t: Tab, r: Tab)
    requires t != General && r != General
    ensures StartsWith(Value(t), Value(r)) <==> t == r
  {
    if StartsWith(Value(t), Value(r)) {
      assert Value(t)[0] == Value(r)[0] && Value(t)[1] == Value(r)[1];
    }
  }

  /** A routed tab's link mentions exactly that tab's marker. */
  lemma RoutedLinkMentions(t: Tab, r: Tab)
    requires t != General && r != General
    ensures Mentions(Href(t), r) <==> t == r
  {
    assert NoSlash(Value(t));
    MarkerInLink(Value(t), Value(r));
    RoutedNamesDistinct(t, r);
  }

  /** Following a tab's link highlights that tab. */
  lemma LinkActivatesItsTab(t: Tab)
    ensures ActiveTab(Href(t)) == t
  {
    if t == General {
      GeneralLinkMentionsNothing(Security);
      GeneralLinkMentionsNothing(Notifications);
      GeneralLinkMentionsNothing(Billing);
      GeneralLinkMentionsNothing(Appearance);
      GeneralLinkMentionsNothing(Advanced);
    } else {
      RoutedLinkMentions(t, Security);
      RoutedLinkMentions(t, Notifications);
      RoutedLinkMentions(t, Billing);
      RoutedLinkMentions(t, Appearance);
      RoutedLinkMentions(t, Advanced);
    }
  }
}

=== FILE: signin.dfy ===
/** The sign-in page: field validation and where a failed sign-in's message is shown. */
module Signin {
  import opened Js
  import opened Text
  import opened AuthValidation

  datatype SigninErrors = SigninErrors(email: Option<string>, password: Option<string>)

  /** Submit: email required and well-formed, password required; the request is sent only without errors. */
  function Submit(email: string, password: string): (r: (SigninErrors, bool))
    ensures r.0.email == EmailError(email)
    ensures r.0.password.Some? <==> password == ""
    ensures r.1 <==> ValidEmail(email) && password != ""
  {
    var errors := SigninErrors(EmailError(email), if password == "" then Some("Password is required") else None);
    (errors, errors.email.None? && errors.password.None?)
  }

  /**
   * A failed request: an HTTP-client error carries its code, its own message
   * and, when the server replied, the server's message; anything else is
   * unexpected.
   */
  datatype Failure = HttpFailure(code: string, message: string, serverMessage: Option<string>) | Unexpected

  datatype Field = GeneralField | EmailField | PasswordField

  const UnexpectedText := "An unexpected error occurred. Please try again later."

  /** The error's own message names a network or server problem. */
  predicate IsNetwork(f: Failure)
    requires f.HttpFailure?
  {
    f.code == "ERR_NETWORK" || Contains(Lower(f.message), "network") || Contains(Lower(f.message), "server")
  }

  /** The shown text: the server's message, else the error's own. */
  function Shown(f: Failure): string
    requires f.HttpFailure?
  {
    OrElse(f.serverMessage, f.message)
  }

  predicate AboutUnknownEmail(m: string) {
    Contains(m, "email") && (Contains(m, "not registered") || Contains(m, "not found"))
  }

  predicate AboutVerification(m: string) {
    Contains(m, "verification") || Contains(m, "verified")
  }

  /**
   * The routing, checked in order: network problems to the general area, an
   * unknown email or a verification problem to the email field, everything
   * else to the password field.
   */
  function RouteError(f: Failure): (r: (Field, string))
    ensures f.Unexpected? ==> r == (GeneralField, UnexpectedText)
    ensures f.HttpFailure? ==> r.1 == Shown(f)
    ensures f.HttpFailure? ==> (r.0 == GeneralField <==> IsNetwork(f))
    ensures f.HttpFailure? ==> (r.0 == EmailField <==>
      !IsNetwork(f) && (AboutUnknownEmail(Lower(Shown(f))) || AboutVerification(Lower(Shown(f)))))
    ensures f.HttpFailure? ==> (r.0 == PasswordField <==>
      !IsNetwork(f) && !AboutUnknownEmail(Lower(Shown(f))) && !AboutVerification(Lower(Shown(f))))
  {
    match f
    case Unexpected => (GeneralField, UnexpectedText)
    case HttpFailure(_, _, _) =>
      var m := Lower(Shown(f));
      if IsNetwork(f) then (GeneralField, Shown(f))
      else if AboutUnknownEmail(m) then (EmailField, Shown(f))
      else if AboutVerification(m) then (EmailField, Shown(f))
      else (PasswordField, Shown(f))
  }

  /**
   * The network test reads the error's own message, not the server's: a
   * network error is shown in the general area even when the server's text
   * talks about the email.
   */
  lemma NetworkCheckedFirst(code: string, message: string, serverMessage: Option<string>)
    requires code == "ERR_NETWORK"
    ensures RouteError(HttpFailure(code, message, serverMessage)).0 == GeneralField
  {
  }
}

=== FILE: signup.dfy ===
/**
 * The sign-up page: the details form, where the server's message on a failed
 * registration goes, the six-digit verification step, and the resend cooldown.
 */
module Signup {
  import opened Js
  import opened Text
  import opened AuthValidation
  import opened Clock

  datatype Details = Details(name: string, lastName: string, email: string, password: string, confirm: string)

  /** The per-field errors; the last name has no rule and so no slot. */
  datatype DetailsErrors = DetailsErrors(
    name: Option<string>,
    email: Option<string>,
    password: Option<string>,
    confirmPassword: Option<string>)

  predicate NoErrors(e: DetailsErrors) {
    e.name.None? && e.email.None? && e.password.None? && e.confirmPassword.None?
  }

  /**
   * `handleDetailsSubmit` before the request: every rule is checked, and the
   * registration request is sent only when none produced an error.
   */
  function SubmitDetails(d: Details): (r: (DetailsErrors, bool))
    ensures r.0.name.Some? <==> d.name == ""
    ensures r.0.email == EmailError(d.email)
    ensures r.0.password == PasswordError(d.password)
    ensures r.0.confirmPassword == ConfirmError(d.password, d.confirm)
    ensures r.1 <==> NoErrors(r.0)
  {
    var errors := DetailsErrors(
      if d.name == "" then Some("Name is required") else None,
      EmailError(d.email),
      PasswordError(d.password),
      ConfirmError(d.password, d.confirm));
    (errors, NoErrors(errors))
  }

  /**
   * The form is sent exactly when the name is given, the email fits the
   * pattern, the password has at least 8 characters and the confirmation
   * repeats it; the last name plays no part.
   */
  lemma SubmitsIff(d: Details)
    ensures SubmitDetails(d).1 <==> d.name != "" && ValidEmail(d.email) && |d.password| >= 8 && d.confirm == d.password
    ensures forall l :: SubmitDetails(d.(lastName := l)) == SubmitDetails(d)
  {
  }

  datatype Field = EmailField | PasswordField

  /** The server's complaint about a failed registration, or an error that is not an HTTP failure. */
  datatype Failure = HttpFailure(message: string) | OtherFailure

  /** Where the registration error is shown, and with which text. */
  function RouteRegistrationError(f: Failure): (r: (Field, string))
    ensures f.OtherFailure? ==> r == (EmailField, "Registration failed. Please try again.")
    ensures f.HttpFailure? ==> r.1 == f.message
    ensures r.0 == PasswordField <==>
      f.HttpFailure? && Contains(Lower(f.message), "password")
      && !Contains(Lower(f.message), "email") && !Contains(Lower(f.message), "already registered")
      && !Contains(Lower(f.message), "already exists") && !Contains(Lower(f.message), "already taken")
  {
    match f
    case OtherFailure => (EmailField, "Registration failed. Please try again.")
    case HttpFailure(message) =>
      var m := Lower(message);
      if Contains(m, "email") || Contains(m, "already registered") || Contains(m, "already exists")
         || Contains(m, "already taken")
      then (EmailField, message)
      else if Contains(m, "password") then (PasswordField, message)
      else (EmailField, message)
  }

  /** A message about both email and password is shown under the email field. */
  lemma EmailWinsOverPassword(message: string)
    requires Contains(Lower(message), "email")
    ensures RouteRegistrationError(HttpFailure(message)).0 == EmailField
  {
  }

  /** `handleVerificationSubmit`'s first check: the code must have exactly six characters. */
  function CodeError(code: string): (e: Option<string>)
    ensures e.None? <==> |code| == 6
  {
    if code == "" || |code| != 6 then Some("Please enter a valid verification code") else None
  }

  /** The cooldown a successful resend starts. */
  const ResendCooldown: nat := 60

  /** `handleResendCode`'s guard: nothing happens while the cooldown runs. */
  function ResendAllowed(cooldown: int): (r: bool)
    ensures r <==> Tick(cooldown) >= cooldown
  {
    !(cooldown > 0)
  }

  /** After a resend the button unlocks exactly when sixty one-second ticks have passed. */
  lemma CooldownUnlocksAfterSixtyTicks(n: nat)
    ensures ResendAllowed(Ticks(ResendCooldown, n)) <==> n >= 60
  {
    TicksReachZero(ResendCooldown, n);
  }
}

=== FILE: socket_service.dfy ===
/**
 * The socket service singleton: a cache of one socket per namespace and, beside
 * it, the bookkeeping of which callbacks listen to which event of which
 * namespace. Sockets are opaque handles drawn from a counter, callbacks are
 * identified by number, and whether the socket library manages to build a socket
 * is a parameter.
 */
module SocketService {
  import opened Js
  import opened Seqs

  /** A JS `Set` of callbacks: insertion-ordered and without duplicates. */
  type CallbackSet = seq<nat>

  /** `set.add(cb)`: appended unless already present. */
  function SetAdd(s: CallbackSet, cb: nat): (r: CallbackSet)
    requires NoDuplicates(s)
    ensures NoDuplicates(r)
    ensures forall c :: c in r <==> c in s || c == cb
    ensures cb in s ==> r == s
  {
    if cb in s then s else s + [cb]
  }

  /** `set.delete(cb)`: every other member stays, in order. */
  function SetDelete(s: CallbackSet, cb: nat): (r: CallbackSet)
    requires NoDuplicates(s)
    ensures NoDuplicates(r)
    ensures forall c :: c in r <==> c in s && c != cb
    ensures |r| <= |s|
  {
    if s == [] then []
    else
      var rest := SetDelete(s[1..], cb);
      assert s[0] !in s[1..];
      if s[0] == cb then rest else [s[0]] + rest
  }

  /** The service's two maps, plus the counter that makes every new socket a new handle. */
  datatype Service = Service(
    sockets: map<string, nat>,
    listeners: map<string, map<string, CallbackSet>>,
    nextHandle: nat)

  const Initial := Service(map[], map[], 0)

  /**
   * The service invariant: listener bookkeeping exists for exactly the
   * namespaces with a cached socket, handles were all issued by the counter,
   * and no callback set holds a callback twice.
   */
  ghost predicate Valid(s: Service) {
    && s.listeners.Keys == s.sockets.Keys
    && (forall ns :: ns in s.sockets ==> s.sockets[ns] < s.nextHandle)
    && (forall ns, ev :: ns in s.listeners && ev in s.listeners[ns] ==> NoDuplicates(s.listeners[ns][ev]))
  }

  lemma InitialValid()
    ensures Valid(Initial)
  {
  }

  /**
   * `createSocket`: on success the socket is cached under a new handle and the
   * namespace gets an empty listener map (replacing any it had); on failure
   * nothing changes and the result is null.
   */
  function CreateSocket(s: Service, ns: string, ioSucceeds: bool): (r: (Service, Option<nat>))
    requires Valid(s)
    ensures Valid(r.0)
    ensures !ioSucceeds ==> r == (s, None)
    ensures ioSucceeds ==>
      r.1 == Some(s.nextHandle) && r.0.sockets == s.sockets[ns := s.nextHandle] && r.0.listeners == s.listeners[ns := map[]]
    ensures ioSucceeds ==> forall other :: other in s.sockets ==> s.sockets[other] != r.1.value
  {
    if !ioSucceeds then (s, None)
    else
      var h := s.nextHandle;
      (Service(s.sockets[ns := h], s.listeners[ns := map[]], h + 1), Some(h))
  }

  /** `getSocket`: the cached socket if there is one, otherwise a creation attempt. */
  function GetSocket(s: Service, ns: string, ioSucceeds: bool): (r: (Service, Option<nat>))
    requires Valid(s)
    ensures Valid(r.0)
    ensures ns in s.sockets ==> r == (s, Some(s.sockets[ns]))
    ensures ns !in s.sockets ==> r == CreateSocket(s, ns, ioSucceeds)
    ensures r.1.Some? <==> ns in r.0.sockets && r.0.sockets[ns] == r.1.value
  {
    if ns in s.sockets then (s, Some(s.sockets[ns]))
    else CreateSocket(s, ns, ioSucceeds)
  }

  /** Once a namespace has a socket, every later `getSocket` returns it and changes nothing. */
  lemma GetSocketCached(s: Service, ns: string, io1: bool, io2: bool)
    requires Valid(s)
    requires GetSocket(s, ns, io1).1.Some?
    ensures GetSocket(GetSocket(s, ns, io1).0, ns, io2) == (GetSocket(s, ns, io1).0, GetSocket(s, ns, io1).1)
  {
  }

  /**
   * The function `on` returns. It captures the socket and the callback set it
   * added to, so it is modelled by the handle of that socket (the set belongs
   * to that socket's listener map) and the names that locate the set.
   */
  datatype Cleanup = NoOp | Unsubscribe(ns: string, event: string, handle: nat, cb: nat)

  /**
   * `on`: with no socket, nothing is recorded and the cleanup does nothing;
   * otherwise the callback joins the (namespace, event) set.
   */
  function On(s: Service, ns: string, event: string, cb: nat, ioSucceeds: bool): (r: (Service, Cleanup))
    requires Valid(s)
    ensures Valid(r.0)
    ensures GetSocket(s, ns, ioSucceeds).1.None? ==> r == (s, NoOp)
    ensures GetSocket(s, ns, ioSucceeds).1.Some? ==>
      && r.1 == Unsubscribe(ns, event, GetSocket(s, ns, ioSucceeds).1.value, cb)
      && r.0.sockets == GetSocket(s, ns, ioSucceeds).0.sockets
      && ns in r.0.listeners && event in r.0.listeners[ns] && cb in r.0.listeners[ns][event]
      && (forall c :: c in Listening(GetSocket(s, ns, ioSucceeds).0, ns, event) ==> c in r.0.listeners[ns][event])
      && (forall other :: other in r.0.listeners && other != ns ==> r.0.listeners[other] == s.listeners[other])
      && (forall ev :: ev != event ==> Listening(r.0, ns, ev) == Listening(GetSocket(s, ns, ioSucceeds).0, ns, ev))
  {
    var (s1, socket) := GetSocket(s, ns, ioSucceeds);
    if socket.None? then (s, NoOp)
    else
      var nsListeners := s1.listeners[ns];
      var eventListeners := if event in nsListeners then nsListeners[event] else [];
      var s2 := s1.(listeners := s1.listeners[ns := nsListeners[event := SetAdd(eventListeners, cb)]]);
      (s2, Unsubscribe(ns, event, socket.value, cb))
  }

  /** The callbacks registered for (namespace, event); none if either is unknown. */
  function Listening(s: Service, ns: string, event: string): (r: CallbackSet)
    ensures r != [] ==> ns in s.listeners && event in s.listeners[ns]
  {
    if ns in s.listeners && event in s.listeners[ns] then s.listeners[ns][event] else []
  }

  /**
   * Running a cleanup: it deletes the callback from the set it captured. That
   * set is the registry's only while the socket it was added through is still
   * the cached one; after a close (and perhaps a re-creation) it deletes from a
   * detached set, which changes nothing visible.
   */
  function RunCleanup(s: Service, c: Cleanup): (r: Service)
    requires Valid(s)
    ensures Valid(r)
    ensures r.sockets == s.sockets
    ensures c.NoOp? ==> r == s
    ensures c.Unsubscribe? && !(c.ns in s.sockets && s.sockets[c.ns] == c.handle) ==> r == s
    ensures c.Unsubscribe? ==>
      forall ns, ev :: (ns, ev) != (c.ns, c.event) ==> Listening(r, ns, ev) == Listening(s, ns, ev)
  {
    match c
    case NoOp => s
    case Unsubscribe(ns, event, handle, cb) =>
      if ns in s.sockets && s.sockets[ns] == handle && event in s.listeners[ns] then
        var nsListeners := s.listeners[ns];
        s.(listeners := s.listeners[ns := nsListeners[event := SetDelete(nsListeners[event], cb)]])
      else s
  }

  /**
   * Subscribing and then running the returned cleanup removes exactly that
   * callback: every other subscriber of the event is still there.
   */
  lemma CleanupRemovesOnlyItsCallback(s: Service, ns: string, event: string, cb: nat, ioSucceeds: bool)
    requires Valid(s)
    ensures var (s1, c) := On(s, ns, event, cb, ioSucceeds);
      && cb !in Listening(RunCleanup(s1, c), ns, event)
      && forall other :: other != cb ==> (other in Listening(RunCleanup(s1, c), ns, event) <==> other in Listening(s, ns, event))
  {
    var (s0, socket) := GetSocket(s, ns, ioSucceeds);
    var (s1, c) := On(s, ns, event, cb, ioSucceeds);
    if socket.Some? {
      assert c.Unsubscribe? && s1.sockets[ns] == c.handle;
      if ns !in s.sockets {
        assert Listening(s0, ns, event) == [];
      }
    }
  }

  /** A cleanup kept across `closeSocket` has no effect, even after the namespace reconnects. */
  lemma StaleCleanupIsHarmless(s: Service, ns: string, event: string, cb: nat, io1: bool, io2: bool)
    requires Valid(s)
    ensures var (s1, c) := On(s, ns, event, cb, io1);
      var s2 := GetSocket(CloseSocket(s1, ns), ns, io2).0;
      RunCleanup(s2, c) == s2
  {
  }

  /** `emit`: false, with no message sent, exactly when no socket can be had. */
  function Emit(s: Service, ns: string, ioSucceeds: bool): (r: (Service, bool))
    requires Valid(s)
    ensures Valid(r.0)
    ensures r.1 <==> ns in s.sockets || ioSucceeds
    ensures r.0 == GetSocket(s, ns, ioSucceeds).0
  {
    var (s1, socket) := GetSocket(s, ns, ioSucceeds);
    (s1, socket.Some?)
  }

  /**
   * `notifyListeners`: every registered callback is invoked, in registration
   * order, whether or not earlier ones throw; the throwing ones are logged.
   * Only the default handlers installed by `createSocket` call it (see `Dispatch`).
   */
  function Notify(s: Service, ns: string, event: string, throws: nat -> bool): (r: (seq<nat>, seq<nat>))
    ensures r.0 == Listening(s, ns, event)
    ensures forall c :: c in r.1 <==> c in r.0 && throws(c)
  {
    var invoked := Listening(s, ns, event);
    (invoked, FailedCallbacks(invoked, throws))
  }

  /** The callbacks whose invocation threw, in invocation order. */
  function FailedCallbacks(invoked: seq<nat>, throws: nat -> bool): (r: seq<nat>)
    ensures |r| <= |invoked|
    ensures forall c :: c in r <==> c in invoked && throws(c)
  {
    if invoked == [] then []
    else (if throws(invoked[0]) then [invoked[0]] else []) + FailedCallbacks(invoked[1..], throws)
  }

  /**
   * The events whose default handler, installed by `createSocket`, calls
   * `notifyListeners`. The shared event names define no `CONNECT_ERROR`, so the
   * third default handler is registered under `undefined` and never runs.
   */
  predicate NotifiedEvent(event: string) {
    event == "connect" || event == "disconnect"
  }

  /**
   * The callbacks run when the socket of `ns` fires `event`: first the default
   * handler's notification (connection events only), then the callbacks `on`
   * also handed to the socket itself, taken to be the registered ones in order.
   */
  function Dispatch(s: Service, ns: string, event: string): (r: seq<nat>)
    requires Valid(s)
    ensures forall c :: c in r <==> c in Listening(s, ns, event)
    ensures forall c :: c in Listening(s, ns, event) ==>
      multiset(r)[c] == if NotifiedEvent(event) then 2 else 1
    ensures |r| == (if NotifiedEvent(event) then 2 else 1) * |Listening(s, ns, event)|
    ensures NotifiedEvent(event) ==> r[..|Listening(s, ns, event)|] == Notify(s, ns, event, _ => false).0
  {
    var registered := Listening(s, ns, event);
    forall c | c in registered ensures multiset(registered)[c] == 1 {
      NoDuplicatesOnce(registered, c);
    }
    (if NotifiedEvent(event) then Notify(s, ns, event, _ => false).0 else []) + registered
  }

  /**
   * As written, a callback subscribed to `connect` runs twice on every
   * connection: once through the notification and once as a socket listener.
   */
  lemma ConnectDeliveredTwice(s: Service, ns: string, cb: nat, ioSucceeds: bool)
    requires Valid(s)
    requires GetSocket(s, ns, ioSucceeds).1.Some?
    ensures var s1 := On(s, ns, "connect", cb, ioSucceeds).0;
      multiset(Dispatch(s1, ns, "connect"))[cb] == 2
  {
    var s1 := On(s, ns, "connect", cb, ioSucceeds).0;
    assert cb in Listening(s1, ns, "connect");
  }

  /** Dispatch as evidently intended: every registered callback runs exactly once, in order. */
  function DispatchIntended(s: Service, ns: string, event: string): (r: seq<nat>)
    requires Valid(s)
    ensures NoDuplicates(r)
    ensures forall c :: c in r <==> c in Listening(s, ns, event)
    ensures forall c :: c in Listening(s, ns, event) ==> multiset(r)[c] == 1
  {
    var registered := Listening(s, ns, event);
    forall c | c in registered ensures multiset(registered)[c] == 1 {
      NoDuplicatesOnce(registered, c);
    }
    registered
  }

  /** With the intended dispatch a `connect` subscriber runs once per connection. */
  lemma ConnectDeliveredOnce(s: Service, ns: string, cb: nat, ioSucceeds: bool)
    requires Valid(s)
    requires GetSocket(s, ns, ioSucceeds).1.Some?
    ensures var s1 := On(s, ns, "connect", cb, ioSucceeds).0;
      multiset(DispatchIntended(s1, ns, "connect"))[cb] == 1
  {
    var s1 := On(s, ns, "connect", cb, ioSucceeds).0;
    assert cb in Listening(s1, ns, "connect");
  }

  /** `closeSocket`: drops the socket and all listener bookkeeping of that namespace only. */
  function CloseSocket(s: Service, ns: string): (r: Service)
    requires Valid(s)
    ensures Valid(r)
    ensures ns !in r.sockets && ns !in r.listeners
    ensures forall other :: other != ns ==>
      (other in r.sockets <==> other in s.sockets) && (other in s.sockets ==> r.sockets[other] == s.sockets[other])
      && (other in s.listeners ==> other in r.listeners && r.listeners[other] == s.listeners[other])
    ensures r.nextHandle == s.nextHandle
  {
    if ns in s.sockets then
      Service(s.sockets - {ns}, s.listeners - {ns}, s.nextHandle)
    else s
  }

  /** `closeAllSockets`: closes every cached namespace in turn. */
  method CloseAll(s: Service) returns (r: Service)
    requires Valid(s)
    ensures Valid(r)
    ensures r.sockets == map[] && r.listeners == map[]
    ensures r.nextHandle == s.nextHandle
  {
    r := s;
    var pending := s.sockets.Keys;
    while pending != {}
      invariant Valid(r)
      invariant r.sockets.Keys <= pending
      invariant r.nextHandle == s.nextHandle
      decreases |pending|
    {
      var ns :| ns in pending;
      r := CloseSocket(r, ns);
      pending := pending - {ns};
    }
  }
}

=== FILE: test_preview.dfy ===
/**
 * The generated-test editor: converting the server's test document into the
 * editor's sections and questions, and the edits the teacher can make to it.
 */
module TestPreview {
  import opened Js
  import opened Text
  import opened Seqs

  /** One answer option as the editor holds it. */
  datatype Choice = Choice(id: string, text: string)

  /** A question's `correctAnswer`: a list, a single string, or absent (`undefined`). */
  datatype Answer = Many(items: seq<string>) | One(text: string) | Absent

  datatype Question = Question(
    id: string,
    text: string,
    qtype: string,
    options: seq<Choice>,
    correctAnswer: Answer,
    correctAnswerId: Option<string>,
    score: int,
    explanation: string)

  datatype Section = Section(id: string, title: string, instruction: string, questions: seq<Question>)

  datatype Test = Test(
    id: string,
    title: string,
    description: string,
    subject: string,
    gradeLevel: string,
    tags: seq<string>,
    sections: seq<Section>)

  // ---------------------------------------------------------------------------
  // The server's document. A list-valued field that is missing or not an array
  // is `None`.

  /** An element of a server question's `options`: an object, or a bare string or number. */
  datatype ServerOption =
    | ObjectOption(oid: Option<string>, otext: Option<string>)
    | StringOption(s: string)
    | NumberOption(n: int)

  datatype ServerQuestion = ServerQuestion(
    questionId: Option<string>,
    questionText: Option<string>,
    options: Option<seq<ServerOption>>,
    answers: Option<seq<string>>,
    explanation: Option<string>,
    score: Option<int>)

  datatype ServerTask = ServerTask(taskType: Option<string>, questions: Option<seq<ServerQuestion>>)

  datatype ServerSection = ServerSection(
    sectionId: Option<string>,
    title: Option<string>,
    instruction: Option<string>,
    tasks: Option<seq<ServerTask>>)

  datatype ServerTest = ServerTest(
    testId: Option<string>,
    title: Option<string>,
    description: Option<string>,
    subject: Option<string>,
    gradeLevel: Option<string>,
    tags: Option<seq<string>>,
    sections: Option<seq<ServerSection>>)

  /** The largest option position whose letter id `String.fromCharCode(97 + i)` is a scalar value. */
  const MaxLetterIndex: nat := 0xD800 - 97 - 1

  /** `String.fromCharCode(97 + i)`: "a", "b", "c", ... */
  function LetterId(i: nat): (r: string)
    requires i <= MaxLetterIndex
    ensures |r| == 1 && r[0] as int == 97 + i
    ensures i < 26 ==> IsLower(r[0])
  {
    [(97 + i) as char]
  }

  /** `String(opt)` for an option that is not used as an object. */
  function OptionString(o: ServerOption): string {
    match o
    case ObjectOption(_, _) => "[object Object]"
    case StringOption(s) => s
    case NumberOption(n) => IntToString(n)
  }

  /** One converted option: the object's own id and text when truthy, else the letter and `String(opt)`. */
  function ConvertOption(o: ServerOption, i: nat): (c: Choice)
    requires i <= MaxLetterIndex
    ensures o.ObjectOption? && Truthy(o.oid) ==> c.id == o.oid.value
    ensures !(o.ObjectOption? && Truthy(o.oid)) ==> c.id == LetterId(i)
    ensures o.ObjectOption? && Truthy(o.otext) ==> c.text == o.otext.value
    ensures o.StringOption? ==> c.text == o.s
  {
    var id := if o.ObjectOption? && Truthy(o.oid) then o.oid.value else LetterId(i);
    var text := if o.ObjectOption? && Truthy(o.otext) then o.otext.value else OptionString(o);
    Choice(id, text)
  }

  function ConvertOptions(opts: Option<seq<ServerOption>>): (r: seq<Choice>)
    requires opts.Some? ==> |opts.value| <= MaxLetterIndex + 1
    ensures opts.None? ==> r == []
    ensures opts.Some? ==> |r| == |opts.value|
    ensures opts.Some? ==> forall i :: 0 <= i < |r| ==> r[i] == ConvertOption(opts.value[i], i)
  {
    if opts.None? then []
    else seq(|opts.value|, i requires 0 <= i < |opts.value| => ConvertOption(opts.value[i], i))
  }

  /** Every option position fits a letter id. */
  predicate OptionsFit(q: ServerQuestion) {
    q.options.Some? ==> |q.options.value| <= MaxLetterIndex + 1
  }

  predicate TaskFits(t: ServerTask) {
    t.questions.Some? ==> forall j :: 0 <= j < |t.questions.value| ==> OptionsFit(t.questions.value[j])
  }

  /** The editor type a task gives its questions: its own type, else fill-in-the-blank. */
  function TaskType(t: ServerTask): string {
    OrElse(t.taskType, "fill_in_the_blank")
  }

  /** One converted question; `random` is the id used when the server sent none. */
  function ConvertQuestion(q: ServerQuestion, qtype: string, random: string): (r: Question)
    requires OptionsFit(q)
    ensures r.qtype == qtype
    ensures r.score == NumOrElse(q.score, 1) && (q.score.None? ==> r.score == 1)
    ensures r.id == OrElse(q.questionId, "q-" + random)
    ensures q.answers.Some? ==> r.correctAnswer == Many(q.answers.value)
    ensures q.answers.None? ==> r.correctAnswer == Many([])
    ensures r.correctAnswerId.None?
  {
    Question(
      OrElse(q.questionId, "q-" + random),
      OrElse(q.questionText, "Untitled Question"),
      qtype,
      ConvertOptions(q.options),
      Many(if q.answers.Some? then q.answers.value else []),
      None,
      NumOrElse(q.score, 1),
      OrElse(q.explanation, ""))
  }

  /** The number of questions a task contributes. */
  function TaskSize(t: ServerTask): nat {
    if t.questions.Some? then |t.questions.value| else 0
  }

  /** A task's questions, converted in order; `randomId` is indexed by (task, question). */
  function TaskQuestions(t: ServerTask, k: nat, randomId: seq<nat> -> string): (r: seq<Question>)
    requires TaskFits(t)
    ensures |r| == TaskSize(t)
    ensures forall j :: 0 <= j < |r| ==> r[j] == ConvertQuestion(t.questions.value[j], TaskType(t), randomId([k, j]))
  {
    if t.questions.None? then []
    else
      var qs := t.questions.value;
      seq(|qs|, j requires 0 <= j < |qs| => ConvertQuestion(qs[j], TaskType(t), randomId([k, j])))
  }

  /** Each task's converted questions; `randomId` is indexed by (task, question). */
  function TaskBlocks(tasks: seq<ServerTask>, randomId: seq<nat> -> string): (r: seq<seq<Question>>)
    requires forall t :: 0 <= t < |tasks| ==> TaskFits(tasks[t])
    ensures |r| == |tasks|
    ensures forall t :: 0 <= t < |tasks| ==> r[t] == TaskQuestions(tasks[t], t, randomId)
  {
    seq(|tasks|, t requires 0 <= t < |tasks| && TaskFits(tasks[t]) => TaskQuestions(tasks[t], t, randomId))
  }

  /** The `flatMap` over a section's tasks. */
  function FlattenTasks(tasks: seq<ServerTask>, randomId: seq<nat> -> string): seq<Question>
    requires forall t :: 0 <= t < |tasks| ==> TaskFits(tasks[t])
  {
    Flatten(TaskBlocks(tasks, randomId))
  }

  /**
   * Flattening places question `j` of task `t` right after the questions of
   * the tasks before it, converted with its own task's type.
   */
  lemma FlattenPosition(tasks: seq<ServerTask>, t: nat, j: nat, randomId: seq<nat> -> string)
    requires forall i :: 0 <= i < |tasks| ==> TaskFits(tasks[i])
    requires t < |tasks| && j < TaskSize(tasks[t])
    ensures var blocks := TaskBlocks(tasks, randomId);
      && SizeBefore(blocks, t) + j < |FlattenTasks(tasks, randomId)|
      && FlattenTasks(tasks, randomId)[SizeBefore(blocks, t) + j]
         == ConvertQuestion(tasks[t].questions.value[j], TaskType(tasks[t]), randomId([t, j]))
  {
    var blocks := TaskBlocks(tasks, randomId);
    assert |blocks[t]| == TaskSize(tasks[t]);
    FlattenIndex(blocks, t, j);
  }

  /** The flattened list holds exactly the tasks' questions: none lost, none invented. */
  lemma FlattenTasksLength(tasks: seq<ServerTask>, randomId: seq<nat> -> string)
    requires forall i :: 0 <= i < |tasks| ==> TaskFits(tasks[i])
    ensures var blocks := TaskBlocks(tasks, randomId);
      |FlattenTasks(tasks, randomId)| == SizeBefore(blocks, |tasks|)
      && forall i :: 0 <= i < |tasks| ==> |blocks[i]| == TaskSize(tasks[i])
  {
    FlattenLength(TaskBlocks(tasks, randomId));
  }

  predicate SectionFits(s: ServerSection) {
    s.tasks.Some? ==> forall t :: 0 <= t < |s.tasks.value| ==> TaskFits(s.tasks.value[t])
  }

  /** One converted section; `randomId` is indexed by the section's position first. */
  function ConvertSection(s: ServerSection, si: nat, randomId: seq<nat> -> string): (r: Section)
    requires SectionFits(s)
    ensures r.id == OrElse(s.sectionId, "section-" + randomId([si]))
    ensures s.tasks.None? ==> r.questions == []
    ensures s.tasks.Some? ==> r.questions == FlattenTasks(s.tasks.value, (p: seq<nat>) => randomId([si] + p))
  {
    Section(
      OrElse(s.sectionId, "section-" + randomId([si])),
      OrElse(s.title, "Untitled Section"),
      OrElse(s.instruction, ""),
      if s.tasks.Some? then FlattenTasks(s.tasks.value, (p: seq<nat>) => randomId([si] + p)) else [])
  }

  predicate TestFits(d: ServerTest) {
    d.sections.Some? ==> forall i :: 0 <= i < |d.sections.value| ==> SectionFits(d.sections.value[i])
  }

  /** The conversion effect: the server document as the editor's test, section by section. */
  function Convert(d: ServerTest, randomId: seq<nat> -> string): (r: Test)
    requires TestFits(d)
    ensures r.title == OrElse(d.title, OrElse(d.testId, "Untitled Test"))
    ensures d.sections.None? ==> r.sections == []
    ensures d.sections.Some? ==> |r.sections| == |d.sections.value|
    ensures d.sections.Some? ==>
      forall i :: 0 <= i < |r.sections| ==> r.sections[i] == ConvertSection(d.sections.value[i], i, randomId)
  {
    Test(
      OrElse(d.testId, "test-" + randomId([])),
      OrElse(d.title, OrElse(d.testId, "Untitled Test")),
      OrElse(d.description, "A comprehensive test covering various concepts."),
      OrElse(d.subject, ""),
      OrElse(d.gradeLevel, ""),
      if d.tags.Some? then d.tags.value else [],
      if d.sections.Some? then
        var ss := d.sections.value;
        seq(|ss|, i requires 0 <= i < |ss| => ConvertSection(ss[i], i, randomId))
      else [])
  }

  // ---------------------------------------------------------------------------
  // Deleting a question.

  predicate NotId(q: Question, id: string) { q.id != id }

  function WithoutQuestion(s: Section, id: string): (r: Section)
    ensures r.id == s.id && r.title == s.title && r.instruction == s.instruction
    ensures forall q :: q in r.questions <==> q in s.questions && q.id != id
  {
    s.(questions := Filter(s.questions, q => NotId(q, id)))
  }

  /** Every section with the question removed, before empty sections are dropped. */
  function StripQuestion(sections: seq<Section>, id: string): (r: seq<Section>)
    ensures |r| == |sections|
    ensures forall i :: 0 <= i < |r| ==> r[i] == WithoutQuestion(sections[i], id)
  {
    seq(|sections|, i requires 0 <= i < |sections| => WithoutQuestion(sections[i], id))
  }

  /** Keeps a section only if it still has questions. */
  predicate NonEmpty(s: Section) { |s.questions| > 0 }

  /**
   * `handleDeleteQuestion`: removes every question with the id from every
   * section, then drops every section left without questions (including
   * sections that had none to begin with).
   */
  function DeleteQuestion(sections: seq<Section>, id: string): (r: seq<Section>)
    ensures forall s :: s in r ==> |s.questions| > 0 && forall q :: q in s.questions ==> q.id != id
    ensures |r| <= |sections|
    ensures IsSubsequence(r, StripQuestion(sections, id))
  {
    var stripped := StripQuestion(sections, id);
    var r := Filter(stripped, NonEmpty);
    FilterIsSubsequence(stripped, NonEmpty);
    assert forall s :: s in r ==> s in stripped;
    r
  }

  /** Every other question survives, in a section with the same id as before. */
  lemma DeleteQuestionKeepsOthers(sections: seq<Section>, id: string, i: nat, q: Question)
    requires i < |sections| && q in sections[i].questions && q.id != id
    ensures exists s :: s in DeleteQuestion(sections, id) && s.id == sections[i].id && q in s.questions
  {
    var stripped := StripQuestion(sections, id);
    assert stripped[i] in stripped && q in stripped[i].questions;
    assert stripped[i] in DeleteQuestion(sections, id);
  }

  /** Deleting the same question twice is the same as deleting it once. */
  lemma DeleteQuestionIdempotent(sections: seq<Section>, id: string)
    ensures DeleteQuestion(DeleteQuestion(sections, id), id) == DeleteQuestion(sections, id)
  {
    var once := DeleteQuestion(sections, id);
    var stripped := seq(|once|, i requires 0 <= i < |once| => WithoutQuestion(once[i], id));
    forall i | 0 <= i < |once| ensures stripped[i] == once[i] {
      assert once[i] in once;
      FilterAll(once[i].questions, q => NotId(q, id));
    }
    assert stripped == once;
    FilterAll(once, NonEmpty);
  }

  // ---------------------------------------------------------------------------
  // Adding a question.

  /** The options a new multiple-choice question starts with. */
  const FourOptions: seq<Choice> :=
    [Choice("a", "Option A"), Choice("b", "Option B"), Choice("c", "Option C"), Choice("d", "Option D")]

  /**
   * The question `handleAddQuestion` creates for the selected type: four
   * lettered options answered "a", True/False for "true_false", and no
   * options with a sample answer for the two free-text types (whose
   * recorded answer id stays "a").
   */
  function NewQuestion(qtype: string, random: string): (q: Question)
    ensures q.id == "q-" + random && q.score == 1
    ensures q.qtype == (if qtype == "" then "multiple_choice" else qtype)
    ensures (qtype == "short_answer" || qtype == "fill_in_the_blank") <==> q.options == []
    ensures q.options != [] ==>
      q.correctAnswer.One? && IsOptionId(q.options, q.correctAnswer.text) && q.correctAnswerId == Some(q.correctAnswer.text)
  {
    if qtype == "true_false" then
      var opts := [Choice("true", "True"), Choice("false", "False")];
      assert opts[0].id == "true";
      Question("q-" + random, "New question", qtype, opts, One("true"), Some("true"), 1, "")
    else if qtype == "short_answer" || qtype == "fill_in_the_blank" then
      Question("q-" + random, "New question", qtype, [], One("Sample answer"), Some("a"), 1, "")
    else
      assert FourOptions[0].id == "a";
      Question("q-" + random, "New question", if qtype == "" then "multiple_choice" else qtype,
               FourOptions, One("a"), Some("a"), 1, "")
  }

  /** The section `handleAddQuestion` creates when the test has none. */
  function NewSection(random: string): Section {
    Section("section-" + random, "New Section", "Instructions for this section", [])
  }

  /**
   * `handleAddQuestion`: appends the question to the first section, creating
   * that section when the test has none. The section the handler builds
   * first for an empty test is replaced by its second update, so only the
   * second section id survives.
   */
  function AddQuestion(sections: seq<Section>, q: Question, sectionRandom: string): (r: seq<Section>)
    ensures |r| == if sections == [] then 1 else |sections|
    ensures r[0].questions == (if sections == [] then [] else sections[0].questions) + [q]
    ensures sections == [] ==> r[0].id == "section-" + sectionRandom
    ensures sections != [] ==> r[0].id == sections[0].id && r[1..] == sections[1..]
  {
    var first := if sections == [] then NewSection(sectionRandom) else sections[0];
    [first.(questions := first.questions + [q])] + (if sections == [] then [] else sections[1..])
  }

  /** Removing a question appended under a new id gives back the section it was appended to. */
  lemma WithoutAppended(s: Section, q: Question)
    requires forall j :: 0 <= j < |s.questions| ==> s.questions[j].id != q.id
    ensures WithoutQuestion(s.(questions := s.questions + [q]), q.id) == s
  {
    FilterAll(s.questions, x => NotId(x, q.id));
    FilterNone([q], x => NotId(x, q.id));
    FilterAppend(s.questions, [q], x => NotId(x, q.id));
  }

  /**
   * Deleting a question just added under a new id gives back the sections as
   * they were, provided none of them was empty (delete drops empty sections).
   */
  lemma AddThenDelete(sections: seq<Section>, q: Question, sectionRandom: string)
    requires forall i :: 0 <= i < |sections| ==> NonEmpty(sections[i])
    requires forall i, j :: 0 <= i < |sections| && 0 <= j < |sections[i].questions| ==>
      sections[i].questions[j].id != q.id
    ensures DeleteQuestion(AddQuestion(sections, q, sectionRandom), q.id) == sections
  {
    var added := AddQuestion(sections, q, sectionRandom);
    var stripped := StripQuestion(added, q.id);
    var first := if sections == [] then NewSection(sectionRandom) else sections[0];
    WithoutAppended(first, q);
    if sections == [] {
      assert stripped == [first];
      FilterNone(stripped, NonEmpty);
    } else {
      forall i | 1 <= i < |stripped| ensures stripped[i] == sections[i] {
        assert added[i] == sections[i];
        FilterAll(sections[i].questions, x => NotId(x, q.id));
      }
      assert stripped == sections;
      FilterAll(sections, NonEmpty);
    }
  }

  /** `handleAddOption`: appends the next letter id with the label "Option " and that letter in upper case. */
  function AddOption(opts: seq<Choice>): (r: seq<Choice>)
    requires |opts| <= MaxLetterIndex
    ensures |r| == |opts| + 1 && r[..|opts|] == opts
    ensures r[|opts|].id == LetterId(|opts|)
    ensures |opts| < 26 ==> r[|opts|].text == "Option " + [(65 + |opts|) as char]
  {
    var next := LetterId(|opts|);
    opts + [Choice(next, "Option " + Upper(next))]
  }

  /**
   * `handleRemoveOption`: refused (false) with at most two options; otherwise
   * the option at `index` goes, and if it was the correct one the new first
   * option becomes correct.
   */
  function RemoveOption(opts: seq<Choice>, index: nat, correct: Option<string>)
    : (r: (seq<Choice>, Option<string>, bool))
    requires |opts| > 2 ==> index < |opts|
    ensures |opts| <= 2 ==> r == (opts, correct, false)
    ensures |opts| > 2 ==> r.2 && r.0 == opts[..index] + opts[index + 1..]
    ensures |opts| > 2 && correct == Some(opts[index].id) ==> r.1 == Some(r.0[0].id)
    ensures |opts| > 2 && correct != Some(opts[index].id) ==> r.1 == correct
  {
    if |opts| <= 2 then (opts, correct, false)
    else
      var rest := opts[..index] + opts[index + 1..];
      (rest, if Some(opts[index].id) == correct then Some(rest[0].id) else correct, true)
  }

  predicate IsOptionId(opts: seq<Choice>, id: string) {
    exists i :: 0 <= i < |opts| && opts[i].id == id
  }

  /** Removing an option keeps the correct answer pointing at an option that is still there. */
  lemma RemoveOptionKeepsAnswerValid(opts: seq<Choice>, index: nat, correct: string)
    requires |opts| > 2 && index < |opts|
    requires IsOptionId(opts, correct)
    ensures RemoveOption(opts, index, Some(correct)).1.Some?
    ensures IsOptionId(RemoveOption(opts, index, Some(correct)).0, RemoveOption(opts, index, Some(correct)).1.value)
  {
    var (rest, c, _) := RemoveOption(opts, index, Some(correct));
    if opts[index].id == correct {
      assert rest[0].id == c.value;
    } else {
      var i :| 0 <= i < |opts| && opts[i].id == correct;
      if i < index {
        assert rest[i] == opts[i];
      } else {
        assert rest[i - 1] == opts[i];
      }
    }
  }

  /** Adding an option and removing it again restores the options and the answer. */
  lemma AddThenRemove(opts: seq<Choice>, correct: Option<string>)
    requires 2 <= |opts| <= MaxLetterIndex
    requires correct != Some(LetterId(|opts|))
    ensures RemoveOption(AddOption(opts), |opts|, correct) == (opts, correct, true)
  {
    var added := AddOption(opts);
    assert added[..|opts|] + added[|opts| + 1..] == opts;
  }

  /** The editor treats a type as multiple choice when it mentions either spelling. */
  predicate IsMultipleChoice(qtype: string) {
    Contains(Lower(qtype), "multiple_choice") || Contains(Lower(qtype), "multiple-choice")
  }

  /** The first option whose id is the correct answer (`find`). */
  function FindOption(opts: seq<Choice>, id: Option<string>): (r: Option<Choice>)
    ensures r.None? <==> forall i :: 0 <= i < |opts| ==> Some(opts[i].id) != id
    ensures r.Some? ==> r.value in opts && Some(r.value.id) == id
  {
    if opts == [] then None
    else if Some(opts[0].id) == id then Some(opts[0])
    else
      var r := FindOption(opts[1..], id);
      assert forall i :: 1 <= i < |opts| ==> opts[i] == opts[1..][i - 1];
      r
  }

  /** The dialog's state: the question text, its options, the correct answer id and the type. */
  datatype Editor = Editor(text: string, options: seq<Choice>, correct: Option<string>, qtype: string)

  /** The answer stored on save: "id. text" of the selected option for multiple choice. */
  function SavedAnswer(e: Editor): (a: Answer)
    ensures IsMultipleChoice(e.qtype) && FindOption(e.options, e.correct).Some? ==>
      a == One(FindOption(e.options, e.correct).value.id + ". " + FindOption(e.options, e.correct).value.text)
    ensures !(IsMultipleChoice(e.qtype) && FindOption(e.options, e.correct).Some?) ==>
      a == (if e.correct.Some? then One(e.correct.value) else Absent)
  {
    var raw := if e.correct.Some? then One(e.correct.value) else Absent;
    if IsMultipleChoice(e.qtype) then
      match FindOption(e.options, e.correct)
      case Some(o) => One(o.id + ". " + o.text)
      case None => raw
    else raw
  }

  function SaveInSection(s: Section, editing: string, e: Editor): (r: Section)
    ensures r.id == s.id && |r.questions| == |s.questions|
  {
    var qs := s.questions;
    s.(questions := seq(|qs|, j requires 0 <= j < |qs| =>
      if qs[j].id == editing then
        qs[j].(text := e.text,
               options := if IsMultipleChoice(e.qtype) then e.options else qs[j].options,
               correctAnswer := SavedAnswer(e),
               correctAnswerId := e.correct)
      else qs[j]))
  }

  /**
   * `handleSaveQuestion`: nothing happens with no question being edited;
   * otherwise only the questions with the edited id change, taking the
   * dialog's text, answer and (for multiple choice) options.
   */
  function SaveQuestion(sections: seq<Section>, editing: Option<string>, e: Editor): (r: seq<Section>)
    ensures editing.None? ==> r == sections
    ensures |r| == |sections|
    ensures forall i :: 0 <= i < |r| ==> r[i].id == sections[i].id && |r[i].questions| == |sections[i].questions|
    ensures editing.Some? ==> forall i, j :: 0 <= i < |r| && 0 <= j < |r[i].questions| ==>
      var q := sections[i].questions[j];
      (q.id != editing.value ==> r[i].questions[j] == q)
      && (q.id == editing.value ==>
            r[i].questions[j].text == e.text && r[i].questions[j].correctAnswer == SavedAnswer(e)
            && r[i].questions[j].correctAnswerId == e.correct && r[i].questions[j].score == q.score
            && r[i].questions[j].qtype == q.qtype
            && r[i].questions[j].id == q.id && r[i].questions[j].explanation == q.explanation
            && r[i].questions[j].options == (if IsMultipleChoice(e.qtype) then e.options else q.options))
  {
    if editing.None? then sections
    else seq(|sections|, i requires 0 <= i < |sections| => SaveInSection(sections[i], editing.value, e))
  }

  /** `/^([a-z])\.\s/`: a lower-case letter, a dot and a whitespace character at the start. */
  function MatchLetterPrefix(s: string): (r: Option<string>)
    ensures r.Some? <==> |s| >= 3 && 'a' <= s[0] <= 'z' && s[1] == '.' && IsSpace(s[2])
    ensures r.Some? ==> r.value == [s[0]]
  {
    if |s| >= 3 && 'a' <= s[0] <= 'z' && s[1] == '.' && IsSpace(s[2]) then Some([s[0]]) else None
  }

  /**
   * `openEditDialog`'s answer extraction: for a list answer the recorded id
   * or else the first item (undefined for an empty list); otherwise the
   * recorded id; otherwise the letter of an "x. text" answer, or the whole
   * answer.
   */
  function ExtractAnswerId(q: Question): (r: Option<string>)
    ensures Truthy(q.correctAnswerId) ==> r == q.correctAnswerId
    ensures q.correctAnswer.Many? && !Truthy(q.correctAnswerId) ==>
      r == (if |q.correctAnswer.items| > 0 then Some(q.correctAnswer.items[0]) else None)
    ensures q.correctAnswer.One? && !Truthy(q.correctAnswerId) && MatchLetterPrefix(q.correctAnswer.text).None? ==>
      r == Some(q.correctAnswer.text)
    ensures q.correctAnswer.One? && !Truthy(q.correctAnswerId) && MatchLetterPrefix(q.correctAnswer.text).Some? ==>
      r == MatchLetterPrefix(q.correctAnswer.text)
    ensures q.correctAnswer.Absent? && !Truthy(q.correctAnswerId) ==> r == Some("")
  {
    match q.correctAnswer
    case Many(items) =>
      if Truthy(q.correctAnswerId) then q.correctAnswerId
      else if |items| > 0 then Some(items[0]) else None
    case One(text) =>
      if Truthy(q.correctAnswerId) then q.correctAnswerId
      else
        var m := MatchLetterPrefix(text);
        if m.Some? then m else Some(text)
    case Absent =>
      if Truthy(q.correctAnswerId) then q.correctAnswerId else Some("")
  }

  /** The stored "id. text" form gives its single-letter id back, whatever the option text. */
  lemma LetterAnswerRoundTrip(c: char, text: string)
    requires 'a' <= c <= 'z'
    ensures MatchLetterPrefix([c] + ". " + text) == Some([c])
  {
  }

  /**
   * Saving a multiple-choice answer whose id is a single lower-case letter and
   * reopening the question recovers that id, even when the recorded id has
   * been lost (as with questions reloaded from the server).
   */
  lemma SaveThenExtract(sections: seq<Section>, editing: string, e: Editor, i: nat, j: nat)
    requires IsMultipleChoice(e.qtype)
    requires FindOption(e.options, e.correct).Some?
    requires |e.correct.value| == 1 && 'a' <= e.correct.value[0] <= 'z'
    requires i < |sections| && j < |sections[i].questions| && sections[i].questions[j].id == editing
    ensures var q := SaveQuestion(sections, Some(editing), e)[i].questions[j];
      ExtractAnswerId(q) == e.correct && ExtractAnswerId(q.(correctAnswerId := None)) == e.correct
  {
    var o := FindOption(e.options, e.correct).value;
    assert o.id == e.correct.value == [e.correct.value[0]];
    LetterAnswerRoundTrip(e.correct.value[0], o.text);
  }

  /** The two options a multiple-choice question without options is edited with. */
  const TwoOptions: seq<Choice> := [Choice("a", "Option A"), Choice("b", "Option B")]

  /**
   * `openEditDialog`: the dialog starts from the question's text, type and
   * extracted answer id; a multiple-choice question brings its options (two
   * lettered defaults when it has none), any other type none.
   */
  function OpenEditor(q: Question): (e: Editor)
    ensures e.text == q.text && e.qtype == q.qtype && e.correct == ExtractAnswerId(q)
    ensures IsMultipleChoice(q.qtype) ==> e.options != [] && (q.options != [] ==> e.options == q.options)
    ensures !IsMultipleChoice(q.qtype) ==> e.options == []
  {
    var opts := if !IsMultipleChoice(q.qtype) then [] else if |q.options| > 0 then q.options else TwoOptions;
    Editor(q.text, opts, ExtractAnswerId(q), q.qtype)
  }

  /**
   * Saving a multiple-choice dialog and opening the question again shows the
   * same dialog: text, options and answer id come back unchanged.
   */
  lemma SaveThenOpen(sections: seq<Section>, editing: string, e: Editor, i: nat, j: nat)
    requires IsMultipleChoice(e.qtype) && e.options != [] && Truthy(e.correct)
    requires i < |sections| && j < |sections[i].questions|
    requires sections[i].questions[j].id == editing && sections[i].questions[j].qtype == e.qtype
    ensures OpenEditor(SaveQuestion(sections, Some(editing), e)[i].questions[j]) == e
  {
    var q := SaveQuestion(sections, Some(editing), e)[i].questions[j];
    assert q.options == e.options && q.correctAnswerId == e.correct;
  }

  /** `handleOptionChange`: the option at `index` takes the new text; ids and the other options stay. */
  function ChangeOption(opts: seq<Choice>, index: nat, text: string): (r: seq<Choice>)
    requires index < |opts|
    ensures |r| == |opts| && r[index].text == text
    ensures forall i :: 0 <= i < |r| ==> r[i].id == opts[i].id && (i != index ==> r[i] == opts[i])
  {
    opts[index := opts[index].(text := text)]
  }

  /** Editing an option's text never changes whether the answer id names an option. */
  lemma ChangeOptionKeepsAnswer(opts: seq<Choice>, index: nat, text: string, correct: Option<string>)
    requires index < |opts|
    ensures FindOption(ChangeOption(opts, index, text), correct).Some? <==> FindOption(opts, correct).Some?
  {
    var r := ChangeOption(opts, index, text);
    assert forall i :: 0 <= i < |r| ==> r[i].id == opts[i].id;
  }

  /** `type.toLowerCase().replace(/-/g, "_")` */
  function NormalizeType(t: string): (r: string)
    ensures |r| == |t|
    ensures forall i :: 0 <= i < |r| ==> r[i] != '-' && !IsUpper(r[i])
    ensures forall i :: 0 <= i < |t| ==>
      (t[i] == '-' ==> r[i] == '_') && (t[i] != '-' ==> r[i] == Lower(t)[i])
  {
    seq(|t|, i requires 0 <= i < |t| => var c := LowerChar(t[i]); if c == '-' then '_' else c)
  }

  lemma NormalizeTypeIdempotent(t: string)
    ensures NormalizeType(NormalizeType(t)) == NormalizeType(t)
  {
  }

  /** The five known question types, by their normalised spelling. */
  datatype Kind = MultipleChoice | FillInTheBlank | TrueFalse | ShortAnswer | MatchingHeadings | Generic

  /** The normalised spelling of each known kind (none for the generic renderer). */
  function Spelling(k: Kind): string {
    match k
    case MultipleChoice => "multiple_choice"
    case FillInTheBlank => "fill_in_the_blank"
    case TrueFalse => "true_false"
    case ShortAnswer => "short_answer"
    case MatchingHeadings => "matching_the_headings"
    case Generic => ""
  }

  /**
   * The renderer `QuestionRenderer` picks: the known kind whose spelling the
   * normalised type is, or the generic renderer when it is none of them.
   */
  function RendererKind(t: string): (k: Kind)
    ensures k != Generic ==> NormalizeType(t) == Spelling(k) && |t| == |Spelling(k)|
    ensures k == Generic <==> forall j: Kind :: j != Generic ==> NormalizeType(t) != Spelling(j)
  {
    var n := NormalizeType(t);
    if n == "multiple_choice" then MultipleChoice
    else if n == "fill_in_the_blank" then FillInTheBlank
    else if n == "true_false" then TrueFalse
    else if n == "short_answer" then ShortAnswer
    else if n == "matching_the_headings" then MatchingHeadings
    else Generic
  }

  /** `getQuestionTypeLabel`: the label of a known type, else the type as given. */
  function TypeLabel(t: string): (r: string)
    ensures RendererKind(t) == MultipleChoice ==> r == "Multiple Choice"
    ensures RendererKind(t) == FillInTheBlank ==> r == "Fill in the Blank"
    ensures RendererKind(t) == TrueFalse ==> r == "True/False"
    ensures RendererKind(t) == ShortAnswer ==> r == "Short Answer"
    ensures RendererKind(t) == MatchingHeadings ==> r == "Matching"
    ensures RendererKind(t) == Generic ==> r == t
  {
    match RendererKind(t)
    case MultipleChoice => "Multiple Choice"
    case FillInTheBlank => "Fill in the Blank"
    case TrueFalse => "True/False"
    case ShortAnswer => "Short Answer"
    case MatchingHeadings => "Matching"
    case Generic => t
  }

  /** Spellings that normalise alike get the same label and the same renderer. */
  lemma SameNormalFormSameLabel(t1: string, t2: string)
    requires NormalizeType(t1) == NormalizeType(t2)
    requires RendererKind(t1) != Generic
    ensures TypeLabel(t1) == TypeLabel(t2) && RendererKind(t1) == RendererKind(t2)
  {
  }

  /** The label never repeats the raw type for a known type: "Multiple-Choice" reads "Multiple Choice". */
  lemma DashedSpellingIsKnown()
    ensures TypeLabel("Multiple-Choice") == "Multiple Choice"
    ensures TypeLabel("essay") == "essay"
  {
    assert NormalizeType("Multiple-Choice") == "multiple_choice";
    assert NormalizeType("essay") == "essay";
  }

  /**
   * The multiple-choice renderer's key: the first character of a string
   * answer (the first item of a list), lower-cased; none when that would be
   * read from an empty answer.
   */
  function HighlightKey(a: Answer): (r: Option<string>)
    ensures r.Some? ==> |r.value| <= 1 || (a.Many? && |a.items| > 0)
  {
    match a
    case Many(items) => if |items| > 0 then Some(Lower(items[0])) else None
    case One(text) => if |text| > 0 then Some(Lower([text[0]])) else None
    case Absent => None
  }

  /** An option is highlighted as correct when its lower-cased id equals the key. */
  predicate Highlighted(a: Answer, c: Choice) {
    HighlightKey(a) == Some(Lower(c.id))
  }

  /** The option saved as correct (a single lower-case letter id) is the one highlighted. */
  lemma SavedAnswerHighlightsOption(e: Editor)
    requires IsMultipleChoice(e.qtype)
    requires FindOption(e.options, e.correct).Some?
    requires |e.correct.value| == 1 && 'a' <= e.correct.value[0] <= 'z'
    ensures Highlighted(SavedAnswer(e), FindOption(e.options, e.correct).value)
  {
    var o := FindOption(e.options, e.correct).value;
    var text := o.id + ". " + o.text;
    assert text[0] == o.id[0];
    assert [text[0]] == o.id;
    assert Lower(o.id) == o.id;
  }
}

=== FILE: text.dfy ===
/**
 * String operations as the front-end's JavaScript performs them: the `\s`
 * whitespace class (also what `trim()` strips), case mapping, `includes`,
 * `startsWith`, `indexOf` and `split`, decimal printing of numbers,
 * `padStart(2, "0")`, and `Number` applied to a string.
 */
module Text {

  /** The characters matched by the regular-expression class `\s` and stripped by `trim()`. */
  predicate IsSpace(c: char) {
    c == ' ' || c == '\t' || c == '\n' || c == '\U{000B}' || c == '\U{000C}' || c == '\r'
    || c == '\U{00A0}' || c == '\U{1680}' || ('\U{2000}' <= c <= '\U{200A}')
    || c == '\U{2028}' || c == '\U{2029}' || c == '\U{202F}' || c == '\U{205F}'
    || c == '\U{3000}' || c == '\U{FEFF}'
  }

  predicate IsDigit(c: char) {
    '0' <= c <= '9'
  }

  predicate IsUpper(c: char) {
    'A' <= c <= 'Z'
  }

  predicate IsLower(c: char) {
    'a' <= c <= 'z'
  }

  /** `s.trimStart()` */
  function TrimStart(s: string): (r: string)
    ensures |r| <= |s|
    ensures r == s[|s| - |r|..]
    ensures r != [] ==> !IsSpace(r[0])
    ensures forall i :: 0 <= i < |s| - |r| ==> IsSpace(s[i])
  {
    if s != [] && IsSpace(s[0]) then TrimStart(s[1..]) else s
  }

  /** `s.trimEnd()` */
  function TrimEnd(s: string): (r: string)
    ensures |r| <= |s|
    ensures r == s[..|r|]
    ensures r != [] ==> !IsSpace(r[|r| - 1])
    ensures forall i :: |r| <= i < |s| ==> IsSpace(s[i])
  {
    if s != [] && IsSpace(s[|s| - 1]) then TrimEnd(s[..|s| - 1]) else s
  }

  /** `s.trim()`: the longest infix of `s` with no whitespace at either end. */
  function Trim(s: string): (r: string)
    ensures |r| <= |s|
    ensures r != [] ==> !IsSpace(r[0]) && !IsSpace(r[|r| - 1])
  {
    TrimEnd(TrimStart(s))
  }

  /** `trim()` yields the empty string exactly for an all-whitespace input. */
  lemma TrimEmptyIff(s: string)
    ensures Trim(s) == "" <==> forall i :: 0 <= i < |s| ==> IsSpace(s[i])
  {
    var a := TrimStart(s);
    if Trim(s) != "" {
      var r := Trim(s);
      assert r == a[..|r|];
      assert r[0] == s[|s| - |a|];
    }
  }

  /** A string with no whitespace at either end is its own trim. */
  lemma TrimIdempotent(s: string)
    ensures Trim(Trim(s)) == Trim(s)
  {
    var r := Trim(s);
    if r != [] {
      assert TrimStart(r) == r;
      assert TrimEnd(r) == r;
    }
  }

  /** ASCII part of `toLowerCase` for one character. */
  function LowerChar(c: char): (r: char)
    ensures !IsUpper(r)
    ensures !IsUpper(c) ==> r == c
  {
    if IsUpper(c) then (c as int - 'A' as int + 'a' as int) as char else c
  }

  /** ASCII part of `toUpperCase` for one character. */
  function UpperChar(c: char): (r: char)
    ensures !IsLower(r)
    ensures !IsLower(c) ==> r == c
  {
    if IsLower(c) then (c as int - 'a' as int + 'A' as int) as char else c
  }

  /** `s.toLowerCase()` restricted to ASCII letters. */
  function Lower(s: string): (r: string)
    ensures |r| == |s|
    ensures forall i :: 0 <= i < |s| ==> r[i] == LowerChar(s[i])
  {
    seq(|s|, i requires 0 <= i < |s| => LowerChar(s[i]))
  }

  function Upper(s: string): (r: string)
    ensures |r| == |s|
    ensures forall i :: 0 <= i < |s| ==> r[i] == UpperChar(s[i])
  {
    seq(|s|, i requires 0 <= i < |s| => UpperChar(s[i]))
  }

  lemma LowerIdempotent(s: string)
    ensures Lower(Lower(s)) == Lower(s)
  {
  }

  /** Upper-casing first changes nothing once the text is lower-cased. */
  lemma LowerUpper(s: string)
    ensures Lower(Upper(s)) == Lower(s)
  {
  }

  /** `s.startsWith(prefix)` */
  predicate StartsWith(s: string, prefix: string) {
    |prefix| <= |s| && s[..|prefix|] == prefix
  }

  /** `needle` occurs in `hay` starting at offset `i`. */
  ghost predicate OccursAt(needle: string, hay: string, i: int) {
    0 <= i <= |hay| - |needle| && hay[i..i + |needle|] == needle
  }

  /** The specification of `includes`: `needle` occurs at some offset of `hay`. */
  ghost predicate OccursIn(needle: string, hay: string) {
    exists i :: OccursAt(needle, hay, i)
  }

  /** `hay.includes(needle)`, computed by trying every offset from the left. */
  function Contains(hay: string, needle: string): (b: bool)
    ensures b <==> OccursIn(needle, hay)
    decreases |hay|
  {
    if StartsWith(hay, needle) then
      assert OccursAt(needle, hay, 0);
      true
    else if |hay| <= |needle| then
      assert !OccursIn(needle, hay) by {
        forall i | OccursAt(needle, hay, i)
          ensures false
        {
        }
      }
      false
    else
      var rest := Contains(hay[1..], needle);
      assert rest ==> OccursIn(needle, hay) by {
        if rest {
          var i :| OccursAt(needle, hay[1..], i);
          assert hay[1..][i..i + |needle|] == hay[i + 1..i + 1 + |needle|];
          assert OccursAt(needle, hay, i + 1);
        }
      }
      assert OccursIn(needle, hay) ==> rest by {
        if OccursIn(needle, hay) {
          var i :| OccursAt(needle, hay, i);
          assert i != 0;
          assert hay[1..][i - 1..i - 1 + |needle|] == hay[i..i + |needle|];
          assert OccursAt(needle, hay[1..], i - 1);
        }
      }
      rest
  }

  /** Every string includes the empty string (so an empty search text keeps everything). */
  lemma ContainsEmpty(hay: string)
    ensures Contains(hay, "")
  {
    assert OccursAt("", hay, 0);
  }

  /** The character for a decimal digit value. */
  function DigitChar(d: nat): (c: char)
    requires d < 10
    ensures IsDigit(c)
  {
    ('0' as int + d) as char
  }

  function DigitValue(c: char): (d: nat)
    requires IsDigit(c)
    ensures d < 10 && DigitChar(d) == c
  {
    c as int - '0' as int
  }

  /** Every character is a decimal digit. */
  predicate Digits(s: string) {
    forall i :: 0 <= i < |s| ==> IsDigit(s[i])
  }

  /** Decimal text of a natural number, as `n.toString()` prints it. */
  function NatToString(n: nat): (s: string)
    ensures |s| >= 1 && Digits(s)
    ensures |s| > 1 ==> s[0] != '0'
    ensures n < 10 <==> |s| == 1
    decreases n
  {
    if n < 10 then [DigitChar(n)] else NatToString(n / 10) + [DigitChar(n % 10)]
  }

  /** Reads a string of decimal digits back as a number. */
  function ParseNat(s: string): nat
    requires Digits(s)
    decreases |s|
  {
    if s == [] then 0 else 10 * ParseNat(s[..|s| - 1]) + DigitValue(s[|s| - 1])
  }

  /** Printing a number and reading it back gives the number. */
  lemma {:induction false} ParseNatToString(n: nat)
    ensures ParseNat(NatToString(n)) == n
    decreases n
  {
    if n >= 10 {
      var s := NatToString(n);
      assert s[..|s| - 1] == NatToString(n / 10);
      ParseNatToString(n / 10);
    }
  }

  /** Decimal text of an integer, with a leading minus sign when negative. */
  function IntToString(i: int): (s: string)
    ensures |s| >= 1
    ensures i >= 0 ==> s == NatToString(i)
    ensures i < 0 ==> s[0] == '-' && s[1..] == NatToString(-i)
  {
    if i < 0 then "-" + NatToString(-i) else NatToString(i)
  }

  /** `s.padStart(2, "0")` */
  function PadStart2(s: string): (r: string)
    ensures |r| == if |s| < 2 then 2 else |s|
    ensures r[|r| - |s|..] == s
    ensures forall i :: 0 <= i < |r| - |s| ==> r[i] == '0'
  {
    if |s| == 0 then "00" else if |s| == 1 then "0" + s else s
  }

  /** Two-digit rendering of a number below 100, stated digit by digit. */
  function TwoDigits(n: nat): (r: string)
    requires n < 100
    ensures |r| == 2 && Digits(r)
  {
    [DigitChar(n / 10), DigitChar(n % 10)]
  }

  /** `n.toString().padStart(2, "0")` is exactly the two decimal digits of `n` when `n < 100`. */
  lemma PaddedIsTwoDigits(n: nat)
    requires n < 100
    ensures PadStart2(NatToString(n)) == TwoDigits(n)
  {
    if n < 10 {
      assert NatToString(n) == [DigitChar(n)];
      assert n / 10 == 0 && n % 10 == n;
      assert PadStart2([DigitChar(n)]) == "0" + [DigitChar(n)];
    } else {
      var hi, lo := n / 10, n % 10;
      assert hi < 10;
      assert NatToString(hi) == [DigitChar(hi)];
      assert NatToString(n) == [DigitChar(hi)] + [DigitChar(lo)];
    }
  }

  // ---------------------------------------------------------------------------
  // `Number(s)` for a string, as section 7.1.4.1.1 of ECMA-262 defines it.

  /** What `Number(s)` yields. */
  datatype NumberValue =
    | Whole(value: int)   // a finite integer
    | NaN
    | Unmodelled          // a decimal numeral with a point, an exponent or "Infinity"

  /** The value of a digit in radix up to 36: 0-9, then a-z or A-Z; -1 for any other character. */
  function RadixValue(c: char): (d: int)
    ensures -1 <= d < 36
    ensures IsDigit(c) ==> d == DigitValue(c)
  {
    if IsDigit(c) then DigitValue(c)
    else if 'a' <= c <= 'z' then c as int - 'a' as int + 10
    else if 'A' <= c <= 'Z' then c as int - 'A' as int + 10
    else -1
  }

  /** Every character is a digit of the radix. */
  predicate RadixDigits(s: string, radix: nat) {
    forall i :: 0 <= i < |s| ==> 0 <= RadixValue(s[i]) < radix
  }

  /** Reads digits of a radix as a number, most significant first. */
  function ParseRadix(s: string, radix: nat): nat
    requires RadixDigits(s, radix)
    decreases |s|
  {
    if s == [] then 0 else radix * ParseRadix(s[..|s| - 1], radix) + RadixValue(s[|s| - 1])
  }

  /** Radix 10 reads decimal digits as `ParseNat` does. */
  lemma {:induction false} ParseRadixDecimal(s: string)
    requires Digits(s)
    ensures RadixDigits(s, 10) && ParseRadix(s, 10) == ParseNat(s)
    decreases |s|
  {
    if s != [] {
      ParseRadixDecimal(s[..|s| - 1]);
    }
  }

  /** `e` or `E`, an optional sign and at least one decimal digit. */
  predicate ExponentPart(s: string) {
    |s| >= 2 && (s[0] == 'e' || s[0] == 'E')
    && var t := if s[1] == '+' || s[1] == '-' then s[1..][1..] else s[1..];
       t != [] && Digits(t)
  }

  /** Digits with a decimal point somewhere, and at least one digit: "1.", "1.5", ".5". */
  predicate PointedDigits(m: string) {
    exists p :: 0 <= p < |m| && m[p] == '.' && Digits(m[..p]) && Digits(m[p + 1..]) && |m| >= 2
  }

  /** An unsigned decimal numeral that is not plain digits: "Infinity", a point, or an exponent. */
  predicate OtherDecimal(u: string) {
    u == "Infinity"
    || PointedDigits(u)
    || exists k :: 0 <= k < |u| && ExponentPart(u[k..])
         && ((u[..k] != [] && Digits(u[..k])) || PointedDigits(u[..k]))
  }

  /** `0x`, `0o` or `0b` (either case) with the radix it introduces; 0 for no such prefix. */
  function PrefixRadix(t: string): (radix: nat)
    ensures radix == 0 || radix == 16 || radix == 8 || radix == 2
  {
    if |t| < 2 || t[0] != '0' then 0
    else if t[1] == 'x' || t[1] == 'X' then 16
    else if t[1] == 'o' || t[1] == 'O' then 8
    else if t[1] == 'b' || t[1] == 'B' then 2
    else 0
  }

  /**
   * `Number(s)`: surrounding whitespace is ignored and blank text is 0; a
   * prefixed numeral reads in its radix and takes no sign; a decimal numeral
   * may take one sign; anything else is NaN.
   */
  function ToNumber(s: string): (v: NumberValue)
    ensures Trim(s) == "" ==> v == Whole(0)
    ensures Trim(s) != "" && Digits(Trim(s)) ==> v == Whole(ParseNat(Trim(s)))
  {
    NumberText(Trim(s))
  }

  /** `Number` of a text with no whitespace at either end. */
  function NumberText(t: string): (v: NumberValue)
    ensures t == "" ==> v == Whole(0)
    ensures t != "" && Digits(t) ==> v == Whole(ParseNat(t))
  {
    if t == [] then Whole(0)
    else if PrefixRadix(t) != 0 then RadixNumber(t[2..], PrefixRadix(t))
    else if t[0] == '-' then Negated(DecimalNumber(t[1..]))
    else if t[0] == '+' then DecimalNumber(t[1..])
    else DecimalNumber(t)
  }

  /** The digits after a `0x`, `0o` or `0b` prefix: at least one, all of the radix. */
  function RadixNumber(digits: string, radix: nat): (v: NumberValue)
    ensures v.Whole? <==> digits != [] && RadixDigits(digits, radix)
    ensures v.Whole? ==> v.value >= 0
  {
    if digits != [] && RadixDigits(digits, radix) then Whole(ParseRadix(digits, radix)) else NaN
  }

  /** An unsigned decimal numeral. */
  function DecimalNumber(u: string): (v: NumberValue)
    ensures v.Whole? <==> u != [] && Digits(u)
    ensures v.Whole? ==> v.value == ParseNat(u)
  {
    if u != [] && Digits(u) then Whole(ParseNat(u))
    else if OtherDecimal(u) then Unmodelled
    else NaN
  }

  /** A leading minus sign. */
  function Negated(v: NumberValue): (r: NumberValue)
    ensures r.Whole? <==> v.Whole?
    ensures r.Whole? ==> r.value == -v.value
    ensures !v.Whole? ==> r == v
  {
    if v.Whole? then Whole(-v.value) else v
  }

  /** Whitespace before a text that starts with a non-space is what `trimStart` removes. */
  lemma {:induction false} TrimStartBlanks(pad: string, x: string)
    requires forall i :: 0 <= i < |pad| ==> IsSpace(pad[i])
    requires x != [] && !IsSpace(x[0])
    ensures TrimStart(pad + x) == x
    decreases |pad|
  {
    if pad == [] {
      assert pad + x == x;
    } else {
      var s := pad + x;
      assert s[0] == pad[0] && IsSpace(s[0]);
      assert s[1..] == pad[1..] + x;
      assert TrimStart(s) == TrimStart(s[1..]);
      TrimStartBlanks(pad[1..], x);
    }
  }

  /** Whitespace after a text that ends with a non-space is what `trimEnd` removes. */
  lemma {:induction false} TrimEndBlanks(x: string, pad: string)
    requires forall i :: 0 <= i < |pad| ==> IsSpace(pad[i])
    requires x != [] && !IsSpace(x[|x| - 1])
    ensures TrimEnd(x + pad) == x
    decreases |pad|
  {
    if pad == [] {
      assert x + pad == x;
    } else {
      var s := x + pad;
      assert s[|s| - 1] == pad[|pad| - 1] && IsSpace(s[|s| - 1]);
      assert s[..|s| - 1] == x + pad[..|pad| - 1];
      assert TrimEnd(s) == TrimEnd(s[..|s| - 1]);
      TrimEndBlanks(x, pad[..|pad| - 1]);
    }
  }

  /** Leading zeros do not change the value of a digit string. */
  lemma {:induction false} LeadingZeros(zeros: nat, digits: string)
    requires Digits(digits)
    ensures Digits(seq(zeros, _ => '0') + digits)
    ensures ParseNat(seq(zeros, _ => '0') + digits) == ParseNat(digits)
    decreases |digits|, zeros
  {
    var z := seq(zeros, _ => '0');
    var t := z + digits;
    assert Digits(t) by {
      forall i | 0 <= i < |t| ensures IsDigit(t[i]) {
        if i >= zeros { assert t[i] == digits[i - zeros]; }
      }
    }
    if digits != [] {
      assert t[..|t| - 1] == z + digits[..|digits| - 1];
      LeadingZeros(zeros, digits[..|digits| - 1]);
    } else if zeros > 0 {
      assert t == seq(zeros - 1, _ => '0') + ['0'];
      assert t[..|t| - 1] == seq(zeros - 1, _ => '0') + [];
      LeadingZeros(zeros - 1, []);
    }
  }

  /**
   * The number of a printed natural number is that number, also with leading
   * zeros and surrounding blanks, as in a join code typed as " 0123 ".
   */
  lemma NumberOfPrinted(n: nat, zeros: nat, blanks: nat)
    ensures var text := seq(zeros, _ => '0') + NatToString(n);
      var pad := seq(blanks, _ => ' ');
      ToNumber(pad + text + pad) == Whole(n)
  {
    var digits := NatToString(n);
    var text := seq(zeros, _ => '0') + digits;
    var pad := seq(blanks, _ => ' ');
    LeadingZeros(zeros, digits);
    assert pad + text + pad == pad + (text + pad);
    TrimStartBlanks(pad, text + pad);
    TrimEndBlanks(text, pad);
    assert Trim(pad + text + pad) == text;
    ParseNatToString(n);
  }

  /** A text with no whitespace at either end is its own trim. */
  lemma TrimUnpadded(x: string)
    requires x != [] && !IsSpace(x[0]) && !IsSpace(x[|x| - 1])
    ensures Trim(x) == x
    ensures ToNumber(x) == NumberText(x)
  {
    assert TrimStart(x) == x;
    assert TrimEnd(x) == x;
  }

  /**
   * A character that no decimal numeral contains (not a digit, point or sign,
   * and an exponent letter only at the very end) rules out every decimal
   * reading of the text.
   */
  lemma StrayCharacter(u: string, i: nat)
    requires i < |u| && !IsDigit(u[i]) && u[i] !in ".+-"
    requires u[i] in "eE" ==> i == |u| - 1
    requires u != "Infinity"
    ensures !Digits(u) && !OtherDecimal(u)
  {
    assert !PointedDigits(u) by { NotPointed(u, i); }
    forall k | 0 <= k < |u|
      ensures ExponentPart(u[k..]) ==> !(u[..k] != [] && Digits(u[..k])) && !PointedDigits(u[..k])
    {
      if k < i {
        NotExponent(u[k..], i - k);
      } else if k == i {
        assert u[k..][0] == u[i];
        assert !ExponentPart(u[k..]);
      } else {
        assert u[..k][i] == u[i];
        NotPointed(u[..k], i);
      }
    }
  }

  /** A stray character is not part of digits around a point. */
  lemma NotPointed(m: string, i: int)
    requires 0 <= i < |m| && !IsDigit(m[i]) && m[i] != '.'
    ensures !PointedDigits(m)
  {
    forall p | 0 <= p < |m| && m[p] == '.' ensures !(Digits(m[..p]) && Digits(m[p + 1..])) {
      if i < p {
        assert m[..p][i] == m[i];
      } else {
        assert m[p + 1..][i - p - 1] == m[i];
      }
    }
  }

  /** After its letter an exponent part holds one optional sign and then only digits. */
  lemma NotExponent(e: string, i: int)
    requires 1 <= i < |e| && !IsDigit(e[i]) && e[i] != '+' && e[i] != '-'
    ensures !ExponentPart(e)
  {
    if |e| >= 2 && (e[1] == '+' || e[1] == '-') {
      assert i >= 2 && e[1..][1..][i - 2] == e[i];
    } else {
      assert e[1..][i - 1] == e[i];
    }
  }

  /** A minus sign before a printed number negates it. */
  lemma NumberOfNegative(n: nat)
    ensures ToNumber("-" + NatToString(n)) == Whole(-(n as int))
  {
    var t := "-" + NatToString(n);
    TrimUnpadded(t);
    assert t[1..] == NatToString(n);
    ParseNatToString(n);
  }

  /**
   * Hexadecimal digits after `0x` read in radix 16, and a sign before the
   * prefix makes the text NaN.
   */
  lemma NumberOfHex(d: string)
    requires d != [] && RadixDigits(d, 16)
    ensures ToNumber("0x" + d) == Whole(ParseRadix(d, 16))
    ensures ToNumber("-0x" + d) == NaN
  {
    var t := "0x" + d;
    assert t[|t| - 1] == d[|d| - 1];
    TrimUnpadded(t);
    assert NumberText(t) == RadixNumber(d, 16) by { assert t[2..] == d; }
    var m := "-" + t;
    assert m == "-0x" + d;
    assert m[|m| - 1] == t[|t| - 1];
    TrimUnpadded(m);
    assert NumberText(m) == Negated(DecimalNumber(t)) by { assert m[1..] == t; }
    StrayCharacter(t, 1);
  }

  /** A word of lower-case letters is NaN. */
  lemma NumberOfWord(w: string)
    requires w != [] && forall i :: 0 <= i < |w| ==> IsLower(w[i])
    ensures ToNumber(w) == NaN
  {
    TrimUnpadded(w);
    assert w != "Infinity" by { assert IsLower(w[0]); }
    StrayCharacter(w, |w| - 1);
  }

  /** A numeral with a decimal point is outside the integers modelled. */
  lemma NumberOfPointed(x: string, y: string)
    requires x != [] && Digits(x) && Digits(y)
    ensures ToNumber(x + "." + y) == Unmodelled
  {
    var t := x + "." + y;
    assert t[0] == x[0];
    assert t[|t| - 1] == '.' || t[|t| - 1] == y[|y| - 1];
    TrimUnpadded(t);
    assert NumberText(t) == DecimalNumber(t) by {
      assert PrefixRadix(t) == 0 by { assert t[1] == '.' || IsDigit(t[1]); }
    }
    assert t[|x|] == '.';
    assert PointedDigits(t) by {
      assert t[..|x|] == x && t[|x| + 1..] == y;
    }
  }

  /** `parts.join("")` */
  function Concat(parts: seq<string>): (r: string)
    ensures |parts| == 0 ==> r == ""
  {
    if parts == [] then "" else parts[0] + Concat(parts[1..])
  }

  /** `parts.join(sep)` */
  function Join(parts: seq<string>, sep: string): string {
    if parts == [] then ""
    else if |parts| == 1 then parts[0]
    else parts[0] + sep + Join(parts[1..], sep)
  }

  /** `s.indexOf(sep)`: the first offset where `sep` occurs, or -1. */
  function IndexOf(s: string, sep: string): (k: int)
    requires sep != ""
    ensures k == -1 || 0 <= k <= |s| - |sep|
    ensures k >= 0 ==> OccursAt(sep, s, k)
    ensures forall j :: 0 <= j && (k == -1 || j < k) ==> !OccursAt(sep, s, j)
    decreases |s|
  {
    if |s| < |sep| then -1
    else if s[..|sep|] == sep then 0
    else
      var r := IndexOf(s[1..], sep);
      forall j | 0 <= j && (r == -1 || j < r + 1) ensures !OccursAt(sep, s, j) {
        if j > 0 && OccursAt(sep, s, j) {
          assert s[1..][j - 1..j - 1 + |sep|] == s[j..j + |sep|];
          assert OccursAt(sep, s[1..], j - 1);
        }
      }
      if r == -1 then -1
      else
        assert s[1..][r..r + |sep|] == s[r + 1..r + 1 + |sep|];
        r + 1
  }

  /** `s.split(sep)`: the pieces between successive occurrences of `sep`, left to right. */
  function Split(s: string, sep: string): (parts: seq<string>)
    requires sep != ""
    ensures |parts| >= 1
    decreases |s|
  {
    var k := IndexOf(s, sep);
    if k < 0 then [s] else [s[..k]] + Split(s[k + |sep|..], sep)
  }

  /** In a piece without ", " followed by ", ", the first ", " is the appended one. */
  lemma FirstCommaSpace(a: string, rest: string)
    requires !OccursIn(", ", a)
    ensures IndexOf(a + ", " + rest, ", ") == |a|
  {
    var s := a + ", " + rest;
    assert s[|a|..|a| + 2] == ", ";
    assert OccursAt(", ", s, |a|);
    forall j | 0 <= j < |a| ensures !OccursAt(", ", s, j) {
      if j + 2 <= |a| {
        assert a[j..j + 2] == s[j..j + 2];
        assert !OccursAt(", ", a, j);
      } else {
        assert s[j + 1] == ',';
      }
    }
  }

  /** Splitting a piece without ", " followed by ", " and more text yields the piece, then the split of the rest. */
  lemma SplitAfterFirst(a: string, rest: string)
    requires !OccursIn(", ", a)
    ensures Split(a + ", " + rest, ", ") == [a] + Split(rest, ", ")
  {
    var s := a + ", " + rest;
    FirstCommaSpace(a, rest);
    assert s[..|a|] == a;
    assert s[|a| + 2..] == rest;
  }

  /**
   * Splitting topics joined with ", " at ", " gives the topics back, provided
   * no topic itself contains ", ".
   */
  lemma {:induction false} SplitJoin(parts: seq<string>)
    requires |parts| >= 1
    requires forall i :: 0 <= i < |parts| ==> !OccursIn(", ", parts[i])
    ensures Split(Join(parts, ", "), ", ") == parts
    decreases |parts|
  {
    if |parts| == 1 {
      assert Join(parts, ", ") == parts[0];
    } else {
      var a := parts[0];
      var rest := Join(parts[1..], ", ");
      assert Join(parts, ", ") == a + ", " + rest;
      SplitAfterFirst(a, rest);
      SplitJoin(parts[1..]);
      assert parts == [a] + parts[1..];
    }
  }
}
